=== FILE: README.md ===
# pendant-recorder-companion ingestion core, modelled in Dafny

This project models the ingestion core of a USB voice-recorder companion. The
tool watches removable drives for a `RECORD` folder. It converts every WAV
recording it finds to MP3 and transcribes it with Whisper, WhisperX or a remote
service. It then writes an Obsidian note that embeds the recording and lists
the transcript. Independently, a voice-activity recorder cuts a live
microphone stream into recordings.

The model is purely functional. Every collaborator that touches the OS, the
audio libraries, the speech models or the network is an input to the model:

- a call that may raise is an `Attempt` (`Returned(v)` or `Raised`);
- a listing is a `seq<string>`;
- folder existence and per-path success are predicates;
- the clock is a `DateTime` parameter.

One module per source component:

| module | file | models |
|---|---|---|
| `RecordHandler` | record_handler.dfy | src/record_folder_handler.py: event filter, filename time parse, convert → transcribe → publish run, in-flight set, deletions on success, initial scan |
| `LegacyRecordHandler` | legacy_record_handler.dfy | record_folder_handler.py (older handler: clock title, WAV-only deletion) |
| `VadRecording` | vad.dfy | src/audio/vad_recorder.py: callback, start/stop flags, the segmentation fold, output file name |
| `DriveMonitoring` | drive_monitor.dfy | the shared `check_drive` / `start_folder_monitoring` / `stop_monitoring` logic and the poll pass of the three monitors |
| `WindowsMonitor`, `UnixMonitor`, `OsxMonitor` | windows_monitor.dfy, unix_monitor.dfy, osx_monitor.dfy | drive listing (bitmask, mount table, `/Volumes`), removability, one poll cycle |
| `ObsidianNotes`, `LegacyObsidianNotes` | obsidian.dfy, legacy_obsidian.dfy | note and media paths, the note text |
| `Converter` | converter.dfy | src/audio/converter.py |
| `Transcriber` | transcriber.dfy | src/audio/transcriber.py |
| `AudioProcessing` | audio_processor.dfy | src/audio_processor.py |
| `Providers`, `Segments` | providers.dfy, segments.dfy | the three transcription providers and their shared `MM:SS` segment mapping |
| `Factories` | factories.dfy | src/factories.py |
| `Outcomes`, `Strings`, `Decimal`, `Clock`, `Paths` | outcomes.dfy, strings.dfy, decimal.dfy, clock.dfy, paths.dfy | helpers with the meaning of Python's `None`/exceptions, `str` methods, `str(n)`/`%02d`, `datetime`/`strftime`/`strptime`, and POSIX `os.path` (`posixpath`, where `/` is the only separator) |

## Behaviour of the code worth knowing

- The VAD consumer buffers every chunk, including chunks before any speech. A
  flush hands over the whole buffer, pre-speech chunks and trailing silence
  included.
- The VAD output name is `vad_recording_YYYYMMDD_HHMMSS.mp3`, with an
  underscore between date and time.
- The note body has no fallback line for an empty transcript. Nothing
  follows `## Transcription`.
- No monitor clears in-flight entries when a drive goes away. The Windows
  monitor only forgets the vanished drive and keeps its observer running.
  The Unix and macOS monitors stop every observer and forget every drive as
  soon as one monitored drive is missing.
- The Unix and macOS monitors never scan a folder's existing files. Only the
  Windows monitor scans before it observes.
- The remote provider fails on the status codes `raise_for_status` rejects,
  400 to 599, not on every non-2xx status.
- The handlers call `convert_to_mp3` and `transcribe_audio` on the audio
  processor, but `AudioProcessor` in src/audio_processor.py defines only
  `process_wav_files`. The VAD recorder calls `process_vad_recording` on the
  vault manager, but `ObsidianManager` in src/obsidian_manager.py defines only
  `create_note`. With these classes those calls raise `AttributeError`. The
  model takes the outcome of each such call as an input, so it covers both
  that failure and an implementation that returns.

## Model

| member | source | states |
|---|---|---|
| `RecordHandler.ParseDateTimeFromFilename` | src/record_folder_handler.py:58-67 | a time is returned when the text between the first three characters and the first dot is a valid 14-digit ASCII `YYYYMMDDhhmmss`, and only then in the strict form modelled; it renders back to that text |
| `RecordHandler.FilenameRoundTrip` | src/record_folder_handler.py:58-67 | any 3-character tag, then the compact rendering of a valid time, then an extension starting with `.` parses back to that time |
| `RecordHandler.ExampleRecorderName` | src/record_folder_handler.py:58-64 | `REC20241025043932.wav` parses to 2024-10-25 04:39:32 |
| `RecordHandler.ExampleBogusName` | src/record_folder_handler.py:61-67 | `bogus.wav` parses to None |
| `RecordHandler.TitleOfFilename` | src/record_folder_handler.py:99 | the note title is `Recording_` plus the filename's date digits, `_`, and its time digits, for years of four digits |
| `RecordHandler.DeleteSources` | src/record_folder_handler.py:114-122 | the WAV removal is tried first; the MP3 removal is tried exactly when the WAV removal worked; the deleted list holds the removals that worked |
| `RecordHandler.PublishStage` | src/record_folder_handler.py:98-122 | the stage succeeds exactly when the note writer returned for this title, transcript and MP3; then its later calls and deletions are those of deleting the sources, and otherwise nothing is removed |
| `RecordHandler.TranscribeStage` | src/record_folder_handler.py:91-101 | the stage fails at transcription exactly when the transcriber raised or returned None or an empty transcript; otherwise the note is created from that very transcript under the filename title, and the rest of the run is the publication stage |
| `RecordHandler.ConvertStage` | src/record_folder_handler.py:84-96 | the stage fails at conversion exactly when the converter raised or returned no usable path; otherwise the path it returned is the one transcribed and the rest of the run is the transcription stage; the number of calls tells which stage failed |
| `RecordHandler.UsableMp3` | src/record_folder_handler.py:86-87 | the handler goes on exactly with a returned, non-empty MP3 path, and with that path |
| `RecordHandler.UsableTranscript` | src/record_folder_handler.py:93-94 | the handler goes on exactly with a returned, non-empty transcript, and with that transcript |
| `RecordHandler.PublishRemovals` | src/record_folder_handler.py:114-122 | after a note, the WAV removal comes first; the MP3 removal follows exactly when the WAV removal worked; the deleted files are the removals that worked |
| `RecordHandler.ProcessWavFileShape` | src/record_folder_handler.py:69-122 | the in-flight set afterwards is the set before minus the path, on every outcome; calls follow pipeline order; a name that does not parse fails with no collaborator call, and otherwise the first call converts the WAV with the parsed time; the run succeeds exactly when conversion and transcription gave usable results and the note writer returned |
| `RecordHandler.StagesStopAtFirstFailure` | src/record_folder_handler.py:80-101 | the run fails at conversion, transcription or publication exactly when that collaborator is the first whose answer is unusable (the note writer raising, for publication); the number of calls then ends at that stage; anything deleted implies the run succeeded |
| `RecordHandler.NoteTitleFromFilename` | src/record_folder_handler.py:86-101 | transcription is called exactly when the conversion gave a usable path, on that path; a note is created exactly when the transcript is usable, from that transcript, under the title from the filename time, for that MP3 |
| `RecordHandler.WavRemovedBeforeMp3` | src/record_folder_handler.py:101-122 | success implies the note writer returned; the WAV removal comes first, the removal of the converted MP3 follows exactly when the WAV removal worked, and the deleted list holds the removals that worked |
| `RecordHandler.OnCreated` | src/record_folder_handler.py:48-56 | a run happens exactly for a non-directory path ending in `.wav` (any case) that is not in flight; the run releases the path |
| `RecordHandler.DuplicateEventDropped` | src/record_folder_handler.py:52-56 | an event for a path already in flight does nothing |
| `RecordHandler.ReleasedExactly` | src/record_folder_handler.py:109-111 | after running a sequence of paths, the in-flight set holds exactly the original members that are not among those paths |
| `RecordHandler.ScanExistingFiles` | src/record_folder_handler.py:39-46 | every `.wav` entry (any case) is processed in listing order without consulting the in-flight set; none of them stays in flight |
| `RecordHandler.ScanRunsPerFile` | src/record_folder_handler.py:42-46 | the i-th run of the scan is the run for the i-th `.wav` path |
| `Strings.HasWavSuffixIsLowerEndsWith` | src/record_folder_handler.py:50 | the character-wise suffix test is exactly `lower().endswith('.wav')` |
| `LegacyRecordHandler.LegacyProcessWavFile` | record_folder_handler.py:58-102 | the path is released on every exit; conversion gets no time; a None or empty transcription means no note; the title comes from the clock; on success only the WAV is removed |
| `LegacyRecordHandler.LegacyRunFollowsCollaborators` | record_folder_handler.py:66-87 | the run fails at conversion exactly when the converter gave no usable path, and otherwise transcribes that path; it fails at transcription exactly when the transcript is unusable; the note gets that transcript and MP3 under the clock title; the run succeeds exactly when the note writer returned |
| `LegacyRecordHandler.OnlyWavRemoved` | record_folder_handler.py:94-102 | the only file ever removed is the WAV, and only after a note was created |
| `LegacyRecordHandler.LegacyOnCreated` | record_folder_handler.py:48-56 | the older handler uses the same filter and dedup as the newer one |
| `LegacyRecordHandler.LegacyScanExistingFiles` | record_folder_handler.py:39-46 | every `.wav` entry is processed in listing order with no dedup check; each releases its path |
| `VadRecording.SettingsOf` | src/audio/vad_recorder.py:50-52 | missing keys default to threshold 0.5, min speech 250 ms and min silence 1000 ms; given keys are kept |
| `VadRecording.Step` | src/audio/vad_recorder.py:67-92 | a step flushes exactly when speech is active, the chunk is quiet and accumulated silence strictly exceeds the minimum; the flush is the buffer plus the chunk and the state resets; otherwise the chunk joins the buffer; speech that begins a recording zeroes the silence, later speech keeps it, quiet after speech adds the chunk, and a failing model call changes neither |
| `VadRecording.StepKeepsConsistent` | src/audio/vad_recorder.py:78-92 | no silence count without speech, and speech implies a speech chunk in the buffer; a flush holds speech and ends with a quiet chunk |
| `VadRecording.ConsumeConserves` | src/audio/vad_recorder.py:67-92 | the flushed recordings followed by what is still buffered are exactly the chunks consumed, in order |
| `VadRecording.ConsumeFlushesSpeech` | src/audio/vad_recorder.py:78-92 | every flushed recording is non-empty, contains speech and ends with the quiet chunk that closed it |
| `VadRecording.NoSpeechNoFlush` | src/audio/vad_recorder.py:83-92 | without speech nothing is flushed, and every chunk stays buffered |
| `VadRecording.QuietRunFlushes` | src/audio/vad_recorder.py:83-92 | after speech, quiet chunks whose silence first exceeds the minimum with the last of them flush exactly the buffer and those chunks, as one recording, and the consumer starts over |
| `VadRecording.SpeechThenSilenceFlushes` | src/audio/vad_recorder.py:78-92 | from any state, a speech chunk followed by quiet chunks whose silence first exceeds the minimum with the last of them flushes exactly the buffer, the speech chunk and the quiet chunks |
| `VadRecording.ProcessAudio` | src/audio/vad_recorder.py:61-97 | the consumer run from a fresh state conserves the chunks; every recording it saves holds speech; what is buffered at stop is not flushed |
| `VadRecording.SilenceMustExceedMinimum` | src/audio/vad_recorder.py:84-92 | with the defaults, exactly one second of silence does not flush; more does, and the flush includes the silence chunks |
| `VadRecording.AudioCallback` | src/audio/vad_recorder.py:54-59 | the chunk is queued only while recording; the flags do not change |
| `VadRecording.Start` | src/audio/vad_recorder.py:136-143 | with `enabled` false or missing nothing changes; otherwise recording is on and the stop flag is clear |
| `VadRecording.Stop` | src/audio/vad_recorder.py:160-164 | acts only while recording; afterwards recording is off and the stop flag is set |
| `VadRecording.StopSettles` | src/audio/vad_recorder.py:160-164 | stopping twice is stopping once, and once stopped the callback queues nothing |
| `VadRecording.DisabledNeverRecords` | src/audio/vad_recorder.py:136-140 | a disabled recorder stays not recording and queues nothing |
| `VadRecording.VadRecordingPath` | src/audio/vad_recorder.py:117-125 | the file is named `vad_recording_<YYYYMMDD_HHMMSS>.mp3` and lies under vault/output folder, joined as `os.path.join` would; under the vault itself when the output folder is relative |
| `VadRecording.VadFileNameRoundTrip` | src/audio/vad_recorder.py:118-119 | the file name's 14 digits, without the underscore, parse back to the save time |
| `VadRecording.SaveRecording` | src/audio/vad_recorder.py:99-134 | a file is written exactly when the export works, even when the hand-over to the vault manager then fails; it lies in the output folder under the timestamped name; the manager is handed the file exactly when both steps work; errors are swallowed |
| `VadRecording.SavedFileRecordsItsTime` | src/audio/vad_recorder.py:117-125 | the time read back from a written file's name is the clock reading of the save |
| `DriveMonitoring.StartFolderMonitoring` | src/windows_drive_monitor.py:98-111 | with scanning, the scan comes first and an observer is added only when both the scan and the observer start succeed; without scanning only an observer is attempted |
| `DriveMonitoring.JoinedRecordPath` | src/unix_drive_monitor.py:96 | the record folder is the mount point joined with the folder name (the macOS monitor does the same at src/osx_drive_monitor.py:83): it starts with the mount point when the name is relative, and its basename is the folder name; a missing name gives no path |
| `DriveMonitoring.CheckDrive` | src/windows_drive_monitor.py:87-96 | monitoring starts only for a drive with the record folder that is not yet monitored; the drive is added even when observer setup failed; other drives are untouched |
| `DriveMonitoring.CheckDriveIdempotent` | src/windows_drive_monitor.py:91 | checking an already-monitored drive again changes nothing and starts nothing |
| `DriveMonitoring.CheckAllMonitors` | src/windows_drive_monitor.py:117-121 | after a pass, a drive is monitored exactly when it was before or is listed, removable and has the record folder |
| `DriveMonitoring.CheckAllSettles` | src/windows_drive_monitor.py:117-121 | a second pass with the same facts starts nothing and changes nothing |
| `DriveMonitoring.ScansComeFirst` | src/windows_drive_monitor.py:101-107 | when scanning, every observer start comes right after the scan of the same folder |
| `DriveMonitoring.OnlyObservesWithoutScan` | src/unix_drive_monitor.py:104-114 | without scanning, a pass only starts observers and never scans existing files |
| `DriveMonitoring.StopMonitoring` | src/unix_drive_monitor.py:116-123 | afterwards there are no observers and no monitored drives |
| `DriveMonitoring.PollCycle` | src/unix_drive_monitor.py:125-142 | everything is stopped exactly when some monitored drive is not listed, and then the monitored set is empty, drives still present included |
| `DriveMonitoring.PollCycleKeeps` | src/unix_drive_monitor.py:129-138 | when no monitored drive vanished, monitored drives are kept, eligible ones are added, and observers are only appended |
| `WindowsMonitor.AvailableDrivesShape` | src/windows_drive_monitor.py:68-76 | the output is letters `A:`..`Z:` in strictly ascending order |
| `WindowsMonitor.AvailableDrivesMembers` | src/windows_drive_monitor.py:68-76 | letter i is listed exactly when bit i of the mask is set |
| `WindowsMonitor.HighBitsIgnored` | src/windows_drive_monitor.py:72-75 | bits at position 26 and above do not change the list |
| `WindowsMonitor.SixteenIsDriveE` | src/windows_drive_monitor.py:68-76 | the mask 16 lists exactly `E:` |
| `WindowsMonitor.WindowsRecordPath` | src/windows_drive_monitor.py:89 | the record folder is the drive root `X:\` followed by the folder name and nothing else, for a plain relative folder name; a missing name gives no path |
| `WindowsMonitor.WindowsCycle` | src/windows_drive_monitor.py:113-132 | after a cycle a drive is monitored exactly when it is current (listed and of removable type; a failing type query counts as not removable) and was monitored or has the folder; a failing drive listing changes nothing; observers are never removed; scans precede observers |
| `WindowsMonitor.WindowsCycleDropsOnlyVanished` | src/windows_drive_monitor.py:117-127 | monitored drives are a subset of current drives, and monitored drives still current stay monitored |
| `WindowsMonitor.RemovedDriveKeepsObserver` | src/windows_drive_monitor.py:98-127 | a drive that disappears is forgotten while its observer stays in the list |
| `UnixMonitor.GetMountPoint` | src/unix_drive_monitor.py:77-87 | an unreadable mount table gives None; a found mount point is the second field of a row whose first field is the node |
| `UnixMonitor.MountPointOfTable` | src/unix_drive_monitor.py:77-87 | over a well-formed table, the result is the mount point of the first entry for the node |
| `UnixMonitor.MountPointNotInTable` | src/unix_drive_monitor.py:77-87 | over a well-formed table with no entry for the node, the result is None |
| `UnixMonitor.BlankLineEndsSearch` | src/unix_drive_monitor.py:80-86 | a blank line raises the index error that ends the search with None, even before a matching line |
| `UnixMonitor.AvailableDrives` | src/unix_drive_monitor.py:67-75 | a mount point is listed exactly when some partition is a USB block device whose non-empty mount point was found |
| `UnixMonitor.UnixCycle` | src/unix_drive_monitor.py:89-102 | every listed drive counts as removable; a missing monitored drive stops everything; otherwise exactly the listed drives with the record folder are added |
| `UnixMonitor.StillPresentDriveIsDropped` | src/unix_drive_monitor.py:135-138 | unplugging one of two monitored drives also drops the one still present |
| `OsxMonitor.AvailableDrivesShape` | src/osx_drive_monitor.py:65-68 | a path is listed exactly when it is `/Volumes/<name>` for a mount-point entry; every listed path is under `/Volumes/`; no more paths than entries |
| `OsxMonitor.IsRemovableDrive` | src/osx_drive_monitor.py:70-78 | a volume is removable exactly when `diskutil` ran and its output contains `Removable Media: Yes` |
| `OsxMonitor.FixedMediaIsNotRemovable` | src/osx_drive_monitor.py:75 | `Removable Media: Fixed` does not count |
| `OsxMonitor.OsxCycle` | src/osx_drive_monitor.py:112-129 | removal is judged against all listed volumes; any removal stops everything; otherwise removable volumes with the folder are added |
| `OsxMonitor.ListedVolumeStaysMonitored` | src/osx_drive_monitor.py:120-125 | a listed volume that is no longer reported removable stays monitored |
| `ObsidianNotes.NewManager` | src/obsidian_manager.py:30-33 | the media folder is the vault joined with the folder name |
| `ObsidianNotes.NoteFileName` | src/obsidian_manager.py:39 | the note file name is the title with every space replaced by `_` and every other character kept, then `.md` |
| `ObsidianNotes.NotePath` | src/obsidian_manager.py:38-40 | the note sits in the vault root under that file name |
| `ObsidianNotes.MediaPath` | src/obsidian_manager.py:42-45 | the copy goes into the media folder under the MP3's own basename |
| `ObsidianNotes.DurationLineRoundTrip` | src/obsidian_manager.py:48-55 | the `Duration: {d div 60}m {d mod 60}s` line reads back as d |
| `ObsidianNotes.NoteLines` | src/obsidian_manager.py:53-68 | the corrected note (`NoteBody`, each bullet ending in a line break) is front matter (Created, Duration), `# title`, the embed, `## Transcription`, then one bullet per segment in order |
| `ObsidianNotes.BulletRoundTrip` | src/obsidian_manager.py:66-67 | a bullet `- **ts**: text` gives its segment back |
| `ObsidianNotes.NoteTranscriptRoundTrip` | src/obsidian_manager.py:64-68 | the bullets of the corrected note (`NoteBody`) read back as the segments, in order; the note the code writes (`NoteBodyAsWritten`) does not, see Findings |
| `ObsidianNotes.EmptyTranscriptAddsNothing` | src/obsidian_manager.py:61-68 | with no segments the note ends right after the `## Transcription` line |
| `ObsidianNotes.EmbedNamesTheCopy` | src/obsidian_manager.py:43-59 | the embed line names the MP3 basename, which is the copy's name |
| `ObsidianNotes.AsWrittenTranscriptIsOneLine` | src/obsidian_manager.py:64-68 | as written, the whole transcript is a single line of the note |
| `ObsidianNotes.TwoSegmentsShareOneLine` | src/obsidian_manager.py:67 | two segments share one line as written, and take two lines once corrected |
| `ObsidianNotes.CreateNote` | src/obsidian_manager.py:36-74 | the copy comes first, then the duration read, then the note write; the first failure raises and stops the later steps; a written note has the body as the code renders it (transcript on one line) at the note path |
| `ObsidianNotes.CreateNoteCorrected` | src/obsidian_manager.py:36-74 | the same steps, succeeding under the same conditions, writing the body with one bullet per line |
| `ObsidianNotes.CorrectedWriterChangesOnlyText` | src/obsidian_manager.py:64-68 | the corrected writer raises, copies and places the note exactly as the code does; only the text differs, and not for an empty transcript |
| `LegacyObsidianNotes.ContentVerbatim` | obsidian_manager.py:45-56 | the content is inserted unchanged after the transcription heading, and the note ends with `---` and a `Created:` line |
| `LegacyObsidianNotes.LegacyNoteLines` | obsidian_manager.py:45-56 | line by line: `# title`, the embed, `## Transcription`, the content, `---`, `Created:` |
| `LegacyObsidianNotes.LegacyCreateNote` | obsidian_manager.py:35-62 | copy into `media_folder/basename`, then write; a failure raises; the note path is the vault plus the sanitized title |
| `LegacyObsidianNotes.WritersAgreeOnPlaces` | obsidian_manager.py:37-44 | the older and newer writers put the note and the copy in the same places |
| `Converter.Mp3PathForShape` | src/audio/converter.py:45-47 | the MP3 ends in `.mp3` and its basename is the WAV's basename without its last extension, plus `.mp3` |
| `Converter.Mp3PathOfRecording` | src/audio/converter.py:45-47 | `dir/stem.wav` becomes `temp_dir/stem.mp3` |
| `Converter.ConvertToMp3` | src/audio/converter.py:32-59 | any failure returns None; the file times are set only when a creation time is given; a failed time stamp still leaves the exported MP3 |
| `Converter.ClearTempDirectory` | src/audio/converter.py:90-98 | removes only `.mp3` names, in order, until a removal fails; an unreadable listing removes nothing |
| `Converter.RemovalsAreMp3` | src/audio/converter.py:93-95 | every removal attempted names a `.mp3` file |
| `Converter.ConvertListing` | src/audio/converter.py:77-82 | the collected paths are those of the successful conversions of case-sensitive `.wav` names, in listing order |
| `Converter.BatchProcessWavFiles` | src/audio/converter.py:61-88 | the effects are the removals the clearing attempted, then one conversion per `.wav` path, so clearing comes first and removes only `.mp3` files; an unreadable listing returns the empty list collected so far |
| `Converter.ConvertedFromWavNames` | src/audio/converter.py:77-82 | each returned path is the MP3 path of a `.wav` name, and there are never more of them than `.wav` names |
| `Converter.ConvertedAllSucceed` | src/audio/converter.py:77-82 | when every conversion succeeds, the i-th result is the MP3 path of the i-th `.wav` name |
| `Transcriber.SetupProvider` | src/audio/transcriber.py:43-64 | the language defaults to `en` and the model to `base`; `whisperx` selects WhisperX; `remote` without a non-empty `api_url` fails; anything else selects Whisper |
| `Transcriber.EffectiveLanguage` | src/audio/transcriber.py:77-78 | the argument when it is truthy, otherwise the default |
| `Transcriber.EmptyConfigDefaults` | src/audio/transcriber.py:50-64 | an empty section sets up Whisper `base` with English |
| `Transcriber.RemoteRequestAlwaysHasLanguage` | src/audio/transcriber.py:66-78 | with a non-empty default, the remote request always carries a `language` field: the caller's language if given, else the default |
| `AudioProcessing.ResultFor` | src/audio_processor.py:49-60 | a success entry holds the path and transcription; a raised one holds the path and an error |
| `AudioProcessing.ProcessMp3Files` | src/audio_processor.py:48-60 | entry i is the entry for MP3 i and the transcriber's answer for it; a failing file does not stop the rest; the language is forwarded unchanged |
| `AudioProcessing.ProcessWavFiles` | src/audio_processor.py:31-61 | entry i is the entry for the i-th converted MP3 and the transcriber's answer for it; each names the MP3 of a `.wav` of the directory; an unlistable directory gives none |
| `Segments.SegmentOf` | src/transcription/whisper_provider.py:49-52 | the `MM:SS` stamp reads back as ⌊start⌋ seconds for a non-negative start; the text is the stripped segment text |
| `Segments.MapSegments` | src/transcription/whisper_provider.py:48-53 | one output per input segment, in order, each stamped and stripped |
| `Segments.TimestampRoundTrip` | src/transcription/whisper_provider.py:50-51 | `divmod` by 60 with `%02d` fields reads back as the number of seconds |
| `Strings.StripIdempotent` | src/transcription/whisper_provider.py:52 | stripping twice is stripping once |
| `Providers.LoadWhisper` | src/transcription/whisper_provider.py:13-28 | a model that fails to load falls back to `base`; construction raises only when both fail |
| `Providers.WhisperTranscribe` | src/transcription/whisper_provider.py:41-58 | an exception gives None; missing segments give an empty list; otherwise the shared mapping of the returned segments |
| `Providers.NameIdentifiesProvider` | src/transcription/whisper_provider.py:60-61 | names are `whisper-<model>`, `whisperx-<model>-<device>` and `remote-api`, and the name tells the kind of provider |
| `Providers.LoadWhisperX` | src/transcription/whisperx_provider.py:14-32 | a failed load falls back to `base` on `cpu` |
| `Providers.AlignLanguage` | src/transcription/whisperx_provider.py:53 | alignment uses `en` when no language is given |
| `Providers.WhisperXTranscribe` | src/transcription/whisperx_provider.py:45-66 | a result is returned exactly when the aligned output carries segments, and it is the shared mapping of those segments |
| `Providers.NewRemote` | src/transcription/remote_provider.py:21 | trailing `/` characters are stripped from the URL, and nothing else |
| `Providers.BuildRequest` | src/transcription/remote_provider.py:36-48 | the URL is `api_url/transcribe`; the bearer header is present exactly with a truthy key; the `language` field exactly with a truthy language |
| `Providers.RemoteTranscribe` | src/transcription/remote_provider.py:55-69 | an exception, an error status or an undecodable body gives None; missing segments give an empty list; otherwise the shared mapping of the returned segments |
| `Providers.ProvidersShareMapping` | src/transcription/remote_provider.py:59-63 | all three providers map the same segments to the same transcript |
| `Factories.PlatformOf` | src/factories.py:30-38 | `windows`, `darwin` and `linux` select their platform, and nothing else does |
| `Factories.CreateMonitor` | src/factories.py:13-44 | an implementation is chosen exactly when the lower-cased system name is a supported platform whose import succeeds; an unknown name is unsupported; a failing import is reported for the platform it belongs to |
| `Factories.CreateTray` | src/factories.py:51-82 | the tray is chosen, refused or import-failed under the same rules as the monitor |
| `Factories.FactoriesAgree` | src/factories.py:27-82 | with the same loadable implementations, monitor and tray dispatch agree |
| `Factories.CaseIsIgnored` | src/factories.py:27 | the system name is matched without regard to ASCII case |
| `Factories.DarwinSelectsMac` | src/factories.py:33-35 | `Darwin` selects the macOS implementation |
| `Clock.ParseCompact` | src/record_folder_handler.py:64 | strict `%Y%m%d%H%M%S`: accepted exactly for 14 ASCII digits forming a valid Gregorian date-time, which renders back to the input |
| `Clock.ParseFormatCompact` | src/record_folder_handler.py:64 | parsing the compact rendering of a valid time gives it back |

## Findings

| source | as written | input that shows it | evidently intended | confidence | as-written member | corrected member |
|---|---|---|---|---|---|---|
| src/obsidian_manager.py:67 | each transcript bullet ends with the two characters `\` and `n` (the f-string holds `\\n`) | two segments `00:00 Hello`, `00:05 world`: the note's transcript is one line holding both bullets | each bullet ends with a line break, one bullet per line | medium, not executed | `ObsidianNotes.AsWrittenTranscriptIsOneLine` | `ObsidianNotes.NoteTranscriptRoundTrip` |

`ObsidianNotes.NoteBodyAsWritten` is the note text as the code writes it, and
`ObsidianNotes.CreateNote` writes it. `ObsidianNotes.NoteBody` is the corrected
text, and `ObsidianNotes.CreateNoteCorrected` writes that one;
`ObsidianNotes.CorrectedWriterChangesOnlyText` shows the two writers differ in
nothing else. `ObsidianNotes.TwoSegmentsShareOneLine` contrasts the two texts
on that input.

## Left out

- Threads, the audio queue's blocking `get` with its timeout, the stop event, watchdog observers and event delivery, and the `time.sleep` poll loops are left out. They are concurrency. The consumer is a fold over a finite chunk sequence, and a monitor loop is one cycle.
- Silero inference, float-to-int16 scaling, pydub encoding, the mutagen duration read, Whisper/WhisperX model calls and the HTTP POST are left out. They are opaque results: a speech probability per chunk, a raw segment list, a status and a decoded body.
- `os.listdir`, `os.path.exists`, `os.remove`, `shutil.copy2`, `os.utime`, `/proc/mounts`, pyudev, WMI/win32 drive queries, the `diskutil` subprocess and `datetime.now()` are left out. Each becomes an input: a listing, a predicate, a success flag, mount-table lines, a bitmask or a `DateTime` parameter.
- Loading `config.json` and the `load_config` methods are left out; configuration values are parameters. The config manager, the ffmpeg lookup, the tray UIs, the process entry points and the model download script are not part of this model.
- The outcomes of `convert_to_mp3`, `transcribe_audio` and `process_vad_recording` are inputs (the `Collaborators` of the handlers and the `notifies` flag of `VadRecording.SaveRecording`). What those methods would do is not modelled, since `AudioProcessor` and `ObsidianManager` do not define them.
- Transcriber.SetupProvider: a configuration key that is present with a JSON `null` value is read as absent. So `"language": null` gives the default `en`, where `dict.get` returns `None`; the same holds for `model`.
- The files a folder scan or observer goes on to process are not connected to the drive-monitor model. The monitors record which folders they scan and observe; `RecordHandler.ScanExistingFiles` models the scan itself.
- VadRecording.Step: silence is summed in integer samples and compared as `samples * 1000 > min_silence_ms * 16000`, whereas the code adds float milliseconds; float rounding is not modelled. The unused `min_speech_duration_ms` is read but never consulted, as in the code.
- Segments.SegmentOf: segment start times are exact reals, not IEEE doubles. The timestamp round trip is stated for non-negative starts only.
- Clock.ParseCompact: models the strict 14-ASCII-digit form of `strptime`. Python's leniency is not modelled: it accepts one-digit fields in a shorter string, a field padded with a space (`202410 5043932` is 5 October), and non-ASCII decimal digits such as full-width `２０２４`. Such names are rejected by the model.
- RecordHandler.ParseDateTimeFromFilename: inherits the strict form of `Clock.ParseCompact`. A recorder name whose 14 characters hold a space-padded field or non-ASCII digits is parsed by the code and rejected by the model.
- Clock.DatePart: renders `%Y` as four digits. The C library's `strftime` may leave a year below 1000 unpadded (glibc writes `999`), so for such years the rendered text is platform-dependent and not modelled.
- RecordHandler.TitleOfFilename: the title equals the filename's digits only for years of four digits. For `REC09990102030405.wav` glibc gives `Recording_9990102_030405`, where the model gives `Recording_09990102_030405`.
- VadRecording.VadFileNameRoundTrip: the 33-character name holds only for years of four digits, for the same `strftime` reason.
- AudioProcessing.ResultFor: an error entry does not carry the exception's message text.
- LegacyObsidianNotes.LegacyCreateNote: `content` is already the string the f-string renders. Python's `str()` of the caller's transcript list is not modelled.
- OsxMonitor.OsxCycle: exceptions that escape the loop end the real loop; the model covers a cycle that completes. Such an exception can come from `Path("/Volumes").iterdir()` in `get_available_drives` or from `check_drive`, since the loop catches only KeyboardInterrupt.
- UnixMonitor.UnixCycle: exceptions from pyudev or `check_drive`'s callers that escape the loop (anything other than KeyboardInterrupt) end the real loop; the model covers a cycle that completes.
- Paths.Basename: paths follow POSIX `os.path` only, where `/` is the only separator. Windows `ntpath`, which also splits on `\` and knows drive letters, is not modelled. So `RecordHandler.ProcessWavFileShape`, `RecordHandler.ScanExistingFiles`, `Converter.Mp3PathForShape` and `ObsidianNotes.MediaPath` hold for POSIX paths. For `E:\RECORD\REC20241025043932.wav` the model takes the whole path as the basename, so the name does not parse.
- RecordHandler.ProcessWavFileShape: does not promise the Windows run. On a path with `\` separators the time is read from the whole path, and the model fails with a parse error where Windows would read the file name.
- RecordHandler.ScanExistingFiles: joins the folder and each entry with `/`. Windows `os.path.join` would put a `\` there, so the paths handed to the runs are promised for POSIX only.
- Converter.Mp3PathForShape: the basename and the extension are split on `/` only. On a Windows path the MP3 name is built from the whole path, and its basename is promised for POSIX paths only.
- ObsidianNotes.MediaPath: the copy's basename is taken after the last `/`. On a Windows MP3 path the whole path is the basename, so the destination is promised for POSIX paths only.
- WindowsMonitor.WindowsRecordPath: appends the folder name to `X:\` as text. Windows `ntpath.join` is not modelled: a folder name that starts with `\` or `/` keeps only the drive (`E:\RECORD`), and one that carries a drive replaces the root (`C:\X` gives `C:\X`). The path is promised for a plain relative folder name only.
- VadRecording.VadRecordingPath: joins as `os.path.join` does. `pathlib` normalises when it renders the path: it drops `.` components and repeated or trailing `/`, so `./vault` gives `vault/out/f.mp3`. That normalisation is not modelled, and `StartsWith(p, vaultPath)` holds for the unnormalised string. `VadRecording.SaveRecording`'s written path inherits this.
- Truthiness of a `datetime` (always true) is assumed where the handlers test the parsed time and where the converter tests `creation_time`.

=== FILE: audio_processor.dfy ===
/** `process_wav_files` of src/audio_processor.py: the converted MP3 files
    are transcribed one by one and every file gets one entry in the result,
    in conversion order, whether its transcription returned or raised.
 */
module AudioProcessing {
  import opened Outcomes
  import opened Segments
  import opened Converter

  /** One entry of the result list: the transcription that came back, or
      the error of the exception raised for that file (its message is not
      modelled). */
  datatype FileResult =
    | Transcribed(mp3Path: string, transcription: Option<seq<TranscriptSegment>>)
    | Errored(mp3Path: string)

  /** The entry for one file. */
  function ResultFor(mp3Path: string, outcome: Attempt<Option<seq<TranscriptSegment>>>): (e: FileResult)
    ensures e.mp3Path == mp3Path
    ensures e.Errored? <==> outcome.Raised?
    ensures e.Transcribed? ==> e.transcription == outcome.value
  {
    match outcome
    case Raised => Errored(mp3Path)
    case Returned(t) => Transcribed(mp3Path, t)
  }

  /** The loop over the converted files.  `transcribe` is the transcriber,
      called with each path and the caller's `language`, unchanged. */
  method ProcessMp3Files(
    mp3s: seq<string>, language: Option<string>,
    transcribe: (string, Option<string>) -> Attempt<Option<seq<TranscriptSegment>>>)
    returns (results: seq<FileResult>)
    ensures |results| == |mp3s|
    ensures forall i :: 0 <= i < |mp3s| ==> results[i].mp3Path == mp3s[i]
    ensures forall i :: 0 <= i < |mp3s| ==>
              (results[i].Errored? <==> transcribe(mp3s[i], language).Raised?)
    ensures forall i :: 0 <= i < |mp3s| && results[i].Transcribed? ==>
              results[i].transcription == transcribe(mp3s[i], language).value
    ensures forall i :: 0 <= i < |mp3s| ==> results[i] == ResultFor(mp3s[i], transcribe(mp3s[i], language))
  {
    results := [];
    var i := 0;
    while i < |mp3s|
      invariant 0 <= i <= |mp3s|
      invariant |results| == i
      invariant forall k :: 0 <= k < i ==> results[k] == ResultFor(mp3s[k], transcribe(mp3s[k], language))
    {
      results := results + [ResultFor(mp3s[i], transcribe(mp3s[i], language))];
      i := i + 1;
    }
  }

  /** `process_wav_files`: a batch conversion of the WAV directory, then
      one entry per converted file.  Every entry names the MP3 made from one
      of the directory's `.wav` files; a directory that cannot be listed
      gives no entries. */
  method ProcessWavFiles(
    tempDir: string, tempListing: Attempt<seq<string>>, removes: string -> bool,
    wavDir: string, listing: Attempt<seq<string>>, io: string -> ConvertIo,
    language: Option<string>,
    transcribe: (string, Option<string>) -> Attempt<Option<seq<TranscriptSegment>>>)
    returns (results: seq<FileResult>)
    ensures listing.Raised? ==> results == []
    ensures listing.Returned? ==> |results| == |Converted(tempDir, wavDir, listing.value, io)|
    ensures listing.Returned? ==> |results| <= |WavPaths(wavDir, listing.value)|
    ensures listing.Returned? ==>
              var mp3s := Converted(tempDir, wavDir, listing.value, io);
              forall i :: 0 <= i < |results| ==> results[i] == ResultFor(mp3s[i], transcribe(mp3s[i], language))
    ensures forall i :: 0 <= i < |results| ==>
              IsMp3OfWav(tempDir, wavDir, listing.value, results[i].mp3Path) &&
              (results[i].Errored? <==> transcribe(results[i].mp3Path, language).Raised?)
  {
    var batch := BatchProcessWavFiles(tempDir, tempListing, removes, wavDir, listing, io);
    results := ProcessMp3Files(batch.mp3s, language, transcribe);
    if listing.Returned? {
      ConvertedFromWavNames(tempDir, wavDir, listing.value, io);
      assert forall i :: 0 <= i < |results| ==> batch.mp3s[i] in batch.mp3s;
    }
  }
}

=== FILE: clock.dfy ===
/** Calendar date-times as the program's `datetime` holds them, the compact
    `YYYYMMDDhhmmss` form that recording file names carry, and the `strftime`
    renderings the program writes into titles, file names and notes.
 */
module Clock {
  import opened Outcomes
  import opened Decimal

  datatype DateTime = DateTime(year: int, month: int, day: int, hour: int, minute: int, second: int)

  /** Gregorian leap years. */
  predicate IsLeapYear(y: int) {
    y % 4 == 0 && (y % 100 != 0 || y % 400 == 0)
  }

  function DaysInMonth(y: int, m: int): (d: int)
    requires 1 <= m <= 12
    ensures 28 <= d <= 31
  {
    if m == 2 then (if IsLeapYear(y) then 29 else 28)
    else if m == 4 || m == 6 || m == 9 || m == 11 then 30
    else 31
  }

  /** The date-times `datetime` accepts (years 1 to 9999). */
  predicate Valid(t: DateTime) {
    && 1 <= t.year <= 9999
    && 1 <= t.month <= 12
    && 1 <= t.day <= DaysInMonth(t.year, t.month)
    && 0 <= t.hour <= 23
    && 0 <= t.minute <= 59
    && 0 <= t.second <= 59
  }

  /** The six numeric fields of a fourteen-digit `YYYYMMDDhhmmss` string. */
  function FieldsOf(s: string): DateTime
    requires |s| == 14 && IsDigits(s)
  {
    DateTime(DecodeDigits(s[0..4]), DecodeDigits(s[4..6]), DecodeDigits(s[6..8]),
             DecodeDigits(s[8..10]), DecodeDigits(s[10..12]), DecodeDigits(s[12..14]))
  }

  /** `strftime('%Y%m%d')` */
  function DatePart(t: DateTime): string
    requires Valid(t)
  {
    ZeroPad(t.year, 4) + ZeroPad(t.month, 2) + ZeroPad(t.day, 2)
  }

  /** `strftime('%H%M%S')` */
  function TimePart(t: DateTime): string
    requires Valid(t)
  {
    ZeroPad(t.hour, 2) + ZeroPad(t.minute, 2) + ZeroPad(t.second, 2)
  }

  /** `strftime('%Y%m%d%H%M%S')` */
  function FormatCompact(t: DateTime): string
    requires Valid(t)
  {
    DatePart(t) + TimePart(t)
  }

  /** `strftime('%Y%m%d_%H%M%S')` */
  function FormatStamp(t: DateTime): string
    requires Valid(t)
  {
    DatePart(t) + "_" + TimePart(t)
  }

  /** `strftime('%Y-%m-%d %H:%M:%S')` */
  function FormatReadable(t: DateTime): string
    requires Valid(t)
  {
    ZeroPad(t.year, 4) + "-" + ZeroPad(t.month, 2) + "-" + ZeroPad(t.day, 2) + " "
    + ZeroPad(t.hour, 2) + ":" + ZeroPad(t.minute, 2) + ":" + ZeroPad(t.second, 2)
  }

  /** Every field of a valid date-time renders with its full width. */
  lemma {:induction false} FieldWidths(t: DateTime)
    requires Valid(t)
    ensures |ZeroPad(t.year, 4)| == 4 && |ZeroPad(t.month, 2)| == 2 && |ZeroPad(t.day, 2)| == 2
    ensures |ZeroPad(t.hour, 2)| == 2 && |ZeroPad(t.minute, 2)| == 2 && |ZeroPad(t.second, 2)| == 2
  {
    assert Pow10(2) == 100;
    assert Pow10(4) == 10000;
    ZeroPadWidth(t.year, 4);
    ZeroPadWidth(t.month, 2);
    ZeroPadWidth(t.day, 2);
    ZeroPadWidth(t.hour, 2);
    ZeroPadWidth(t.minute, 2);
    ZeroPadWidth(t.second, 2);
  }

  /** `datetime.strptime(s, '%Y%m%d%H%M%S')`, for its strict fourteen-digit form:
      `None` where the program's parse raises `ValueError`. */
  function ParseCompact(s: string): (r: Option<DateTime>)
    ensures r.Some? <==> |s| == 14 && IsDigits(s) && Valid(FieldsOf(s))
    ensures r.Some? ==> Valid(r.value) && FormatCompact(r.value) == s
  {
    if |s| == 14 && IsDigits(s) && Valid(FieldsOf(s)) then
      var t := FieldsOf(s);
      FormatFieldsOf(s);
      Some(t)
    else None
  }

  /** Rendering the fields read from a valid compact string gives the string back. */
  lemma {:induction false} FormatFieldsOf(s: string)
    requires |s| == 14 && IsDigits(s) && Valid(FieldsOf(s))
    ensures FormatCompact(FieldsOf(s)) == s
  {
    DateOfFields(s);
    TimeOfFields(s);
    SplitAt(s, 8);
  }

  lemma {:induction false} DateOfFields(s: string)
    requires |s| == 14 && IsDigits(s) && Valid(FieldsOf(s))
    ensures DatePart(FieldsOf(s)) == s[0..8]
  {
    PadSlice(s, 0, 4);
    PadSlice(s, 4, 6);
    PadSlice(s, 6, 8);
    ThreeSlices(s, 0, 4, 6, 8);
  }

  lemma {:induction false} TimeOfFields(s: string)
    requires |s| == 14 && IsDigits(s) && Valid(FieldsOf(s))
    ensures TimePart(FieldsOf(s)) == s[8..14]
  {
    PadSlice(s, 8, 10);
    PadSlice(s, 10, 12);
    PadSlice(s, 12, 14);
    ThreeSlices(s, 8, 10, 12, 14);
  }

  lemma {:induction false} SplitAt<T>(s: seq<T>, k: int)
    requires 0 <= k <= |s|
    ensures s[0..k] + s[k..|s|] == s
  {
  }

  lemma {:induction false} SliceOfLeft<T>(a: seq<T>, b: seq<T>, i: int, j: int)
    requires 0 <= i <= j <= |a|
    ensures (a + b)[i..j] == a[i..j]
  {
  }

  lemma {:induction false} SliceOfRight<T>(a: seq<T>, b: seq<T>, i: int, j: int)
    requires 0 <= i <= j <= |b|
    ensures (a + b)[|a| + i..|a| + j] == b[i..j]
  {
    forall k | 0 <= k < j - i ensures (a + b)[|a| + i..|a| + j][k] == b[i..j][k] {
      assert (a + b)[|a| + i + k] == b[i + k];
    }
  }

  lemma {:induction false} SliceOfMiddle<T>(a: seq<T>, b: seq<T>, c: seq<T>, i: int, j: int)
    requires 0 <= i <= j <= |b|
    ensures (a + b + c)[|a| + i..|a| + j] == b[i..j]
  {
    SliceOfLeft(a + b, c, |a| + i, |a| + j);
    SliceOfRight(a, b, i, j);
  }

  /** Each part of a three-part concatenation is found at its own offsets. */
  lemma {:induction false} PartsOfThree<T>(a: seq<T>, b: seq<T>, c: seq<T>)
    ensures (a + b + c)[0..|a|] == a
    ensures (a + b + c)[|a|..|a| + |b|] == b
    ensures (a + b + c)[|a| + |b|..|a| + |b| + |c|] == c
  {
    SliceOfLeft(a + b, c, 0, |a|);
    SliceOfLeft(a, b, 0, |a|);
    assert a[0..|a|] == a;
    SliceOfMiddle(a, b, c, 0, |b|);
    assert b[0..|b|] == b;
    SliceOfRight(a + b, c, 0, |c|);
    assert c[0..|c|] == c;
  }

  lemma {:induction false} NotInAppend<T>(x: T, a: seq<T>, b: seq<T>)
    requires x !in a && x !in b
    ensures x !in a + b
  {
  }

  lemma {:induction false} ThreeSlices(s: string, i: int, j: int, k: int, l: int)
    requires 0 <= i <= j <= k <= l <= |s|
    ensures s[i..j] + s[j..k] + s[k..l] == s[i..l]
  {
    assert s[i..j] + s[j..k] == s[i..k];
  }

  lemma {:induction false} PadSlice(s: string, i: int, j: int)
    requires IsDigits(s) && 0 <= i < j <= |s|
    ensures IsDigits(s[i..j]) && ZeroPad(DecodeDigits(s[i..j]), j - i) == s[i..j]
  {
    DigitsSlice(s, i, j);
    ZeroPadDecode(s[i..j]);
  }

  /** Parsing the compact rendering of a valid date-time gives it back. */
  lemma {:induction false} ParseFormatCompact(t: DateTime)
    requires Valid(t)
    ensures ParseCompact(FormatCompact(t)) == Some(t)
  {
    DateDecodes(t);
    TimeDecodes(t);
    FieldsOfHalves(DatePart(t), TimePart(t));
  }

  /** The fields of a compact string are read from its date half and its time half. */
  lemma {:induction false} FieldsOfHalves(d: string, h: string)
    requires |d| == 8 && |h| == 6 && IsDigits(d) && IsDigits(h)
    ensures |d + h| == 14 && IsDigits(d + h)
    ensures FieldsOf(d + h) == DateTime(DecodeDigits(d[0..4]), DecodeDigits(d[4..6]), DecodeDigits(d[6..8]),
                                        DecodeDigits(h[0..2]), DecodeDigits(h[2..4]), DecodeDigits(h[4..6]))
  {
    DigitsAppend(d, h);
    SliceOfLeft(d, h, 0, 4);
    SliceOfLeft(d, h, 4, 6);
    SliceOfLeft(d, h, 6, 8);
    SliceOfRight(d, h, 0, 2);
    SliceOfRight(d, h, 2, 4);
    SliceOfRight(d, h, 4, 6);
  }

  /** The date half of a valid date-time is eight digits whose fields decode to its own. */
  lemma {:induction false} DateDecodes(t: DateTime)
    requires Valid(t)
    ensures |DatePart(t)| == 8 && IsDigits(DatePart(t))
    ensures DecodeDigits(DatePart(t)[0..4]) == t.year
    ensures DecodeDigits(DatePart(t)[4..6]) == t.month
    ensures DecodeDigits(DatePart(t)[6..8]) == t.day
  {
    FieldWidths(t);
    HalfWidths(t);
    PartsOfThree(ZeroPad(t.year, 4), ZeroPad(t.month, 2), ZeroPad(t.day, 2));
    DecodeZeroPad(t.year, 4);
    DecodeZeroPad(t.month, 2);
    DecodeZeroPad(t.day, 2);
  }

  /** The time half of a valid date-time is six digits whose fields decode to its own. */
  lemma {:induction false} TimeDecodes(t: DateTime)
    requires Valid(t)
    ensures |TimePart(t)| == 6 && IsDigits(TimePart(t))
    ensures DecodeDigits(TimePart(t)[0..2]) == t.hour
    ensures DecodeDigits(TimePart(t)[2..4]) == t.minute
    ensures DecodeDigits(TimePart(t)[4..6]) == t.second
  {
    FieldWidths(t);
    HalfWidths(t);
    PartsOfThree(ZeroPad(t.hour, 2), ZeroPad(t.minute, 2), ZeroPad(t.second, 2));
    DecodeZeroPad(t.hour, 2);
    DecodeZeroPad(t.minute, 2);
    DecodeZeroPad(t.second, 2);
  }

  /** The `%Y%m%d_%H%M%S` stamp of a date read from a compact string is that
      string with an underscore between date and time. */
  lemma {:induction false} StampOfParsed(s: string)
    requires ParseCompact(s).Some?
    ensures FormatStamp(ParseCompact(s).value) == s[..8] + "_" + s[8..]
  {
    var t := ParseCompact(s).value;
    FieldWidths(t);
    assert s == DatePart(t) + TimePart(t);
    assert s[..8] == DatePart(t);
    assert s[8..] == TimePart(t);
  }

  /** The date half of a valid date-time is eight digits, the time half six. */
  lemma {:induction false} HalfWidths(t: DateTime)
    requires Valid(t)
    ensures |DatePart(t)| == 8 && IsDigits(DatePart(t))
    ensures |TimePart(t)| == 6 && IsDigits(TimePart(t))
  {
    FieldWidths(t);
    DigitsAppend(ZeroPad(t.year, 4), ZeroPad(t.month, 2));
    DigitsAppend(ZeroPad(t.year, 4) + ZeroPad(t.month, 2), ZeroPad(t.day, 2));
    DigitsAppend(ZeroPad(t.hour, 2), ZeroPad(t.minute, 2));
    DigitsAppend(ZeroPad(t.hour, 2) + ZeroPad(t.minute, 2), ZeroPad(t.second, 2));
  }

  /** The `%Y%m%d_%H%M%S` stamp is fifteen characters: the date half, an
      underscore, the time half, with digits everywhere but the underscore. */
  lemma {:induction false} StampSlices(t: DateTime)
    requires Valid(t)
    ensures |FormatStamp(t)| == 15 && FormatStamp(t)[8] == '_'
    ensures FormatStamp(t)[0..8] == DatePart(t) && FormatStamp(t)[9..15] == TimePart(t)
    ensures IsDigits(DatePart(t)) && IsDigits(TimePart(t))
  {
    HalfWidths(t);
    var d, h := DatePart(t), TimePart(t);
    PartsOfThree(d, "_", h);
    assert (d + "_" + h)[8] == (d + "_" + h)[8..9][0];
  }

  /** The year of a recorder's example time renders as four digits. */
  lemma {:induction false} ExampleYear()
    ensures ZeroPad(2024, 4) == "2024"
  {
    PadFour(2024);
  }

  /** The date half of a recorder's example time. */
  lemma {:induction false} ExampleDate()
    ensures DatePart(DateTime(2024, 10, 25, 4, 39, 32)) == "20241025"
  {
    ExampleYear();
    PadTwo(10);
    assert ZeroPad(10, 2) == "10";
    PadTwo(25);
    assert ZeroPad(25, 2) == "25";
  }

  /** The time half of a recorder's example time; the hour keeps its zero. */
  lemma {:induction false} ExampleTime()
    ensures TimePart(DateTime(2024, 10, 25, 4, 39, 32)) == "043932"
  {
    PadTwo(4);
    PadTwo(39);
    PadTwo(32);
  }

  /** The compact form of a recorder's example time. */
  lemma {:induction false} ExampleCompact()
    ensures FormatCompact(DateTime(2024, 10, 25, 4, 39, 32)) == "20241025043932"
  {
    ExampleDate();
    ExampleTime();
  }
}

=== FILE: converter.dfy ===
/** The WAV to MP3 converter of src/audio/converter.py: where a converted
    file goes, when a conversion counts as done, which files a batch run
    converts and which files clearing the temporary directory removes.  The
    audio decoding, the MP3 export, setting the file times, directory
    listings and file removal are outcomes handed in.
 */
module Converter {
  import opened Outcomes
  import opened Strings
  import opened Paths
  import opened Clock

  /** Where the MP3 for `wavPath` is written: the temporary directory joined
      with the WAV's file name, its last extension replaced by `.mp3`. */
  function Mp3PathFor(tempDir: string, wavPath: string): string {
    Join(tempDir, SplitExtRoot(Basename(wavPath)) + ".mp3")
  }

  /** The MP3 path ends in `.mp3` and names, inside the temporary directory,
      the WAV's file name without its last extension. */
  lemma {:induction false} Mp3PathForShape(tempDir: string, wavPath: string)
    ensures EndsWith(Mp3PathFor(tempDir, wavPath), ".mp3")
    ensures Basename(Mp3PathFor(tempDir, wavPath)) == SplitExtRoot(Basename(wavPath)) + ".mp3"
  {
    var name := SplitExtRoot(Basename(wavPath)) + ".mp3";
    assert '/' !in name by {
      var b := Basename(wavPath);
      var root := SplitExtRoot(b);
      assert root == b[..|root|];
      assert forall c :: c in root ==> c in b;
    }
    BasenameOfJoin(tempDir, name);
    JoinKeepsSuffix(tempDir, name, ".mp3");
  }

  /** A recorder file `stem.wav` in any directory becomes `stem.mp3` in the
      temporary directory. */
  lemma {:induction false} Mp3PathOfRecording(tempDir: string, wavDir: string, stem: string)
    requires '/' !in stem && stem != [] && stem[0] != '.'
    ensures Mp3PathFor(tempDir, Join(wavDir, stem + ".wav")) == Join(tempDir, stem + ".mp3")
  {
    WavNameInDirectory(wavDir, stem);
    WavNameRoot(stem);
  }

  /** A recorder file joined to its directory keeps its name as the basename. */
  lemma {:induction false} WavNameInDirectory(wavDir: string, stem: string)
    requires '/' !in stem
    ensures Basename(Join(wavDir, stem + ".wav")) == stem + ".wav"
  {
    var name := stem + ".wav";
    assert forall i :: 0 <= i < |name| ==> name[i] == (if i < |stem| then stem[i] else ".wav"[i - |stem|]);
    BasenameOfJoin(wavDir, name);
  }

  /** `stem.wav` loses exactly its `.wav` extension. */
  lemma {:induction false} WavNameRoot(stem: string)
    requires '/' !in stem && stem != [] && stem[0] != '.'
    ensures SplitExtRoot(stem + ".wav") == stem
  {
    assert ".wav"[1..] == "wav";
    SplitExtRootOfStem(stem, ".wav");
  }

  /** What the audio library and the file system do for one conversion. */
  datatype ConvertIo = ConvertIo(decodes: bool, exports: bool, setsTimes: bool)

  /** The effect of one `convert_to_mp3` call: the path it returns, the file
      it wrote and whether the file times were set. */
  datatype Conversion = Conversion(result: Option<string>, written: Option<string>, timesSet: bool)

  /** One conversion.  Any failure returns `None`; a failure to set the file
      times comes after the export, so the MP3 stays on disk. */
  function ConvertToMp3(tempDir: string, wavPath: string, creationTime: Option<DateTime>, io: ConvertIo): (c: Conversion)
    ensures c.result.Some? <==> io.decodes && io.exports && (creationTime.None? || io.setsTimes)
    ensures c.result.Some? ==> c.result.value == Mp3PathFor(tempDir, wavPath) && c.written == c.result
    ensures c.written.Some? <==> io.decodes && io.exports
    ensures c.written.Some? ==> c.written.value == Mp3PathFor(tempDir, wavPath)
    ensures c.timesSet <==> io.decodes && io.exports && creationTime.Some? && io.setsTimes
  {
    var mp3 := Mp3PathFor(tempDir, wavPath);
    if !io.decodes then Conversion(None, None, false)
    else if !io.exports then Conversion(None, None, false)
    else if creationTime.None? then Conversion(Some(mp3), Some(mp3), false)
    else if io.setsTimes then Conversion(Some(mp3), Some(mp3), true)
    else Conversion(None, Some(mp3), false)
  }

  /** The result of clearing the temporary directory: the removals tried, in
      order, and whether the loop ran to its end. */
  datatype Clearing = Clearing(attempted: seq<string>, completed: bool)

  /** The `.mp3` names of a listing, in order. */
  function Mp3Names(files: seq<string>): (r: seq<string>)
    ensures forall k :: 0 <= k < |r| ==> EndsWith(r[k], ".mp3")
    ensures |r| <= |files|
  {
    if files == [] then []
    else (if EndsWith(files[0], ".mp3") then [files[0]] else []) + Mp3Names(files[1..])
  }

  /** Each name joined to the directory. */
  function JoinAll(dir: string, names: seq<string>): (r: seq<string>)
    ensures |r| == |names|
    ensures forall k :: 0 <= k < |names| ==> r[k] == Join(dir, names[k])
  {
    if names == [] then [] else [Join(dir, names[0])] + JoinAll(dir, names[1..])
  }

  /** Removing paths in order until one removal fails (its exception ends
      the loop and is caught outside it). */
  function RemoveUntilFailure(paths: seq<string>, removes: string -> bool): (c: Clearing)
    ensures IsPrefix(c.attempted, paths)
    ensures c.completed ==> c.attempted == paths
    ensures !c.completed ==> c.attempted != [] && !removes(c.attempted[|c.attempted| - 1])
    ensures forall k :: 0 <= k < |c.attempted| && (c.completed || k < |c.attempted| - 1) ==> removes(c.attempted[k])
  {
    if paths == [] then Clearing([], true)
    else if !removes(paths[0]) then Clearing([paths[0]], false)
    else
      var rest := RemoveUntilFailure(paths[1..], removes);
      var c := Clearing([paths[0]] + rest.attempted, rest.completed);
      assert forall k :: 1 <= k < |c.attempted| ==> c.attempted[k] == rest.attempted[k - 1];
      assert paths == [paths[0]] + paths[1..];
      c
  }

  /** `clear_temp_directory`: every `.mp3` name of the listing is removed in
      order until a removal fails; a listing that cannot be read removes
      nothing. */
  function ClearTempDirectory(tempDir: string, listing: Attempt<seq<string>>, removes: string -> bool): (c: Clearing)
    ensures listing.Raised? ==> c == Clearing([], false)
    ensures listing.Returned? ==> IsPrefix(c.attempted, JoinAll(tempDir, Mp3Names(listing.value)))
    ensures listing.Returned? && c.completed ==> c.attempted == JoinAll(tempDir, Mp3Names(listing.value))
    ensures listing.Returned? && !c.completed ==> c.attempted != [] && !removes(c.attempted[|c.attempted| - 1])
    ensures forall k :: 0 <= k < |c.attempted| && (c.completed || k < |c.attempted| - 1) ==> removes(c.attempted[k])
  {
    match listing
    case Raised => Clearing([], false)
    case Returned(files) => RemoveUntilFailure(JoinAll(tempDir, Mp3Names(files)), removes)
  }

  /** The MP3 paths a batch collects from a listing: one per `.wav` name
      (case-sensitive) whose conversion returned a path, in listing order. */
  function Converted(tempDir: string, wavDir: string, files: seq<string>, io: string -> ConvertIo): seq<string> {
    if files == [] then []
    else
      var init := Converted(tempDir, wavDir, files[..|files| - 1], io);
      var f := files[|files| - 1];
      if EndsWith(f, ".wav") then
        var c := ConvertToMp3(tempDir, Join(wavDir, f), None, io(Join(wavDir, f)));
        if c.result.Some? then init + [c.result.value] else init
      else init
  }

  /** The conversion loop of `batch_process_wav_files`. */
  method ConvertListing(tempDir: string, wavDir: string, files: seq<string>, io: string -> ConvertIo) returns (mp3s: seq<string>)
    ensures mp3s == Converted(tempDir, wavDir, files, io)
  {
    mp3s := [];
    var i := 0;
    while i < |files|
      invariant 0 <= i <= |files|
      invariant mp3s == Converted(tempDir, wavDir, files[..i], io)
    {
      var f := files[i];
      assert files[..i + 1][..i] == files[..i];
      if EndsWith(f, ".wav") {
        var wavPath := Join(wavDir, f);
        var c := ConvertToMp3(tempDir, wavPath, None, io(wavPath));
        if c.result.Some? {
          mp3s := mp3s + [c.result.value];
        }
      }
      i := i + 1;
    }
    assert files[..i] == files;
  }

  /** What a batch run touches, in order. */
  datatype Effect = RemoveFile(path: string) | ConvertFile(wavPath: string)

  /** `p` is the MP3 path of some `.wav` name of the listing. */
  predicate IsMp3OfWav(tempDir: string, wavDir: string, files: seq<string>, p: string) {
    exists f :: f in files && EndsWith(f, ".wav") && p == Mp3PathFor(tempDir, Join(wavDir, f))
  }

  /** The `.wav` names of a listing joined to its directory, in order. */
  function WavPaths(wavDir: string, files: seq<string>): (r: seq<string>)
    ensures |r| <= |files|
  {
    if files == [] then []
    else
      var f := files[|files| - 1];
      WavPaths(wavDir, files[..|files| - 1]) + (if EndsWith(f, ".wav") then [Join(wavDir, f)] else [])
  }

  /** The effects list for a batch: the removals of the clearing, then one
      conversion per `.wav` name. */
  function BatchEffects(removed: seq<string>, wavPaths: seq<string>): (e: seq<Effect>)
    ensures |e| == |removed| + |wavPaths|
    ensures forall k :: 0 <= k < |removed| ==> e[k] == RemoveFile(removed[k])
    ensures forall k :: |removed| <= k < |e| ==> e[k] == ConvertFile(wavPaths[k - |removed|])
  {
    if removed == [] then
      if wavPaths == [] then [] else [ConvertFile(wavPaths[0])] + BatchEffects([], wavPaths[1..])
    else [RemoveFile(removed[0])] + BatchEffects(removed[1..], wavPaths)
  }

  /** No file is removed after a conversion has started. */
  predicate RemovalsFirst(effects: seq<Effect>) {
    forall i, j :: 0 <= i < j < |effects| && effects[j].RemoveFile? ==> effects[i].RemoveFile?
  }

  /** The removals come before every conversion, and remove only what they
      were given. */
  lemma {:induction false} BatchEffectsOrder(removed: seq<string>, wavPaths: seq<string>)
    requires forall k :: 0 <= k < |removed| ==> EndsWith(removed[k], ".mp3")
    ensures RemovalsFirst(BatchEffects(removed, wavPaths))
    ensures var e := BatchEffects(removed, wavPaths);
            forall i :: 0 <= i < |e| && e[i].RemoveFile? ==> EndsWith(e[i].path, ".mp3")
  {
    var e := BatchEffects(removed, wavPaths);
    forall i, j | 0 <= i < j < |e| && e[j].RemoveFile?
      ensures e[i].RemoveFile?
    {
      assert j < |removed|;
    }
    forall i | 0 <= i < |e| && e[i].RemoveFile?
      ensures EndsWith(e[i].path, ".mp3")
    {
      assert i < |removed| && e[i] == RemoveFile(removed[i]);
    }
  }

  /** The outcome of `batch_process_wav_files`. */
  datatype Batch = Batch(effects: seq<Effect>, mp3s: seq<string>)

  /** One batch run: the temporary directory is cleared first (its failures
      are logged and ignored), then the listing is converted; a listing that
      cannot be read returns the empty list collected so far. */
  method BatchProcessWavFiles(
    tempDir: string, tempListing: Attempt<seq<string>>, removes: string -> bool,
    wavDir: string, listing: Attempt<seq<string>>, io: string -> ConvertIo)
    returns (b: Batch)
    ensures listing.Raised? ==> b.mp3s == []
    ensures listing.Returned? ==> b.mp3s == Converted(tempDir, wavDir, listing.value, io)
    ensures RemovalsFirst(b.effects)
    ensures b.effects == BatchEffects(ClearTempDirectory(tempDir, tempListing, removes).attempted,
                                      if listing.Raised? then [] else WavPaths(wavDir, listing.value))
    ensures forall i :: 0 <= i < |b.effects| && b.effects[i].RemoveFile? ==> EndsWith(b.effects[i].path, ".mp3")
  {
    var cleared := ClearTempDirectory(tempDir, tempListing, removes);
    RemovalsAreMp3(tempDir, tempListing, removes);
    var wavs := if listing.Raised? then [] else WavPaths(wavDir, listing.value);
    var effects := BatchEffects(cleared.attempted, wavs);
    BatchEffectsOrder(cleared.attempted, wavs);
    if listing.Raised? {
      b := Batch(effects, []);
    } else {
      var mp3s := ConvertListing(tempDir, wavDir, listing.value, io);
      b := Batch(effects, mp3s);
    }
  }

  /** Joining a relative name keeps its ending. */
  lemma {:induction false} JoinKeepsSuffix(dir: string, name: string, suffix: string)
    requires EndsWith(name, suffix)
    requires !(|name| > 0 && name[0] == '/')
    ensures EndsWith(Join(dir, name), suffix)
  {
    EndsWithAppend(DirPrefix(dir), name, suffix);
  }

  /** Clearing only ever removes `.mp3` files of the temporary directory. */
  lemma {:induction false} RemovalsAreMp3(tempDir: string, listing: Attempt<seq<string>>, removes: string -> bool)
    ensures var c := ClearTempDirectory(tempDir, listing, removes);
            forall k :: 0 <= k < |c.attempted| ==> EndsWith(c.attempted[k], ".mp3")
  {
    var c := ClearTempDirectory(tempDir, listing, removes);
    if listing.Returned? {
      var names := Mp3Names(listing.value);
      var all := JoinAll(tempDir, names);
      forall k | 0 <= k < |c.attempted|
        ensures EndsWith(c.attempted[k], ".mp3")
      {
        assert c.attempted[k] == all[k] == Join(tempDir, names[k]);
        if |names[k]| > 0 && names[k][0] == '/' {
          assert c.attempted[k] == names[k];
        } else {
          JoinKeepsSuffix(tempDir, names[k], ".mp3");
        }
      }
    }
  }

  /** Every collected path is the MP3 path of a `.wav` name of the listing,
      and there are never more than there are `.wav` names. */
  lemma {:induction false} ConvertedFromWavNames(tempDir: string, wavDir: string, files: seq<string>, io: string -> ConvertIo)
    ensures |Converted(tempDir, wavDir, files, io)| <= |WavPaths(wavDir, files)|
    ensures forall p :: p in Converted(tempDir, wavDir, files, io) ==> IsMp3OfWav(tempDir, wavDir, files, p)
    decreases |files|
  {
    if files != [] {
      var init := files[..|files| - 1];
      var f := files[|files| - 1];
      ConvertedFromWavNames(tempDir, wavDir, init, io);
      forall p | p in Converted(tempDir, wavDir, files, io)
        ensures IsMp3OfWav(tempDir, wavDir, files, p)
      {
        if p in Converted(tempDir, wavDir, init, io) {
          var g :| g in init && EndsWith(g, ".wav") && p == Mp3PathFor(tempDir, Join(wavDir, g));
          assert g in files;
        } else {
          assert f in files;
        }
      }
    }
  }

  /** With the last name's conversion succeeding, the collected paths and
      the `.wav` paths both grow by that name's paths, or both stay. */
  lemma {:induction false} ConvertedSnoc(tempDir: string, wavDir: string, files: seq<string>, io: string -> ConvertIo)
    requires files != []
    requires io(Join(wavDir, files[|files| - 1])).decodes && io(Join(wavDir, files[|files| - 1])).exports
    ensures var init := files[..|files| - 1];
            var f := files[|files| - 1];
            && Converted(tempDir, wavDir, files, io)
               == Converted(tempDir, wavDir, init, io) + (if EndsWith(f, ".wav") then [Mp3PathFor(tempDir, Join(wavDir, f))] else [])
            && WavPaths(wavDir, files)
               == WavPaths(wavDir, init) + (if EndsWith(f, ".wav") then [Join(wavDir, f)] else [])
  {
    var f := files[|files| - 1];
    var c := ConvertToMp3(tempDir, Join(wavDir, f), None, io(Join(wavDir, f)));
    assert c.result == Some(Mp3PathFor(tempDir, Join(wavDir, f)));
  }

  /** `f` applied to each of `xs`, in order. */
  function MapPaths(f: string -> string, xs: seq<string>): (r: seq<string>)
    ensures |r| == |xs|
  {
    if xs == [] then [] else MapPaths(f, xs[..|xs| - 1]) + [f(xs[|xs| - 1])]
  }

  /** Appending at most one path appends its image. */
  lemma {:induction false} MapPathsSnoc(f: string -> string, xs: seq<string>, more: seq<string>)
    requires |more| <= 1
    ensures MapPaths(f, xs + more) == MapPaths(f, xs) + (if more == [] then [] else [f(more[0])])
  {
    var w := xs + more;
    if more == [] {
      assert w == xs;
    } else {
      assert w[..|w| - 1] == xs && w[|w| - 1] == more[0];
    }
  }

  /** The k-th image is the image of the k-th path. */
  lemma {:induction false} MapPathsAt(f: string -> string, xs: seq<string>, k: nat)
    requires k < |xs|
    ensures MapPaths(f, xs)[k] == f(xs[k])
    decreases |xs|
  {
    var init := xs[..|xs| - 1];
    if k < |init| {
      MapPathsAt(f, init, k);
      assert init[k] == xs[k];
    }
  }

  /** When every conversion succeeds, the collected paths are the MP3 paths
      of the `.wav` paths. */
  lemma {:induction false} ConvertedAllMp3Paths(tempDir: string, wavDir: string, files: seq<string>, io: string -> ConvertIo)
    requires forall k :: 0 <= k < |files| ==> io(Join(wavDir, files[k])).decodes && io(Join(wavDir, files[k])).exports
    ensures Converted(tempDir, wavDir, files, io) == MapPaths(w => Mp3PathFor(tempDir, w), WavPaths(wavDir, files))
    decreases |files|
  {
    if files != [] {
      var init := files[..|files| - 1];
      var f := files[|files| - 1];
      assert forall k :: 0 <= k < |init| ==> init[k] == files[k];
      ConvertedAllMp3Paths(tempDir, wavDir, init, io);
      ConvertedSnoc(tempDir, wavDir, files, io);
      MapPathsSnoc(w => Mp3PathFor(tempDir, w), WavPaths(wavDir, init), if EndsWith(f, ".wav") then [Join(wavDir, f)] else []);
    }
  }

  /** When every conversion succeeds, the batch returns the MP3 path of every
      `.wav` name, in listing order. */
  lemma {:induction false} ConvertedAllSucceed(tempDir: string, wavDir: string, files: seq<string>, io: string -> ConvertIo)
    requires forall k :: 0 <= k < |files| ==> io(Join(wavDir, files[k])).decodes && io(Join(wavDir, files[k])).exports
    ensures |Converted(tempDir, wavDir, files, io)| == |WavPaths(wavDir, files)|
    ensures forall k :: 0 <= k < |WavPaths(wavDir, files)| ==>
              Converted(tempDir, wavDir, files, io)[k] == Mp3PathFor(tempDir, WavPaths(wavDir, files)[k])
  {
    var wavs := WavPaths(wavDir, files);
    ConvertedAllMp3Paths(tempDir, wavDir, files, io);
    forall k | 0 <= k < |wavs|
      ensures Converted(tempDir, wavDir, files, io)[k] == Mp3PathFor(tempDir, wavs[k])
    {
      MapPathsAt(w => Mp3PathFor(tempDir, w), wavs, k);
    }
  }
}

=== FILE: decimal.dfy ===
/** Decimal rendering and reading of integers, with the meaning of the
    program's `str(n)`, `f"{n:02d}"` and the digit fields of `strftime`
    and `strptime`.
 */
module Decimal {

  predicate IsDigit(c: char) {
    '0' <= c <= '9'
  }

  predicate IsDigits(s: string) {
    forall i :: 0 <= i < |s| ==> IsDigit(s[i])
  }

  function DigitChar(d: nat): (c: char)
    requires d < 10
    ensures IsDigit(c)
  {
    ('0' as int + d) as char
  }

  function DigitValue(c: char): (d: nat)
    requires IsDigit(c)
    ensures d < 10 && DigitChar(d) == c
  {
    c as int - '0' as int
  }

  /** The value of a string of decimal digits, most significant first. */
  function DecodeDigits(s: string): nat
    requires IsDigits(s)
  {
    if s == [] then 0 else 10 * DecodeDigits(s[..|s| - 1]) + DigitValue(s[|s| - 1])
  }

  /** The shortest decimal rendering of `n` (`str(n)` for a non-negative `n`). */
  function Digits(n: nat): (r: string)
    ensures |r| >= 1 && IsDigits(r)
    ensures DecodeDigits(r) == n
    ensures |r| > 1 ==> r[0] != '0'
  {
    if n < 10 then [DigitChar(n)]
    else
      var init := Digits(n / 10);
      var r := init + [DigitChar(n % 10)];
      assert r[..|r| - 1] == init;
      r
  }

  /** `k` zero characters. */
  function Zeros(k: nat): (r: string)
    ensures |r| == k && IsDigits(r)
    ensures forall i :: 0 <= i < k ==> r[i] == '0'
  {
    if k == 0 then [] else "0" + Zeros(k - 1)
  }

  /** `n` rendered with at least `w` digits, left-padded with zeros
      (`f"{n:0wd}"` for a non-negative `n`). */
  function ZeroPad(n: nat, w: nat): (r: string)
    ensures IsDigits(r)
    ensures |r| == if w > |Digits(n)| then w else |Digits(n)|
  {
    var d := Digits(n);
    if w > |d| then Zeros(w - |d|) + d else d
  }

  /** A number below a hundred pads to its tens and units digits. */
  lemma {:induction false} PadTwo(n: nat)
    requires n < 100
    ensures ZeroPad(n, 2) == [DigitChar(n / 10), DigitChar(n % 10)]
  {
    if n < 10 {
      assert Digits(n) == [DigitChar(n)];
      assert Zeros(1) == [DigitChar(0)];
    } else {
      assert Digits(n / 10) == [DigitChar(n / 10)];
      assert Digits(n) == [DigitChar(n / 10), DigitChar(n % 10)];
    }
  }

  /** A four-digit number renders as its four digits. */
  lemma {:induction false} PadFour(n: nat)
    requires 1000 <= n < 10000
    ensures ZeroPad(n, 4) == [DigitChar(n / 1000), DigitChar(n / 100 % 10), DigitChar(n / 10 % 10), DigitChar(n % 10)]
  {
    var a := n / 1000;
    var b := n / 100;
    var c := n / 10;
    assert b / 10 == a && c / 10 == b;
    assert Digits(a) == [DigitChar(a)];
    assert Digits(b) == [DigitChar(a), DigitChar(b % 10)];
    assert Digits(c) == [DigitChar(a), DigitChar(b % 10), DigitChar(c % 10)];
    assert Digits(n) == [DigitChar(a), DigitChar(b % 10), DigitChar(c % 10), DigitChar(n % 10)];
  }

  /** `str(n)` for any integer. */
  function IntToString(n: int): string {
    if n < 0 then "-" + Digits(-n) else Digits(n)
  }

  /** `f"{n:02d}"` for any integer: the sign counts towards the width. */
  function TwoDigits(n: int): string {
    if n < 0 then "-" + Digits(-n) else ZeroPad(n, 2)
  }

  /** Leading zeros do not change the value of a digit string. */
  lemma {:induction false} DecodeZerosPrefix(k: nat, t: string)
    requires IsDigits(t)
    ensures IsDigits(Zeros(k) + t)
    ensures DecodeDigits(Zeros(k) + t) == DecodeDigits(t)
    decreases |t|, k
  {
    var s := Zeros(k) + t;
    assert IsDigits(s);
    if t == [] {
      assert s == Zeros(k);
      if k > 0 {
        assert s[..|s| - 1] == Zeros(k - 1) + [] by {
          assert Zeros(k) == Zeros(k - 1) + "0";
        }
        DecodeZerosPrefix(k - 1, []);
      }
    } else {
      var init := t[..|t| - 1];
      assert s[..|s| - 1] == Zeros(k) + init;
      assert s[|s| - 1] == t[|t| - 1];
      DecodeZerosPrefix(k, init);
    }
  }

  lemma {:induction false} ZerosSnoc(k: nat)
    ensures Zeros(k + 1) == Zeros(k) + "0"
  {
  }

  /** Reading back a zero-padded rendering gives the number. */
  lemma {:induction false} DecodeZeroPad(n: nat, w: nat)
    ensures DecodeDigits(ZeroPad(n, w)) == n
  {
    var d := Digits(n);
    var r := ZeroPad(n, w);
    if w > |d| {
      assert r == Zeros(w - |d|) + d;
      DecodeZerosPrefix(w - |d|, d);
    } else {
      assert r == d;
    }
  }

  /** A digit string of length `w` rendered back with width `w` is itself. */
  lemma {:induction false} ZeroPadDecode(s: string)
    requires IsDigits(s) && |s| >= 1
    ensures ZeroPad(DecodeDigits(s), |s|) == s
    decreases |s|
  {
    var v := DecodeDigits(s);
    if s[0] != '0' {
      DigitsDecode(s);
    } else if |s| == 1 {
      DecodeSingle(s);
      assert s == "0";
    } else {
      var t := s[1..];
      OneZeroFirst(s);
      DecodeZerosPrefix(1, t);
      ZeroPadDecode(t);
      ZeroPadWiden(v, |t|);
    }
  }

  /** A single digit is worth its own value. */
  lemma {:induction false} DecodeSingle(s: string)
    requires IsDigits(s) && |s| == 1
    ensures DecodeDigits(s) == DigitValue(s[0])
  {
    assert s[..0] == [];
  }

  /** A digit string starting with `0` is one zero followed by its rest. */
  lemma {:induction false} OneZeroFirst(s: string)
    requires IsDigits(s) && |s| >= 1 && s[0] == '0'
    ensures s == Zeros(1) + s[1..] && IsDigits(s[1..])
  {
    assert Zeros(1) == "0";
  }

  /** Widening a padding that already covers the digits adds one leading zero. */
  lemma {:induction false} ZeroPadWiden(v: nat, w: nat)
    requires |Digits(v)| <= w
    ensures ZeroPad(v, w + 1) == "0" + ZeroPad(v, w)
  {
    var d := Digits(v);
    if w > |d| {
      assert Zeros(w + 1 - |d|) == "0" + Zeros(w - |d|);
      assert ("0" + Zeros(w - |d|)) + d == "0" + (Zeros(w - |d|) + d);
    } else {
      assert Zeros(1) == "0";
    }
  }

  /** A digit string without a leading zero is the shortest rendering of its value. */
  lemma {:induction false} DigitsDecode(s: string)
    requires IsDigits(s) && |s| >= 1 && s[0] != '0'
    ensures Digits(DecodeDigits(s)) == s
    decreases |s|
  {
    var v := DecodeDigits(s);
    if |s| == 1 {
      assert s[..|s| - 1] == [];
      assert DecodeDigits([]) == 0;
      assert v == 10 * DecodeDigits(s[..|s| - 1]) + DigitValue(s[0]);
    } else {
      var init := s[..|s| - 1];
      var l := DigitValue(s[|s| - 1]);
      assert init[0] == s[0];
      DigitsDecode(init);
      var vi := DecodeDigits(init);
      assert vi >= 1;
      assert v == 10 * vi + l;
      assert v / 10 == vi && v % 10 == l;
      assert Digits(v) == Digits(vi) + [DigitChar(l)];
      assert s == init + [s[|s| - 1]];
    }
  }

  function Pow10(w: nat): (p: nat)
    ensures p >= 1
  {
    if w == 0 then 1 else 10 * Pow10(w - 1)
  }

  /** A number below `10^w` needs at most `w` digits. */
  lemma {:induction false} DigitsLength(n: nat, w: nat)
    requires w >= 1 && n < Pow10(w)
    ensures |Digits(n)| <= w
    decreases w
  {
    if n >= 10 {
      assert w >= 2;
      assert n / 10 < Pow10(w - 1);
      DigitsLength(n / 10, w - 1);
    }
  }

  /** A number below `10^w` zero-padded to width `w` has exactly `w` digits. */
  lemma {:induction false} ZeroPadWidth(n: nat, w: nat)
    requires w >= 1 && n < Pow10(w)
    ensures |ZeroPad(n, w)| == w
  {
    DigitsLength(n, w);
  }

  lemma {:induction false} DigitsSlice(s: string, i: int, j: int)
    requires IsDigits(s) && 0 <= i <= j <= |s|
    ensures IsDigits(s[i..j])
  {
  }

  lemma {:induction false} DigitsAppend(a: string, b: string)
    requires IsDigits(a) && IsDigits(b)
    ensures IsDigits(a + b)
  {
    forall k | 0 <= k < |a + b| ensures IsDigit((a + b)[k]) {
      if k < |a| { assert (a + b)[k] == a[k]; } else { assert (a + b)[k] == b[k - |a|]; }
    }
  }
}

=== FILE: drive_monitor.dfy ===
/** What the three drive monitors (src/windows_drive_monitor.py,
    src/unix_drive_monitor.py, src/osx_drive_monitor.py) share: the set of
    monitored drives, the folder observers started so far, `check_drive`,
    which starts monitoring a drive's record folder once, and the pass of a
    poll cycle over the listed drives.

    Whether a folder exists and whether scanning or observing it succeeds
    are inputs (`FolderProbe`); what a started observer later does is the
    record handler's business.
 */
module DriveMonitoring {
  import opened Outcomes
  import opened Strings
  import opened Paths

  /** The record folder of a Unix or macOS drive, `os.path.join` of its
      mount point and the folder name; `None` when the folder name is not
      configured. */
  function JoinedRecordPath(drive: string, folderName: Option<string>): (p: Option<string>)
    ensures p.Some? <==> folderName.Some?
    ensures p.Some? && '/' !in folderName.value ==> Basename(p.value) == folderName.value
    ensures p.Some? && !(|folderName.value| > 0 && folderName.value[0] == '/') ==> StartsWith(p.value, drive)
  {
    match folderName
    case None => None
    case Some(name) =>
      JoinKeepsDirectory(drive, name);
      assert '/' !in name ==> Basename(Join(drive, name)) == name by {
        if '/' !in name {
          BasenameOfJoin(drive, name);
        }
      }
      Some(Join(drive, name))
  }

  /** What `start_folder_monitoring` attempts on a record folder. */
  datatype Action = Scan(folder: string) | Observe(folder: string)

  /** The monitor's state: the drives it monitors and the folders whose
      observers were started. */
  datatype Monitor = Monitor(monitored: set<string>, observers: seq<string>)

  /** A monitor with nothing monitored and no observer. */
  const Idle: Monitor := Monitor({}, [])

  /** The file-system facts a cycle depends on: whether a path exists, and
      whether scanning or observing a folder returns normally. */
  datatype FolderProbe = FolderProbe(present: string -> bool, scans: string -> bool, observes: string -> bool)

  /** A monitor state and the actions that led to it. */
  datatype Checked = Checked(monitor: Monitor, actions: seq<Action>)

  /** `start_folder_monitoring`.  With `scanFirst` (the Windows monitor)
      the folder's existing files are scanned before the observer is
      started, and a failing scan means no observer; the exception is
      caught either way.  `observed` says whether an observer was added. */
  datatype Setup = Setup(actions: seq<Action>, observed: bool)

  function StartFolderMonitoring(folder: string, scanFirst: bool, probe: FolderProbe): (s: Setup)
    ensures s.actions != [] && s.actions[|s.actions| - 1].folder == folder
    ensures s.observed ==> s.actions[|s.actions| - 1] == Observe(folder) && probe.observes(folder)
    ensures scanFirst ==> s.actions[0] == Scan(folder) && (s.observed <==> probe.scans(folder) && probe.observes(folder))
    ensures !scanFirst ==> s.actions == [Observe(folder)] && (s.observed <==> probe.observes(folder))
  {
    if scanFirst then
      if probe.scans(folder) then Setup([Scan(folder), Observe(folder)], probe.observes(folder))
      else Setup([Scan(folder)], false)
    else Setup([Observe(folder)], probe.observes(folder))
  }

  /** `check_drive`: a drive whose record folder exists and which is not
      monitored yet gets its folder monitored and joins the monitored set,
      even when starting the observer failed.  `recordPath` is `None` when
      the record folder name is missing from the configuration: the lookup
      raises, the exception is caught, and nothing happens. */
  function CheckDrive(m: Monitor, drive: string, recordPath: Option<string>, scanFirst: bool, probe: FolderProbe): (r: Checked)
    ensures drive in r.monitor.monitored <==> drive in m.monitored || HasRecordFolder(recordPath, probe)
    ensures forall d :: d != drive ==> (d in r.monitor.monitored <==> d in m.monitored)
    ensures r.actions != [] <==> drive !in m.monitored && HasRecordFolder(recordPath, probe)
    ensures r.actions != [] ==> r.actions[0].folder == recordPath.value
    ensures IsPrefix(m.observers, r.monitor.observers)
  {
    if HasRecordFolder(recordPath, probe) && drive !in m.monitored then
      var s := StartFolderMonitoring(recordPath.value, scanFirst, probe);
      var observers := m.observers + (if s.observed then [recordPath.value] else []);
      assert observers[..|m.observers|] == m.observers;
      Checked(Monitor(m.monitored + {drive}, observers), s.actions)
    else Checked(m, [])
  }

  /** The record folder path could be formed and the folder exists. */
  predicate HasRecordFolder(recordPath: Option<string>, probe: FolderProbe) {
    recordPath.Some? && probe.present(recordPath.value)
  }

  /** Checking a drive that is already monitored changes nothing. */
  lemma {:induction false} CheckDriveIdempotent(m: Monitor, drive: string, recordPath: Option<string>, scanFirst: bool, probe: FolderProbe)
    ensures var r := CheckDrive(m, drive, recordPath, scanFirst, probe);
            CheckDrive(r.monitor, drive, recordPath, scanFirst, probe) == Checked(r.monitor, [])
  {
  }

  /** The loop of a poll cycle over the listed drives: each drive the
      `removable` test accepts is checked, in listing order, against the
      record folder `recordPath(drive)`. */
  function CheckAll(m: Monitor, drives: seq<string>, removable: string -> bool, recordPath: string -> Option<string>,
                    scanFirst: bool, probe: FolderProbe): (r: Checked)
    ensures IsPrefix(m.observers, r.monitor.observers)
    ensures m.monitored <= r.monitor.monitored
    decreases |drives|
  {
    if drives == [] then Checked(m, [])
    else
      var d := drives[0];
      var first := if removable(d) then CheckDrive(m, d, recordPath(d), scanFirst, probe) else Checked(m, []);
      var rest := CheckAll(first.monitor, drives[1..], removable, recordPath, scanFirst, probe);
      assert rest.monitor.observers[..|m.observers|] == m.observers by {
        assert rest.monitor.observers[..|first.monitor.observers|] == first.monitor.observers;
        assert first.monitor.observers[..|m.observers|] == m.observers;
      }
      Checked(rest.monitor, first.actions + rest.actions)
  }

  /** The drives a pass newly needs to monitor: listed, accepted by
      `removable`, with a record folder. */
  predicate Eligible(d: string, drives: seq<string>, removable: string -> bool, recordPath: string -> Option<string>,
                     probe: FolderProbe) {
    d in drives && removable(d) && HasRecordFolder(recordPath(d), probe)
  }

  /** After a pass, a drive is monitored exactly when it was before or it
      is eligible. */
  lemma {:induction false} CheckAllMonitors(m: Monitor, drives: seq<string>, removable: string -> bool,
                                            recordPath: string -> Option<string>, scanFirst: bool, probe: FolderProbe)
    ensures var r := CheckAll(m, drives, removable, recordPath, scanFirst, probe);
            forall d :: d in r.monitor.monitored <==> d in m.monitored || Eligible(d, drives, removable, recordPath, probe)
    decreases |drives|
  {
    if drives != [] {
      var d0 := drives[0];
      var first := if removable(d0) then CheckDrive(m, d0, recordPath(d0), scanFirst, probe) else Checked(m, []);
      CheckAllMonitors(first.monitor, drives[1..], removable, recordPath, scanFirst, probe);
      forall d ensures d in drives <==> d == d0 || d in drives[1..] {
        assert drives == [d0] + drives[1..];
      }
    }
  }

  /** A pass only starts monitoring drives that were not monitored, and
      once a pass has run, a second pass over the same drives with the same
      file-system facts starts nothing and changes nothing. */
  lemma {:induction false} CheckAllSettles(m: Monitor, drives: seq<string>, removable: string -> bool,
                                           recordPath: string -> Option<string>, scanFirst: bool, probe: FolderProbe)
    ensures var r := CheckAll(m, drives, removable, recordPath, scanFirst, probe);
            CheckAll(r.monitor, drives, removable, recordPath, scanFirst, probe) == Checked(r.monitor, [])
  {
    var r := CheckAll(m, drives, removable, recordPath, scanFirst, probe);
    CheckAllMonitors(m, drives, removable, recordPath, scanFirst, probe);
    CheckAllNoop(r.monitor, drives, removable, recordPath, scanFirst, probe);
  }

  /** A pass over drives whose eligible members are all monitored already
      does nothing. */
  lemma {:induction false} CheckAllNoop(m: Monitor, drives: seq<string>, removable: string -> bool,
                                        recordPath: string -> Option<string>, scanFirst: bool, probe: FolderProbe)
    requires forall d :: Eligible(d, drives, removable, recordPath, probe) ==> d in m.monitored
    ensures CheckAll(m, drives, removable, recordPath, scanFirst, probe) == Checked(m, [])
    decreases |drives|
  {
    if drives != [] {
      var d0 := drives[0];
      assert Eligible(d0, drives, removable, recordPath, probe) ==> d0 in m.monitored;
      forall d | Eligible(d, drives[1..], removable, recordPath, probe) ensures d in m.monitored {
        assert Eligible(d, drives, removable, recordPath, probe);
      }
      CheckAllNoop(m, drives[1..], removable, recordPath, scanFirst, probe);
    }
  }

  /** Each `Observe` of a folder comes right after the `Scan` of the same
      folder. */
  predicate ScanBeforeObserve(actions: seq<Action>) {
    forall k :: 0 <= k < |actions| && actions[k].Observe? ==> k > 0 && actions[k - 1] == Scan(actions[k].folder)
  }

  lemma {:induction false} ScanBeforeObserveAppend(a: seq<Action>, b: seq<Action>)
    requires ScanBeforeObserve(a) && ScanBeforeObserve(b)
    requires b != [] ==> b[0].Scan?
    ensures ScanBeforeObserve(a + b)
  {
    var ab := a + b;
    forall k | 0 <= k < |ab| && ab[k].Observe?
      ensures k > 0 && ab[k - 1] == Scan(ab[k].folder)
    {
      if k >= |a| {
        assert ab[k] == b[k - |a|];
        assert k - |a| > 0;
        assert ab[k - 1] == b[k - |a| - 1];
      } else {
        assert ab[k] == a[k];
        assert ab[k - 1] == a[k - 1];
      }
    }
  }

  /** When every folder is scanned first, no observer starts on a folder
      before that folder's existing files were scanned. */
  lemma {:induction false} ScansComeFirst(m: Monitor, drives: seq<string>, removable: string -> bool,
                                          recordPath: string -> Option<string>, probe: FolderProbe)
    ensures var r := CheckAll(m, drives, removable, recordPath, true, probe);
            ScanBeforeObserve(r.actions) && (r.actions != [] ==> r.actions[0].Scan?)
    decreases |drives|
  {
    if drives != [] {
      var d := drives[0];
      var first := if removable(d) then CheckDrive(m, d, recordPath(d), true, probe) else Checked(m, []);
      ScansComeFirst(first.monitor, drives[1..], removable, recordPath, probe);
      var rest := CheckAll(first.monitor, drives[1..], removable, recordPath, true, probe);
      assert ScanBeforeObserve(first.actions) && (first.actions != [] ==> first.actions[0].Scan?) by {
        if first.actions != [] {
          var f := recordPath(d).value;
          assert first.actions == [Scan(f)] || first.actions == [Scan(f), Observe(f)];
        }
      }
      ScanBeforeObserveAppend(first.actions, rest.actions);
      if first.actions == [] {
        assert first.actions + rest.actions == rest.actions;
      }
    }
  }

  /** Every action starts an observer. */
  predicate ObservesOnly(actions: seq<Action>) {
    forall k :: 0 <= k < |actions| ==> actions[k].Observe?
  }

  /** Without the scan, a pass only starts observers. */
  lemma {:induction false} OnlyObservesWithoutScan(m: Monitor, drives: seq<string>, removable: string -> bool,
                                                   recordPath: string -> Option<string>, probe: FolderProbe)
    ensures ObservesOnly(CheckAll(m, drives, removable, recordPath, false, probe).actions)
    decreases |drives|
  {
    if drives != [] {
      var d := drives[0];
      var first := if removable(d) then CheckDrive(m, d, recordPath(d), false, probe) else Checked(m, []);
      OnlyObservesWithoutScan(first.monitor, drives[1..], removable, recordPath, probe);
      var rest := CheckAll(first.monitor, drives[1..], removable, recordPath, false, probe);
      var all := first.actions + rest.actions;
      forall k | 0 <= k < |all| ensures all[k].Observe? {
        if k >= |first.actions| {
          assert all[k] == rest.actions[k - |first.actions|];
        } else {
          assert removable(d) && first == CheckDrive(m, d, recordPath(d), false, probe);
          assert HasRecordFolder(recordPath(d), probe) && d !in m.monitored;
          var s := StartFolderMonitoring(recordPath(d).value, false, probe);
          assert first.actions == s.actions == [Observe(recordPath(d).value)];
          assert all[k] == first.actions[k];
          assert all[k].Observe?;
        }
      }
    }
  }

  /** `stop_monitoring`: every observer is stopped and forgotten, and no
      drive stays monitored. */
  function StopMonitoring(m: Monitor): (r: Monitor)
    ensures r.monitored == {} && r.observers == []
  {
    Idle
  }

  /** One poll cycle of the Unix and macOS monitors: the pass over the
      listed drives, then, if any monitored drive is no longer listed,
      everything is stopped, drives still present included. */
  datatype Cycle = Cycle(monitor: Monitor, actions: seq<Action>, stoppedAll: bool)

  function PollCycle(m: Monitor, drives: seq<string>, removable: string -> bool, recordPath: string -> Option<string>,
                     probe: FolderProbe): (c: Cycle)
    ensures c.stoppedAll <==> exists d :: d in m.monitored && d !in drives
    ensures c.stoppedAll ==> c.monitor == Idle
    ensures ObservesOnly(c.actions)
  {
    var pass := CheckAll(m, drives, removable, recordPath, false, probe);
    CheckAllMonitors(m, drives, removable, recordPath, false, probe);
    OnlyObservesWithoutScan(m, drives, removable, recordPath, probe);
    var removed := pass.monitor.monitored - set d | d in drives;
    assert removed != {} <==> exists d :: d in m.monitored && d !in drives by {
      if exists d :: d in m.monitored && d !in drives {
        var d :| d in m.monitored && d !in drives;
        assert d in removed;
      }
    }
    if removed != {} then Cycle(StopMonitoring(pass.monitor), pass.actions, true)
    else Cycle(pass.monitor, pass.actions, false)
  }

  /** When no monitored drive went away, the cycle keeps every monitored
      drive and adds exactly the eligible ones; observers are only added. */
  lemma {:induction false} PollCycleKeeps(m: Monitor, drives: seq<string>, removable: string -> bool, recordPath: string -> Option<string>,
                       probe: FolderProbe)
    requires forall d :: d in m.monitored ==> d in drives
    ensures var c := PollCycle(m, drives, removable, recordPath, probe);
            && !c.stoppedAll
            && (forall d :: d in c.monitor.monitored <==> d in m.monitored || Eligible(d, drives, removable, recordPath, probe))
            && IsPrefix(m.observers, c.monitor.observers)
  {
    CheckAllMonitors(m, drives, removable, recordPath, false, probe);
  }
}

=== FILE: factories.dfy ===
/** Platform dispatch (src/factories.py): the lower-cased system name picks
    the Windows, macOS or Linux implementation of the drive monitor and of
    the tray icon; any other name is unsupported, and a failing import of
    the chosen implementation is reported and raised again.
 */
module Factories {
  import opened Outcomes
  import opened Strings

  datatype Platform = Windows | Darwin | Linux

  /** The lower-cased system name that selects each platform. */
  function SystemName(p: Platform): string {
    match p
    case Windows => "windows"
    case Darwin => "darwin"
    case Linux => "linux"
  }

  /** The platform a lower-cased system name selects, if any. */
  function PlatformOf(system: string): (r: Option<Platform>)
    ensures r.Some? ==> SystemName(r.value) == system
    ensures forall p: Platform :: SystemName(p) == system ==> r == Some(p)
  {
    if system == "windows" then Some(Windows)
    else if system == "darwin" then Some(Darwin)
    else if system == "linux" then Some(Linux)
    else None
  }

  /** What a factory call gives: the implementation for a platform, or the
      `RuntimeError` naming an unsupported system, or the re-raised
      `ImportError` of the chosen implementation. */
  datatype Dispatch = Chose(platform: Platform) | Unsupported(system: string) | ImportFailed(platform: Platform)

  /** The dispatch both factories share.  `imports(p)` says whether the
      implementation for `p` loads. */
  function Select(systemName: string, imports: Platform -> bool): (r: Dispatch)
    ensures var system := LowerAscii(systemName);
            && (r.Unsupported? <==> forall p: Platform :: SystemName(p) != system)
            && (r.Unsupported? ==> r.system == system)
            && (r.Chose? ==> SystemName(r.platform) == system && imports(r.platform))
            && (r.ImportFailed? ==> SystemName(r.platform) == system && !imports(r.platform))
  {
    var system := LowerAscii(systemName);
    match PlatformOf(system)
    case None => Unsupported(system)
    case Some(p) => if imports(p) then Chose(p) else ImportFailed(p)
  }

  /** `DriveMonitorFactory.create_monitor`. */
  function CreateMonitor(systemName: string, monitorImports: Platform -> bool): (r: Dispatch)
    ensures r.Chose? <==> PlatformOf(LowerAscii(systemName)).Some? && monitorImports(PlatformOf(LowerAscii(systemName)).value)
    ensures r.Chose? ==> SystemName(r.platform) == LowerAscii(systemName)
    ensures r.Unsupported? <==> PlatformOf(LowerAscii(systemName)).None?
    ensures r.ImportFailed? ==> SystemName(r.platform) == LowerAscii(systemName) && !monitorImports(r.platform)
  {
    Select(systemName, monitorImports)
  }

  /** `SystemTrayFactory.create_tray`. */
  function CreateTray(systemName: string, trayImports: Platform -> bool): (r: Dispatch)
    ensures r.Chose? <==> PlatformOf(LowerAscii(systemName)).Some? && trayImports(PlatformOf(LowerAscii(systemName)).value)
    ensures r.Chose? ==> SystemName(r.platform) == LowerAscii(systemName)
    ensures r.Unsupported? <==> PlatformOf(LowerAscii(systemName)).None?
    ensures r.ImportFailed? ==> SystemName(r.platform) == LowerAscii(systemName) && !trayImports(r.platform)
  {
    Select(systemName, trayImports)
  }

  /** When both implementations load, the monitor and the tray are chosen
      for the same platform, and an unsupported system fails both the same
      way. */
  lemma {:induction false} FactoriesAgree(systemName: string, monitorImports: Platform -> bool, trayImports: Platform -> bool)
    requires forall p: Platform :: monitorImports(p) == trayImports(p)
    ensures CreateMonitor(systemName, monitorImports) == CreateTray(systemName, trayImports)
  {
  }

  /** The system name is matched without regard to ASCII case. */
  lemma {:induction false} CaseIsIgnored(systemName: string, imports: Platform -> bool)
    ensures CreateMonitor(LowerAscii(systemName), imports) == CreateMonitor(systemName, imports)
  {
    LowerAsciiIdempotent(systemName);
  }

  /** macOS reports itself as "Darwin", which selects the macOS
      implementation. */
  lemma {:induction false} DarwinSelectsMac(imports: Platform -> bool)
    requires imports(Darwin)
    ensures CreateMonitor("Darwin", imports) == Chose(Darwin)
  {
    var l := LowerAscii("Darwin");
    assert l[0] == 'd';
    assert l == "darwin";
  }
}

=== FILE: legacy_obsidian.dfy ===
/** The older note writer (obsidian_manager.py at the top of the
    repository).  Note and media paths are derived as in the newer writer;
    the note text has no front matter and no duration: the title, the
    embedded recording, the transcript heading, the content exactly as the
    caller renders it, then a `---` rule and the creation time.
 */
module LegacyObsidianNotes {
  import opened Outcomes
  import opened Strings
  import opened Paths
  import opened Clock
  import opened Segments
  import opened ObsidianNotes

  /** The note text, one string per line.  `content` is the text form of
      whatever the caller passed as the transcription. */
  function LegacyLines(title: string, mp3Name: string, content: string, createdText: string): (ls: seq<string>)
    ensures |ls| == 9
  {
    [ "# " + title,
      "",
      "![[" + mp3Name + "]]",
      "",
      "## Transcription",
      content,
      "",
      "---",
      "Created: " + createdText ]
  }

  /** The note text of the older writer. */
  function LegacyBody(title: string, mp3Name: string, content: string, created: DateTime): string
    requires Valid(created)
  {
    JoinLines(LegacyLines(title, mp3Name, content, FormatReadable(created)))
  }

  /** The text that precedes the content: everything up to and including
      the transcript heading's line end. */
  function LegacyLead(title: string, mp3Name: string): string {
    JoinLines(["# " + title, "", "![[" + mp3Name + "]]", "", "## Transcription"])
  }

  /** The closing lines after the content: an empty line, the rule and
      the creation time. */
  lemma {:induction false} LegacyClosing(stamp: string)
    ensures JoinLines(["", "---", stamp]) == "\n---\n" + stamp + "\n"
  {
    assert JoinLines([stamp]) == stamp + "\n";
    assert JoinLines(["---", stamp]) == "---\n" + stamp + "\n";
  }

  /** The content line and the closing lines join to the content and the
      trailer. */
  lemma {:induction false} LegacyTail(content: string, createdText: string)
    ensures JoinLines([content, "", "---", "Created: " + createdText]) == content + "\n\n---\nCreated: " + createdText + "\n"
  {
    var stamp := "Created: " + createdText;
    LegacyClosing(stamp);
    JoinLinesCons(content, ["", "---", stamp]);
  }

  /** The note text is the lead, the content and the trailer. */
  lemma {:induction false} LegacyParts(title: string, mp3Name: string, content: string, createdText: string)
    ensures JoinLines(LegacyLines(title, mp3Name, content, createdText))
            == LegacyLead(title, mp3Name) + content + ("\n\n---\nCreated: " + createdText + "\n")
  {
    var ls := LegacyLines(title, mp3Name, content, createdText);
    JoinLinesAppend(ls[..5], ls[5..]);
    assert ls[..5] + ls[5..] == ls;
    assert ls[..5] == ["# " + title, "", "![[" + mp3Name + "]]", "", "## Transcription"];
    assert ls[5..] == [content, "", "---", "Created: " + createdText];
    LegacyTail(content, createdText);
  }

  /** The parts of a three-part text sit where their lengths put them. */
  lemma {:induction false} ThreeParts(lead: string, middle: string, trail: string)
    ensures var body := lead + middle + trail;
            StartsWith(body, lead) && OccursAt(body, middle, |lead|) && EndsWith(body, trail)
  {
    var body := lead + middle + trail;
    assert body[..|lead|] == lead;
    assert body[|lead|..|lead| + |middle|] == middle;
    assert body[|body| - |trail|..] == trail;
  }

  /** The content is copied into the note unchanged, whatever characters it
      holds, right after the transcript heading; the note ends with the rule
      and the creation time (`createdText` is the rendered clock reading). */
  lemma {:induction false} ContentVerbatim(title: string, mp3Name: string, content: string, createdText: string)
    ensures var body := JoinLines(LegacyLines(title, mp3Name, content, createdText));
            var lead := LegacyLead(title, mp3Name);
            var trail := "\n\n---\nCreated: " + createdText + "\n";
            && StartsWith(body, lead)
            && OccursAt(body, content, |lead|)
            && EndsWith(body, trail)
            && |body| == |lead| + |content| + |trail|
  {
    LegacyParts(title, mp3Name, content, createdText);
    ThreeParts(LegacyLead(title, mp3Name), content, "\n\n---\nCreated: " + createdText + "\n");
  }

  /** Joining two runs of lines is joining each and concatenating. */
  lemma {:induction false} JoinLinesAppend(a: seq<string>, b: seq<string>)
    ensures JoinLines(a + b) == JoinLines(a) + JoinLines(b)
    decreases |a|
  {
    if a != [] {
      assert (a + b)[1..] == a[1..] + b;
      JoinLinesAppend(a[1..], b);
    } else {
      assert a + b == b;
    }
  }

  /** With single-line parts, the note reads line by line as the title
      heading, the embed, the transcript heading, the content on the sixth
      line, the rule and the creation time. */
  lemma {:induction false} LegacyNoteLines(title: string, mp3Name: string, content: string, created: DateTime)
    requires Valid(created) && '\n' !in title && '\n' !in mp3Name && '\n' !in content
    ensures var ls := SplitLines(LegacyBody(title, mp3Name, content, created));
            && ls == LegacyLines(title, mp3Name, content, FormatReadable(created))
            && ls[5] == content
  {
    ReadableNoNewline(created);
    LegacyLinesSplit(title, mp3Name, content, FormatReadable(created));
  }

  /** Lines without line breaks of their own split back out of the note. */
  lemma {:induction false} LegacyLinesSplit(title: string, mp3Name: string, content: string, createdText: string)
    requires '\n' !in title && '\n' !in mp3Name && '\n' !in content && '\n' !in createdText
    ensures var ls := LegacyLines(title, mp3Name, content, createdText);
            SplitLines(JoinLines(ls)) == ls && ls[5] == content
  {
    var ls := LegacyLines(title, mp3Name, content, createdText);
    assert forall k :: 0 <= k < |ls| ==> '\n' !in ls[k];
    SplitJoinLines(ls);
  }

  /** What the older `create_note` needs from the outside world: the clock
      reading and whether the copy and the write succeed. */
  datatype LegacyNoteIo = LegacyNoteIo(now: DateTime, copies: bool, writes: bool)

  /** `create_note(title, content, mp3_path)` of the older writer: copy the
      MP3 into the media folder, then write the note; no duration is read. */
  function LegacyCreateNote(m: Manager, title: string, content: string, mp3Path: string,
                            io: LegacyNoteIo): (r: Publication)
    requires Valid(io.now)
    ensures r.raised <==> !(io.copies && io.writes)
    ensures r.copiedTo.Some? <==> io.copies
    ensures r.copiedTo.Some? ==> r.copiedTo.value == MediaPath(m, mp3Path)
    ensures r.notePath.Some? <==> !r.raised
    ensures r.noteText.Some? <==> !r.raised
    ensures r.notePath.Some? ==> r.notePath.value == NotePath(m, title)
    ensures r.noteText.Some? ==> r.noteText.value == LegacyBody(title, Basename(mp3Path), content, io.now)
  {
    if !io.copies then Publication(None, None, None, true)
    else
      var copied := Some(MediaPath(m, mp3Path));
      if !io.writes then Publication(copied, None, None, true)
      else Publication(copied, Some(NotePath(m, title)), Some(LegacyBody(title, Basename(mp3Path), content, io.now)), false)
  }

  /** Both writers put the note and the MP3 copy in the same places. */
  lemma {:induction false} WritersAgreeOnPlaces(m: Manager, title: string, segments: seq<TranscriptSegment>,
                             content: string, mp3Path: string, now: DateTime, length: real)
    requires Valid(now)
    ensures var newer := CreateNote(m, title, segments, mp3Path, NoteIo(now, true, Returned(length), true));
            var older := LegacyCreateNote(m, title, content, mp3Path, LegacyNoteIo(now, true, true));
            newer.copiedTo == older.copiedTo && newer.notePath == older.notePath
  {
  }
}

=== FILE: legacy_record_handler.dfy ===
/** The older RECORD folder handler (record_folder_handler.py at the top of
    the repository).  It shares the event filter, the pipeline and the
    in-flight bookkeeping of the newer handler, but reads no time from the
    file name: the conversion gets no creation time, the note title comes
    from the clock when the note is written, and only the WAV is deleted.
 */
module LegacyRecordHandler {
  import opened Outcomes
  import opened Strings
  import opened Clock
  import opened Segments
  import opened RecordHandler

  /** `process_wav_file` of the older handler.  `now` is the clock reading
      taken for the title. */
  function LegacyProcessWavFile(inFlight: set<string>, wavPath: string, now: DateTime, c: Collaborators): (r: Run)
    requires Valid(now)
    ensures r.inFlightAfter == inFlight - {wavPath}
    ensures InPipelineOrder(r.calls)
    ensures 1 <= |r.calls| <= 4 && r.calls[0] == Convert(wavPath, None)
    ensures r.outcome != Failed(ParseName)
    ensures r.outcome == Failed(Conversion) <==> |r.calls| == 1
    ensures r.outcome == Failed(Transcription) <==> |r.calls| == 2
    ensures r.outcome == Failed(Publication) <==> |r.calls| == 3
    ensures |r.calls| > 2 ==> r.calls[2].title == TitleFor(now) && r.calls[2].transcript != []
    ensures r.outcome.Done? ==> r.calls[3] == Remove(wavPath)
    ensures r.deleted == (if r.outcome.Done? && c.remove(wavPath) then [wavPath] else [])
  {
    var after := inFlight - {wavPath};
    var convert := Convert(wavPath, None);
    match c.convert(wavPath, None)
    case Raised => Run([convert], Failed(Conversion), [], after)
    case Returned(mp3) =>
      if !TruthyString(mp3) then Run([convert], Failed(Conversion), [], after)
      else
        var transcribe := Transcribe(mp3.value);
        match c.transcribe(mp3.value)
        case Raised => Run([convert, transcribe], Failed(Transcription), [], after)
        case Returned(t) =>
          if t.None? || t.value == [] then Run([convert, transcribe], Failed(Transcription), [], after)
          else
            var title := TitleFor(now);
            var note := CreateNote(title, t.value, mp3.value);
            match c.createNote(title, t.value, mp3.value)
            case Raised => Run([convert, transcribe, note], Failed(Publication), [], after)
            case Returned(_) =>
              Run([convert, transcribe, note, Remove(wavPath)], Done,
                  if c.remove(wavPath) then [wavPath] else [], after)
  }

  /** The MP3 path the older handler goes on with: the conversion's
      answer, when it is a usable path. */
  function LegacyMp3(wavPath: string, c: Collaborators): Option<string> {
    UsableMp3(c.convert(wavPath, None))
  }

  /** The transcript the older handler goes on with, once it has an MP3. */
  function LegacyTranscript(wavPath: string, c: Collaborators): (r: Option<seq<TranscriptSegment>>)
    ensures r.Some? ==> LegacyMp3(wavPath, c).Some?
  {
    var mp3 := LegacyMp3(wavPath, c);
    if mp3.None? then None else UsableTranscript(c.transcribe(mp3.value))
  }

  /** Each outcome of the older handler is tied to the collaborator that
      answered: the converted path is the one transcribed, the transcript
      returned is the one written into the note for that path, and the run
      succeeds exactly when the note writer returned. */
  lemma {:induction false} LegacyRunFollowsCollaborators(inFlight: set<string>, wavPath: string, now: DateTime, c: Collaborators)
    requires Valid(now)
    ensures var r := LegacyProcessWavFile(inFlight, wavPath, now, c);
            var mp3, tr := LegacyMp3(wavPath, c), LegacyTranscript(wavPath, c);
            && (r.outcome == Failed(Conversion) <==> mp3.None?)
            && (mp3.Some? ==> r.calls[1] == Transcribe(mp3.value))
            && (r.outcome == Failed(Transcription) <==> mp3.Some? && tr.None?)
            && (tr.Some? ==> r.calls[2] == CreateNote(TitleFor(now), tr.value, mp3.value))
            && (r.outcome == Failed(Publication) <==> tr.Some? && c.createNote(TitleFor(now), tr.value, mp3.value).Raised?)
            && (r.outcome.Done? <==> tr.Some? && c.createNote(TitleFor(now), tr.value, mp3.value).Returned?)
  {
  }

  /** The older handler never deletes the converted MP3: the WAV is the only
      file it removes, and only after the note was created. */
  lemma {:induction false} OnlyWavRemoved(inFlight: set<string>, wavPath: string, now: DateTime, c: Collaborators)
    requires Valid(now)
    ensures var r := LegacyProcessWavFile(inFlight, wavPath, now, c);
            (forall i :: 0 <= i < |r.calls| && r.calls[i].Remove? ==> r.calls[i].path == wavPath && r.outcome.Done?) &&
            (forall p :: p in r.deleted ==> p == wavPath)
  {
    var r := LegacyProcessWavFile(inFlight, wavPath, now, c);
    forall i | 0 <= i < |r.calls| && r.calls[i].Remove?
      ensures r.calls[i].path == wavPath && r.outcome.Done?
    {
      assert i == 3;
    }
  }

  /** `on_created` of the older handler: the same filter as the newer one. */
  function LegacyOnCreated(inFlight: set<string>, e: FsEvent, now: DateTime, c: Collaborators): (r: Option<Run>)
    requires Valid(now)
    ensures r.Some? <==> ShouldProcess(inFlight, e)
    ensures r.Some? ==> r.value.inFlightAfter == inFlight - {e.srcPath}
  {
    if ShouldProcess(inFlight, e) then Some(LegacyProcessWavFile(inFlight, e.srcPath, now, c)) else None
  }

  /** The runs of processing `paths` in turn; `clock(i)` is the time read
      during the i-th run. */
  function LegacyScanRuns(inFlight: set<string>, paths: seq<string>, clock: nat -> DateTime, c: Collaborators): (runs: seq<Run>)
    requires forall i :: 0 <= i < |paths| ==> Valid(clock(i))
    ensures |runs| == |paths|
  {
    if paths == [] then []
    else
      var init := paths[..|paths| - 1];
      LegacyScanRuns(inFlight, init, clock, c)
        + [LegacyProcessWavFile(Released(inFlight, init), paths[|paths| - 1], clock(|paths| - 1), c)]
  }

  /** Scanning one more path adds its run, with the clock reading of its
      turn, after the others. */
  lemma {:induction false} LegacyScanRunsSnoc(inFlight: set<string>, paths: seq<string>, i: nat, clock: nat -> DateTime, c: Collaborators)
    requires i < |paths|
    requires forall k :: 0 <= k < |paths| ==> Valid(clock(k))
    ensures LegacyScanRuns(inFlight, paths[..i + 1], clock, c)
            == LegacyScanRuns(inFlight, paths[..i], clock, c) + [LegacyProcessWavFile(Released(inFlight, paths[..i]), paths[i], clock(i), c)]
  {
    var p := paths[..i + 1];
    assert p[..|p| - 1] == paths[..i];
    assert p[|p| - 1] == paths[i];
  }

  /** One turn of the scan: the next run extends the runs so far and
      releases its own path. */
  lemma {:induction false} LegacyScanStep(inFlight: set<string>, paths: seq<string>, i: nat, clock: nat -> DateTime, c: Collaborators)
    requires i < |paths|
    requires forall k :: 0 <= k < |paths| ==> Valid(clock(k))
    ensures var r := LegacyProcessWavFile(Released(inFlight, paths[..i]), paths[i], clock(i), c);
            && r.inFlightAfter == Released(inFlight, paths[..i + 1])
            && LegacyScanRuns(inFlight, paths[..i], clock, c) + [r] == LegacyScanRuns(inFlight, paths[..i + 1], clock, c)
  {
    LegacyScanRunsSnoc(inFlight, paths, i, clock, c);
    ScanRunsSnoc(inFlight, paths, i, c);
  }

  /** `scan_existing_files` of the older handler: every `.wav` entry (in any
      case) is processed in listing order with no duplicate check. */
  method LegacyScanExistingFiles(inFlight: set<string>, folder: string, listing: seq<string>, clock: nat -> DateTime, c: Collaborators)
    returns (runs: seq<Run>, inFlightAfter: set<string>)
    requires forall i :: 0 <= i < |WavEntries(folder, listing)| ==> Valid(clock(i))
    ensures runs == LegacyScanRuns(inFlight, WavEntries(folder, listing), clock, c)
    ensures forall x :: x in inFlightAfter <==> x in inFlight && x !in WavEntries(folder, listing)
  {
    var paths := WavEntries(folder, listing);
    runs := [];
    inFlightAfter := inFlight;
    var i := 0;
    while i < |paths|
      invariant 0 <= i <= |paths|
      invariant inFlightAfter == Released(inFlight, paths[..i])
      invariant runs == LegacyScanRuns(inFlight, paths[..i], clock, c)
    {
      var r := LegacyProcessWavFile(inFlightAfter, paths[i], clock(i), c);
      LegacyScanStep(inFlight, paths, i, clock, c);
      runs := runs + [r];
      inFlightAfter := r.inFlightAfter;
      i := i + 1;
    }
    assert paths[..i] == paths;
    ReleasedExactly(inFlight, paths);
  }
}

=== FILE: obsidian.dfy ===
/** The note writer of src/obsidian_manager.py: where a recording's note and
    its copied MP3 go inside the Obsidian vault, and the Markdown text of the
    note (front matter with the creation time and the duration, the title,
    the embedded recording and the transcript as a bullet list).

    The clock, the MP3 duration read, the copy and the write are inputs.
 */
module ObsidianNotes {
  import opened Outcomes
  import opened Strings
  import opened Decimal
  import opened Paths
  import opened Clock
  import opened Segments

  /** The vault root and the media folder inside it. */
  datatype Manager = Manager(vaultPath: string, mediaFolder: string)

  /** The constructor: the media folder is the configured folder name joined
      onto the vault path. */
  function NewManager(vaultPath: string, mediaFolderName: string): (m: Manager)
    ensures m.vaultPath == vaultPath
    ensures !StartsWith(mediaFolderName, "/") ==> StartsWith(m.mediaFolder, vaultPath)
    ensures StartsWith(mediaFolderName, "/") ==> m.mediaFolder == mediaFolderName
    ensures '/' !in mediaFolderName ==> Basename(m.mediaFolder) == mediaFolderName
  {
    var folder := Join(vaultPath, mediaFolderName);
    assert '/' !in mediaFolderName ==> Basename(folder) == mediaFolderName by {
      if '/' !in mediaFolderName { BasenameOfJoin(vaultPath, mediaFolderName); }
    }
    Manager(vaultPath, folder)
  }

  /** The note's file name: the title with every space made an underscore,
      then `.md`. */
  function NoteFileName(title: string): (n: string)
    ensures |n| == |title| + 3 && EndsWith(n, ".md")
    ensures ' ' !in n[..|title|] && ('/' in title <==> '/' in n)
    ensures forall i :: 0 <= i < |title| ==> n[i] == (if title[i] == ' ' then '_' else title[i])
  {
    var r := ReplaceChar(title, ' ', '_') + ".md";
    assert r[..|title|] == ReplaceChar(title, ' ', '_');
    assert '/' in title ==> '/' in r by {
      if '/' in title {
        var i :| 0 <= i < |title| && title[i] == '/';
        assert r[i] == '/';
      }
    }
    r
  }

  /** Where the note is written: directly inside the vault root. */
  function NotePath(m: Manager, title: string): (p: string)
    ensures '/' !in title ==> Basename(p) == NoteFileName(title) && StartsWith(p, m.vaultPath)
  {
    PlainJoin(m.vaultPath, title, NoteFileName(title));
    Join(m.vaultPath, NoteFileName(title))
  }

  /** A file name made from a title without separators stays directly inside
      the directory it is joined to. */
  lemma {:induction false} PlainJoin(dir: string, title: string, name: string)
    requires '/' in title <==> '/' in name
    ensures '/' !in title ==> Basename(Join(dir, name)) == name && StartsWith(Join(dir, name), dir)
  {
    if '/' !in title {
      BasenameOfJoin(dir, name);
      JoinStartsWithDirectory(dir, name);
    }
  }

  /** Where the MP3 is copied: the media folder, under the MP3's own file
      name (the same name the note embeds). */
  function MediaPath(m: Manager, mp3Path: string): (p: string)
    ensures Basename(p) == Basename(mp3Path)
    ensures StartsWith(p, m.mediaFolder)
  {
    var name := Basename(mp3Path);
    BasenameOfJoin(m.mediaFolder, name);
    JoinStartsWithDirectory(m.mediaFolder, name);
    Join(m.mediaFolder, name)
  }

  /** The duration line for `d` whole seconds: `divmod(d, 60)`.  Python's
      `divmod` floors, which for the divisor 60 is Dafny's `/` and `%`. */
  function DurationLine(d: int): (line: string)
    ensures StartsWith(line, "Duration: ") && EndsWith(line, "s")
  {
    "Duration: " + MinutesSeconds(d)
  }

  /** `<minutes>m <seconds>s`, the part of the duration line after its label. */
  function MinutesSeconds(d: int): string {
    IntToString(d / 60) + "m " + IntToString(d % 60) + "s"
  }

  /** Reads the number of seconds back from a duration line. */
  function ReadDuration(line: string): Option<int> {
    if !StartsWith(line, "Duration: ") then None else ReadMinutesSeconds(line[10..])
  }

  /** Reads `<minutes>m <seconds>s` as a number of seconds. */
  function ReadMinutesSeconds(rest: string): Option<int> {
    var i := IndexOf(rest, 'm');
    if i == 0 || i == |rest| || !IsDigits(rest[..i]) then None
    else
      var tail := rest[i + 1..];
      if |tail| < 3 || tail[0] != ' ' || tail[|tail| - 1] != 's' || !IsDigits(tail[1..|tail| - 1]) then None
      else Some(60 * DecodeDigits(rest[..i]) + DecodeDigits(tail[1..|tail| - 1]))
  }

  /** Digit strings have no newline and no letter `m`. */
  lemma {:induction false} DigitsExclude(s: string)
    requires IsDigits(s)
    ensures '\n' !in s && 'm' !in s && '*' !in s
  {
    assert forall c :: c in s ==> IsDigit(c);
  }

  /** Minutes and seconds in the duration's shape read back as minutes times
      sixty plus seconds. */
  lemma {:induction false} ReadMinutesSecondsOf(mins: string, secs: string)
    requires |mins| >= 1 && IsDigits(mins) && |secs| >= 1 && IsDigits(secs)
    ensures ReadMinutesSeconds(mins + "m " + secs + "s") == Some(60 * DecodeDigits(mins) + DecodeDigits(secs))
  {
    var rest, tail := mins + "m " + secs + "s", " " + secs + "s";
    assert IndexOf(rest, 'm') == |mins| && rest[..|mins|] == mins && rest[|mins| + 1..] == tail by {
      assert rest == mins + "m" + tail;
      MinutesField(mins, tail);
    }
    SecondsField(secs);
  }

  /** The minutes are everything before the first `m`, the tail everything after it. */
  lemma {:induction false} MinutesField(mins: string, tail: string)
    requires IsDigits(mins)
    ensures var rest := mins + "m" + tail;
            IndexOf(rest, 'm') == |mins| && rest[..|mins|] == mins && rest[|mins| + 1..] == tail
  {
    DigitsExclude(mins);
    assert mins + "m" + tail == mins + ['m'] + tail;
    IndexOfFirst(mins, 'm', tail);
    PartsOfThree(mins, "m", tail);
  }

  /** The seconds sit between the leading space and the closing `s`. */
  lemma {:induction false} SecondsField(secs: string)
    ensures var tail := " " + secs + "s";
            |tail| >= 2 && tail[0] == ' ' && tail[|tail| - 1] == 's' && tail[1..|tail| - 1] == secs
  {
    PartsOfThree(" ", secs, "s");
  }

  /** A line that starts with the duration label is read from what follows
      the label. */
  lemma {:induction false} ReadDurationOfRest(rest: string)
    ensures ReadDuration("Duration: " + rest) == ReadMinutesSeconds(rest)
  {
    var line := "Duration: " + rest;
    assert line[..10] == "Duration: ";
    assert line[10..] == rest;
  }

  /** The minutes and seconds of a duration read back as the duration. */
  lemma {:induction false} MinutesSecondsRoundTrip(d: nat)
    ensures ReadMinutesSeconds(MinutesSeconds(d)) == Some(d)
  {
    var q, r := d / 60, d % 60;
    assert IntToString(q) == Digits(q) && IntToString(r) == Digits(r);
    ReadMinutesSecondsOf(Digits(q), Digits(r));
    MinutesAndSeconds(d, q, r);
  }

  /** The duration line gives the duration back: minutes and seconds are
      the quotient and remainder of the same number. */
  lemma {:induction false} DurationLineRoundTrip(d: nat)
    ensures ReadDuration(DurationLine(d)) == Some(d)
  {
    ReadDurationOfRest(MinutesSeconds(d));
    MinutesSecondsRoundTrip(d);
  }

  /** The front matter and headings that precede the transcript, one string
      per line, from the rendered creation time and duration line. */
  function HeaderLines(createdText: string, durationLine: string, title: string, mp3Name: string): (ls: seq<string>)
    ensures |ls| == 9
  {
    [ "---",
      "Created: [[" + createdText + "]]",
      durationLine,
      "---",
      "# " + title,
      "",
      "![[" + mp3Name + "]]",
      "",
      "## Transcription" ]
  }

  /** The header lines of a note created at `created` for a recording of
      `duration` whole seconds. */
  function NoteHeader(created: DateTime, duration: int, title: string, mp3Name: string): seq<string>
    requires Valid(created)
  {
    HeaderLines(FormatReadable(created), DurationLine(duration), title, mp3Name)
  }

  /** One transcript bullet, without its line end. */
  function Bullet(s: TranscriptSegment): string {
    "- **" + s.timestamp + "**: " + s.text
  }

  /** Reads a bullet back into its timestamp and text. */
  function ParseBullet(line: string): Option<TranscriptSegment> {
    if !StartsWith(line, "- **") then None
    else
      var rest := line[4..];
      var i := IndexOf(rest, '*');
      if i + 4 > |rest| || rest[i..i + 4] != "**: " then None
      else Some(TranscriptSegment(rest[..i], rest[i + 4..]))
  }

  /** A bullet gives its segment back when the timestamp has no `*`. */
  lemma {:induction false} BulletRoundTrip(s: TranscriptSegment)
    requires '*' !in s.timestamp
    ensures ParseBullet(Bullet(s)) == Some(s)
  {
    var line := Bullet(s);
    var rest := s.timestamp + "**: " + s.text;
    assert line == "- **" + rest;
    assert line[4..] == rest;
    assert rest == s.timestamp + ['*'] + ("*: " + s.text);
    IndexOfFirst(s.timestamp, '*', "*: " + s.text);
    var i := |s.timestamp|;
    assert rest[i..i + 4] == "**: ";
    assert rest[..i] == s.timestamp;
    assert rest[i + 4..] == s.text;
  }

  /** The bullets of a transcript, in segment order. */
  function Bullets(segments: seq<TranscriptSegment>): (ls: seq<string>)
    ensures |ls| == |segments|
  {
    seq(|segments|, k requires 0 <= k < |segments| => Bullet(segments[k]))
  }

  /** The transcript part of the note with each bullet ending its line. */
  function Transcription(segments: seq<TranscriptSegment>): string {
    JoinLines(Bullets(segments))
  }

  /** The transcript part as src/obsidian_manager.py:67 writes it: each bullet is followed by
      a backslash and the letter `n`, not by a line end. */
  function TranscriptionAsWritten(segments: seq<TranscriptSegment>): string {
    if segments == [] then []
    else Bullet(segments[0]) + "\\n" + TranscriptionAsWritten(segments[1..])
  }

  /** The note text: the header lines, then the transcript. */
  function NoteBody(created: DateTime, duration: int, title: string, mp3Name: string,
                    segments: seq<TranscriptSegment>): string
    requires Valid(created)
  {
    JoinLines(NoteHeader(created, duration, title, mp3Name)) + Transcription(segments)
  }

  /** The note text with the transcript as written. */
  function NoteBodyAsWritten(created: DateTime, duration: int, title: string, mp3Name: string,
                             segments: seq<TranscriptSegment>): string
    requires Valid(created)
  {
    JoinLines(NoteHeader(created, duration, title, mp3Name)) + TranscriptionAsWritten(segments)
  }

  /** A character absent from a string is absent from its suffixes. */
  lemma {:induction false} SuffixExcludes(s: string, i: nat, c: char)
    requires i <= |s| && c !in s
    ensures c !in s[i..]
  {
  }

  /** No segment field holds a line end. */
  predicate SingleLineSegments(segments: seq<TranscriptSegment>) {
    forall k :: 0 <= k < |segments| ==> '\n' !in segments[k].timestamp && '\n' !in segments[k].text
  }

  lemma {:induction false} IntToStringNoNewline(n: int)
    ensures '\n' !in IntToString(n)
  {
    if n < 0 { DigitsExclude(Digits(-n)); } else { DigitsExclude(Digits(n)); }
  }

  /** A `%Y-%m-%d %H:%M:%S` rendering is a single line. */
  lemma {:induction false} ReadableNoNewline(t: DateTime)
    requires Valid(t)
    ensures '\n' !in FormatReadable(t)
  {
    DigitsExclude(ZeroPad(t.year, 4));
    DigitsExclude(ZeroPad(t.month, 2));
    DigitsExclude(ZeroPad(t.day, 2));
    DigitsExclude(ZeroPad(t.hour, 2));
    DigitsExclude(ZeroPad(t.minute, 2));
    DigitsExclude(ZeroPad(t.second, 2));
  }

  /** The duration line is a single line. */
  lemma {:induction false} DurationLineSingle(d: int)
    ensures '\n' !in DurationLine(d)
  {
    IntToStringNoNewline(d / 60);
    IntToStringNoNewline(d % 60);
  }

  /** Every header line is a single line when its parts are. */
  lemma {:induction false} HeaderLinesSingle(createdText: string, durationLine: string, title: string, mp3Name: string)
    requires '\n' !in createdText && '\n' !in durationLine && '\n' !in title && '\n' !in mp3Name
    ensures var ls := HeaderLines(createdText, durationLine, title, mp3Name);
            forall k :: 0 <= k < |ls| ==> '\n' !in ls[k]
  {
  }

  /** Every line of a note's header is a single line when the title and
      file name are. */
  lemma {:induction false} NoteHeaderSingle(created: DateTime, duration: int, title: string, mp3Name: string)
    requires Valid(created) && '\n' !in title && '\n' !in mp3Name
    ensures var ls := NoteHeader(created, duration, title, mp3Name);
            forall k :: 0 <= k < |ls| ==> '\n' !in ls[k]
  {
    ReadableNoNewline(created);
    DurationLineSingle(duration);
    HeaderLinesSingle(FormatReadable(created), DurationLine(duration), title, mp3Name);
  }

  /** The note reads, line by line: the front matter (creation time and
      duration between `---` lines), the title heading, the embedded
      recording, the transcript heading, then one bullet per segment in
      order, each giving its segment back. */
  lemma {:induction false} NoteLines(created: DateTime, duration: int, title: string, mp3Name: string,
                  segments: seq<TranscriptSegment>)
    requires Valid(created) && '\n' !in title && '\n' !in mp3Name
    requires SingleLineSegments(segments)
    ensures var ls := SplitLines(NoteBody(created, duration, title, mp3Name, segments));
            && |ls| == 9 + |segments|
            && ls[..9] == NoteHeader(created, duration, title, mp3Name)
            && ls[9..] == Bullets(segments)
  {
    var header := NoteHeader(created, duration, title, mp3Name);
    var bullets := Bullets(segments);
    NoteHeaderSingle(created, duration, title, mp3Name);
    BulletsSingle(segments);
    SplitJoinAppend(header, bullets);
    assert (header + bullets)[..9] == header;
    assert (header + bullets)[9..] == bullets;
  }

  /** Bullets of segments without line ends hold no line end. */
  lemma {:induction false} BulletsSingle(segments: seq<TranscriptSegment>)
    requires SingleLineSegments(segments)
    ensures forall k :: 0 <= k < |Bullets(segments)| ==> '\n' !in Bullets(segments)[k]
  {
    var bullets := Bullets(segments);
    forall k | 0 <= k < |bullets| ensures '\n' !in bullets[k] {
      assert bullets[k] == "- **" + segments[k].timestamp + "**: " + segments[k].text;
    }
  }

  /** The transcript bullets read back as the segments, in order. */
  lemma {:induction false} NoteTranscriptRoundTrip(created: DateTime, duration: int, title: string, mp3Name: string,
                                segments: seq<TranscriptSegment>)
    requires Valid(created) && '\n' !in title && '\n' !in mp3Name
    requires SingleLineSegments(segments)
    requires forall k :: 0 <= k < |segments| ==> '*' !in segments[k].timestamp
    ensures var ls := SplitLines(NoteBody(created, duration, title, mp3Name, segments));
            |ls| == 9 + |segments| &&
            forall k :: 0 <= k < |segments| ==> ParseBullet(ls[9 + k]) == Some(segments[k])
  {
    NoteLines(created, duration, title, mp3Name, segments);
    var ls := SplitLines(NoteBody(created, duration, title, mp3Name, segments));
    forall k | 0 <= k < |segments| ensures ParseBullet(ls[9 + k]) == Some(segments[k]) {
      assert ls[9 + k] == ls[9..][k] == Bullet(segments[k]);
      BulletRoundTrip(segments[k]);
    }
  }

  /** An empty transcript adds nothing after the transcript heading. */
  lemma {:induction false} EmptyTranscriptAddsNothing(created: DateTime, duration: int, title: string, mp3Name: string)
    requires Valid(created)
    ensures EndsWith(NoteBody(created, duration, title, mp3Name, []), "## Transcription\n")
  {
    HeaderEndsWithHeading(FormatReadable(created), DurationLine(duration), title, mp3Name);
    EmptyTranscription();
    AppendNothing(JoinLines(NoteHeader(created, duration, title, mp3Name)));
  }

  lemma {:induction false} EmptyTranscription()
    ensures Transcription([]) == []
  {
    assert Bullets([]) == [];
  }

  lemma {:induction false} AppendNothing(s: string)
    ensures s + [] == s
  {
  }

  /** The header text ends with the transcript heading and its line end. */
  lemma {:induction false} HeaderEndsWithHeading(createdText: string, durationLine: string, title: string, mp3Name: string)
    ensures EndsWith(JoinLines(HeaderLines(createdText, durationLine, title, mp3Name)), "## Transcription\n")
  {
    var header := HeaderLines(createdText, durationLine, title, mp3Name);
    var last := "## Transcription";
    assert header[8..] == [last];
    JoinLinesCons(last, []);
    assert [last] + [] == [last];
    JoinLinesSuffix(header, 8);
  }

  /** The text of the last lines ends the text of all lines. */
  lemma {:induction false} JoinLinesSuffix(ls: seq<string>, i: nat)
    requires i <= |ls|
    ensures EndsWith(JoinLines(ls), JoinLines(ls[i..]))
    decreases i
  {
    if i > 0 {
      JoinLinesSuffix(ls[1..], i - 1);
      assert ls[1..][i - 1..] == ls[i..];
      assert JoinLines(ls) == ls[0] + "\n" + JoinLines(ls[1..]);
    }
  }

  /** The transcript as written holds no line end when the segments hold
      none. */
  lemma {:induction false} AsWrittenHasNoNewline(segments: seq<TranscriptSegment>)
    requires SingleLineSegments(segments)
    ensures '\n' !in TranscriptionAsWritten(segments)
    decreases |segments|
  {
    if segments != [] {
      AsWrittenHasNoNewline(segments[1..]);
      assert SingleLineSegments(segments[1..]) by {
        forall k | 0 <= k < |segments[1..]|
          ensures '\n' !in segments[1..][k].timestamp && '\n' !in segments[1..][k].text
        {
          assert segments[1..][k] == segments[k + 1];
        }
      }
    }
  }

  /** As written, the whole transcript is a single line of the note: after
      the nine header lines there is exactly one more line, however many
      segments there are. */
  lemma {:induction false} AsWrittenTranscriptIsOneLine(created: DateTime, duration: int, title: string, mp3Name: string,
                                     segments: seq<TranscriptSegment>)
    requires Valid(created) && '\n' !in title && '\n' !in mp3Name
    requires SingleLineSegments(segments) && segments != []
    ensures |SplitLines(NoteBodyAsWritten(created, duration, title, mp3Name, segments))| == 10
  {
    var header := NoteHeader(created, duration, title, mp3Name);
    var t := TranscriptionAsWritten(segments);
    NoteHeaderSingle(created, duration, title, mp3Name);
    AsWrittenHasNoNewline(segments);
    SplitLinesAfterJoin(header, t);
    SplitLinesNoNewline(t);
  }

  /** Two spoken segments: the note as written puts both on one line, the
      corrected note gives each its own line. */
  lemma {:induction false} TwoSegmentsShareOneLine(created: DateTime)
    requires Valid(created)
    ensures var segments := [TranscriptSegment("00:00", "Hello"), TranscriptSegment("00:05", "world")];
            && |SplitLines(NoteBodyAsWritten(created, 65, "Recording", "a.mp3", segments))| == 10
            && |SplitLines(NoteBody(created, 65, "Recording", "a.mp3", segments))| == 11
  {
    var segments := [TranscriptSegment("00:00", "Hello"), TranscriptSegment("00:05", "world")];
    AsWrittenTranscriptIsOneLine(created, 65, "Recording", "a.mp3", segments);
    NoteLines(created, 65, "Recording", "a.mp3", segments);
  }

  /** What `create_note` needs from the outside world: the clock reading,
      whether the copy into the media folder succeeds, the length of the
      copied MP3 in seconds (or the exception reading it), and whether the
      note file can be written. */
  datatype NoteIo = NoteIo(now: DateTime, copies: bool, mp3Length: Attempt<real>, writes: bool)

  /** The files `create_note` produced: the copy of the MP3 when it was
      made, and the note (its path and text) when it was written.  `raised`
      says whether the call ended with an exception. */
  datatype Publication = Publication(copiedTo: Option<string>, notePath: Option<string>,
                                     noteText: Option<string>, raised: bool)

  /** `create_note(title, content, mp3_path)`.  The copy comes first, the
      duration is read from the copy, and the note is written last; the
      first step that fails raises and the later steps do not happen.  The
      note holds the transcript as src/obsidian_manager.py:67 writes it. */
  function CreateNote(m: Manager, title: string, segments: seq<TranscriptSegment>, mp3Path: string,
                      io: NoteIo): (r: Publication)
    requires Valid(io.now)
    ensures r.raised <==> !(io.copies && io.mp3Length.Returned? && io.writes)
    ensures r.copiedTo.Some? <==> io.copies
    ensures r.copiedTo.Some? ==> r.copiedTo.value == MediaPath(m, mp3Path)
    ensures r.notePath.Some? <==> !r.raised
    ensures r.noteText.Some? <==> !r.raised
    ensures r.notePath.Some? ==> r.notePath.value == NotePath(m, title)
    ensures r.noteText.Some? ==>
              r.noteText.value == NoteBodyAsWritten(io.now, Truncate(io.mp3Length.value), title, Basename(mp3Path), segments)
  {
    if !io.copies then Publication(None, None, None, true)
    else
      var copied := Some(MediaPath(m, mp3Path));
      match io.mp3Length
      case Raised => Publication(copied, None, None, true)
      case Returned(length) =>
        if !io.writes then Publication(copied, None, None, true)
        else
          var text := NoteBodyAsWritten(io.now, Truncate(length), title, Basename(mp3Path), segments);
          Publication(copied, Some(NotePath(m, title)), Some(text), false)
  }

  /** `create_note` with each transcript bullet ending its line: the same
      steps, writing the corrected body. */
  function CreateNoteCorrected(m: Manager, title: string, segments: seq<TranscriptSegment>, mp3Path: string,
                               io: NoteIo): (r: Publication)
    requires Valid(io.now)
    ensures r.noteText.Some? <==> io.copies && io.mp3Length.Returned? && io.writes
    ensures r.noteText.Some? ==>
              r.noteText.value == NoteBody(io.now, Truncate(io.mp3Length.value), title, Basename(mp3Path), segments)
  {
    if !io.copies || io.mp3Length.Raised? || !io.writes then CreateNote(m, title, segments, mp3Path, io)
    else
      var text := NoteBody(io.now, Truncate(io.mp3Length.value), title, Basename(mp3Path), segments);
      Publication(Some(MediaPath(m, mp3Path)), Some(NotePath(m, title)), Some(text), false)
  }

  /** The corrected writer fails, copies and places the note exactly as the
      code does; only the note text differs, and not at all for an empty
      transcript. */
  lemma {:induction false} CorrectedWriterChangesOnlyText(m: Manager, title: string, segments: seq<TranscriptSegment>,
                                                          mp3Path: string, io: NoteIo)
    requires Valid(io.now)
    ensures var written, corrected := CreateNote(m, title, segments, mp3Path, io), CreateNoteCorrected(m, title, segments, mp3Path, io);
            && corrected.raised == written.raised
            && corrected.copiedTo == written.copiedTo
            && corrected.notePath == written.notePath
            && corrected.noteText.Some? == written.noteText.Some?
            && (segments == [] ==> corrected.noteText == written.noteText)
  {
    if segments == [] {
      EmptyTranscription();
      assert TranscriptionAsWritten(segments) == [];
    }
  }

  lemma {:induction false} EmbedLine(createdText: string, durationLine: string, title: string, mp3Name: string)
    ensures HeaderLines(createdText, durationLine, title, mp3Name)[6] == "![[" + mp3Name + "]]"
  {
  }

  /** The seventh line of the note embeds the MP3 under its own file name,
      which is the name its copy has in the media folder (`MediaPath`). */
  lemma {:induction false} EmbedNamesTheCopy(mp3Path: string, created: DateTime, duration: int, title: string,
                          segments: seq<TranscriptSegment>)
    requires Valid(created) && '\n' !in title && '\n' !in mp3Path
    requires SingleLineSegments(segments)
    ensures var ls := SplitLines(NoteBody(created, duration, title, Basename(mp3Path), segments));
            |ls| > 6 && ls[6] == "![[" + Basename(mp3Path) + "]]"
  {
    var name := Basename(mp3Path);
    SuffixExcludes(mp3Path, |mp3Path| - |name|, '\n');
    NoteLines(created, duration, title, name, segments);
    var ls := SplitLines(NoteBody(created, duration, title, name, segments));
    var header := NoteHeader(created, duration, title, name);
    EmbedLine(FormatReadable(created), DurationLine(duration), title, name);
    assert ls[6] == ls[..9][6];
    assert |ls| > 6 && ls[6] == "![[" + Basename(mp3Path) + "]]";
  }

}

=== FILE: osx_monitor.dfy ===
/** The macOS drive monitor (src/osx_drive_monitor.py): the candidate drives
    are the mount points directly under `/Volumes`, a volume counts as
    removable when `diskutil info` says so, folders are observed without a
    scan, and any monitored volume missing from the listing stops
    everything.
 */
module OsxMonitor {
  import opened Outcomes
  import opened Strings
  import opened Paths
  import opened DriveMonitoring

  /** The directory whose entries are the mounted volumes. */
  const VolumesRoot: string := "/Volumes"

  /** The text `diskutil info` prints for removable media. */
  const RemovableMarker: string := "Removable Media: Yes"

  /** An entry of the volumes directory: its name and whether it is a
      mount point. */
  datatype VolumeEntry = VolumeEntry(name: string, isMount: bool)

  /** The path of an entry, as iterating the directory renders it. */
  function VolumePath(name: string): (p: string)
    ensures '/' !in name ==> Basename(p) == name
    ensures StartsWith(p, VolumesRoot + "/")
  {
    var p := VolumesRoot + "/" + name;
    assert p[..|VolumesRoot + "/"|] == VolumesRoot + "/";
    assert '/' !in name ==> Basename(p) == name by {
      if '/' !in name {
        BasenameAfterSeparator(VolumesRoot + "/", name);
      }
    }
    p
  }

  /** `get_available_drives`: the paths of the entries that are mount
      points, in directory order. */
  function AvailableDrives(entries: seq<VolumeEntry>): seq<string> {
    if entries == [] then []
    else
      var rest := AvailableDrives(entries[1..]);
      if entries[0].isMount then [VolumePath(entries[0].name)] + rest else rest
  }

  /** A path is listed exactly when it is the path of some mount-point
      entry, and every listed path lies under `/Volumes/`. */
  lemma {:induction false} AvailableDrivesShape(entries: seq<VolumeEntry>)
    ensures |AvailableDrives(entries)| <= |entries|
    ensures forall d :: d in AvailableDrives(entries) <==>
              exists k :: 0 <= k < |entries| && entries[k].isMount && d == VolumePath(entries[k].name)
    ensures forall d :: d in AvailableDrives(entries) ==> StartsWith(d, VolumesRoot + "/")
  {
    if entries != [] {
      var tail := entries[1..];
      var rest := AvailableDrives(tail);
      AvailableDrivesShape(tail);
      forall d ensures d in AvailableDrives(entries) <==>
                 exists k :: 0 <= k < |entries| && entries[k].isMount && d == VolumePath(entries[k].name) {
        if d in rest {
          var j :| 0 <= j < |tail| && tail[j].isMount && d == VolumePath(tail[j].name);
          assert entries[j + 1] == tail[j];
        }
        if exists k :: 0 <= k < |entries| && entries[k].isMount && d == VolumePath(entries[k].name) {
          var k :| 0 <= k < |entries| && entries[k].isMount && d == VolumePath(entries[k].name);
          if k > 0 {
            assert tail[k - 1] == entries[k];
          }
        }
      }
    }
  }

  /** `is_removable_drive`: `stdout` is the output of `diskutil info`, or
      `Raised` when running it failed. */
  function IsRemovableDrive(stdout: Attempt<string>): (r: bool)
    ensures r ==> stdout.Returned? && Contains(stdout.value, RemovableMarker)
    ensures forall a, b :: stdout == Returned(a + RemovableMarker + b) ==> r
  {
    assert forall a, b :: OccursAt(a + RemovableMarker + b, RemovableMarker, |a|) by {
      forall a, b ensures OccursAt(a + RemovableMarker + b, RemovableMarker, |a|) {
        var s := a + RemovableMarker + b;
        assert s[|a|..|a| + |RemovableMarker|] == RemovableMarker;
      }
    }
    stdout.Returned? && Contains(stdout.value, RemovableMarker)
  }

  /** Output that only says the media is fixed does not count. */
  lemma {:induction false} FixedMediaIsNotRemovable()
    ensures !IsRemovableDrive(Returned("Removable Media: Fixed"))
  {
    var s := "Removable Media: Fixed";
    forall i | 0 <= i <= |s| - |RemovableMarker| ensures !OccursAt(s, RemovableMarker, i) {
      assert s[i + 17] != RemovableMarker[17];
    }
  }

  /** One iteration of `monitor_drives`: the removable volumes are checked;
      a monitored volume that is no longer listed stops everything.  A
      monitored volume that is still listed but no longer reported
      removable stays monitored. */
  function OsxCycle(m: Monitor, entries: seq<VolumeEntry>, diskutil: string -> Attempt<string>,
                    folderName: Option<string>, probe: FolderProbe): (c: Cycle)
    ensures var drives := AvailableDrives(entries);
            && (c.stoppedAll <==> exists d :: d in m.monitored && d !in drives)
            && (c.stoppedAll ==> c.monitor == Idle)
            && (!c.stoppedAll ==>
                  forall d :: d in c.monitor.monitored <==>
                    d in m.monitored
                    || (d in drives && IsRemovableDrive(diskutil(d)) && HasRecordFolder(JoinedRecordPath(d, folderName), probe)))
            && ObservesOnly(c.actions)
  {
    var drives := AvailableDrives(entries);
    var removable := d => IsRemovableDrive(diskutil(d));
    var recordPath := d => JoinedRecordPath(d, folderName);
    var c := PollCycle(m, drives, removable, recordPath, probe);
    assert !c.stoppedAll ==>
             forall d :: d in c.monitor.monitored <==>
               d in m.monitored
               || (d in drives && IsRemovableDrive(diskutil(d)) && HasRecordFolder(JoinedRecordPath(d, folderName), probe)) by {
      if !c.stoppedAll {
        PollCycleKeeps(m, drives, removable, recordPath, probe);
      }
    }
    c
  }

  /** A volume that stays mounted keeps its monitoring even when `diskutil`
      stops reporting it as removable. */
  lemma {:induction false} ListedVolumeStaysMonitored(probe: FolderProbe, folderName: Option<string>)
    ensures var m := Monitor({"/Volumes/REC"}, ["/Volumes/REC/RECORD"]);
            var c := OsxCycle(m, [VolumeEntry("REC", true)], d => Raised, folderName, probe);
            !c.stoppedAll && c.monitor.monitored == {"/Volumes/REC"}
  {
    var m := Monitor({"/Volumes/REC"}, ["/Volumes/REC/RECORD"]);
    var c := OsxCycle(m, [VolumeEntry("REC", true)], d => Raised, folderName, probe);
    assert VolumePath("REC") == "/Volumes/REC";
    assert [VolumeEntry("REC", true)][1..] == [];
    assert AvailableDrives([VolumeEntry("REC", true)]) == ["/Volumes/REC"];
    assert !c.stoppedAll;
    assert forall d :: d in c.monitor.monitored <==> d in m.monitored;
  }
}

=== FILE: outcomes.dfy ===
/** Failure-carrying values shared by every part of the model.

    The program is written in a language where a collaborator either returns a
    value (which may itself be a "missing" value) or raises an exception.  The
    model keeps those two apart: `Option` is the returned "maybe nothing", and
    `Attempt` says whether the call returned at all.
 */
module Outcomes {

  /** A value that may be absent (the program's `None`). */
  datatype Option<+T> = None | Some(value: T) {

    /** The value, or `default` when absent. */
    function GetOr(default: T): T {
      match this
      case Some(v) => v
      case None => default
    }
  }

  /** The result of calling a collaborator that may raise an exception. */
  datatype Attempt<+T> = Returned(value: T) | Raised

  /** A value or an error, for operations whose failure the caller sees. */
  datatype Result<+T, +E> = Success(value: T) | Failure(error: E)

  /** Truthiness of an optional string: present and non-empty. */
  predicate TruthyString(s: Option<string>) {
    s.Some? && s.value != ""
  }
}

=== FILE: paths.dfy ===
/** POSIX path helpers with the meaning of `os.path.join`, `os.path.basename`
    and `os.path.splitext`.
 */
module Paths {

  /** The last index of `c` in `s`, or -1 (`str.rfind`). */
  function RFind(s: string, c: char): (i: int)
    ensures -1 <= i < |s|
    ensures i >= 0 ==> s[i] == c
    ensures forall k :: i < k < |s| ==> s[k] != c
  {
    if s == [] then -1
    else if s[|s| - 1] == c then |s| - 1
    else RFind(s[..|s| - 1], c)
  }

  /** The directory part `os.path.join` puts before a relative name: `a`
      itself when it is empty or ends with a separator, otherwise `a + "/"`. */
  function DirPrefix(a: string): (d: string)
    ensures |d| >= |a| && d[..|a|] == a
    ensures d == [] || d[|d| - 1] == '/'
  {
    if a == [] || a[|a| - 1] == '/' then a else a + "/"
  }

  /** `os.path.join(a, b)`: an absolute `b` replaces `a`; otherwise one
      separator is inserted unless `a` is empty or already ends with one. */
  function Join(a: string, b: string): (r: string)
    ensures |b| > 0 && b[0] == '/' ==> r == b
    ensures !(|b| > 0 && b[0] == '/') ==> r == DirPrefix(a) + b
  {
    if |b| > 0 && b[0] == '/' then b else DirPrefix(a) + b
  }

  /** `os.path.basename(p)`: everything after the last separator. */
  function Basename(p: string): (r: string)
    ensures '/' !in r
    ensures |r| <= |p| && r == p[|p| - |r|..]
    ensures |r| < |p| ==> p[|p| - |r| - 1] == '/'
  {
    p[RFind(p, '/') + 1..]
  }

  /** A name after a directory part that ends in a separator is the basename. */
  lemma {:induction false} BasenameAfterSeparator(a: string, name: string)
    requires a == [] || a[|a| - 1] == '/'
    requires '/' !in name
    ensures Basename(a + name) == name
  {
    var p := a + name;
    var i := RFind(p, '/');
    forall k | |a| <= k < |p|
      ensures p[k] != '/'
    {
      assert p[k] == name[k - |a|];
    }
    if a != [] {
      assert p[|a| - 1] == '/';
    }
    assert i == |a| - 1;
    assert p[|a|..] == name;
  }

  /** Joining a relative name keeps the directory as the leading part. */
  lemma {:induction false} JoinStartsWithDirectory(dir: string, name: string)
    requires '/' !in name
    ensures |dir| <= |Join(dir, name)| && Join(dir, name)[..|dir|] == dir
  {
    if name != [] {
      assert name[0] in name;
    }
    var d := DirPrefix(dir);
    assert (d + name)[..|dir|] == d[..|dir|];
  }

  /** Joining any relative name keeps the directory as the leading part. */
  lemma {:induction false} JoinKeepsDirectory(dir: string, name: string)
    ensures !(|name| > 0 && name[0] == '/') ==> |dir| <= |Join(dir, name)| && Join(dir, name)[..|dir|] == dir
  {
    var d := DirPrefix(dir);
    assert (d + name)[..|dir|] == d[..|dir|];
  }

  /** A leading part of a leading part leads the whole. */
  lemma {:induction false} PrefixOfPrefix(p: string, q: string, r: string)
    requires |q| <= |p| && p[..|q|] == q
    requires |r| <= |q| && q[..|r|] == r
    ensures p[..|r|] == r
  {
    assert p[..|r|] == p[..|q|][..|r|];
  }

  /** Joining a directory with a plain name leaves that name as the basename. */
  lemma {:induction false} BasenameOfJoin(dir: string, name: string)
    requires '/' !in name
    ensures Basename(Join(dir, name)) == name
  {
    if name != [] {
      assert name[0] in name;
    }
    BasenameAfterSeparator(DirPrefix(dir), name);
  }

  /** Some character of `s[lo..hi]` is not a dot. */
  predicate HasNonDot(s: string, lo: int, hi: int)
    requires 0 <= lo <= hi <= |s|
  {
    exists k :: lo <= k < hi && s[k] != '.'
  }

  /** `os.path.splitext(p)[0]`: the path without its last extension.  A dot
      only starts an extension when it follows the last separator and some
      character between that separator and the dot is not itself a dot. */
  function SplitExtRoot(p: string): (r: string)
    ensures |r| <= |p| && r == p[..|r|]
  {
    var sep := RFind(p, '/');
    var dot := RFind(p, '.');
    if dot > sep && HasNonDot(p, sep + 1, dot) then p[..dot] else p
  }

  /** Removing the extension of `stem + ext` gives `stem` back, when `ext` is a
      single dotted extension and `stem` is a plain name that is not all dots. */
  lemma {:induction false} SplitExtRootOfStem(stem: string, ext: string)
    requires '/' !in stem
    requires exists k :: 0 <= k < |stem| && stem[k] != '.'
    requires |ext| >= 1 && ext[0] == '.'
    requires '.' !in ext[1..] && '/' !in ext
    ensures SplitExtRoot(stem + ext) == stem
  {
    var p := stem + ext;
    var dot := RFind(p, '.');
    assert p[|stem|] == '.';
    assert forall j :: |stem| < j < |p| ==> p[j] == ext[1..][j - |stem| - 1];
    assert dot == |stem|;
    var sep := RFind(p, '/');
    assert forall j :: 0 <= j < |p| ==> p[j] == (if j < |stem| then stem[j] else ext[j - |stem|]);
    assert sep == -1;
    var k :| 0 <= k < |stem| && stem[k] != '.';
    assert p[k] != '.';
    assert HasNonDot(p, sep + 1, dot);
    assert p[..dot] == stem;
  }
}

=== FILE: providers.dfy ===
/** The three transcription providers: local Whisper, WhisperX and a remote
    HTTP service.  Model loading, the model calls and the HTTP exchange are
    outcomes handed in; what is modelled is the fallback on a failed load, the
    provider names, the request the remote provider builds, and how each
    provider turns its raw result into a transcript or `None`.
 */
module Providers {
  import opened Outcomes
  import opened Strings
  import opened Segments

  datatype Provider =
    | Whisper(model: string)
    | WhisperX(model: string, device: string)
    | Remote(apiUrl: string, apiKey: Option<string>)

  /** Constructing a Whisper provider: a model that fails to load is replaced
      by `base`; when `base` fails too the constructor raises. */
  function LoadWhisper(requested: string, requestedLoads: bool, baseLoads: bool): (p: Attempt<Provider>)
    ensures p.Returned? <==> requestedLoads || baseLoads
    ensures p.Returned? ==> p.value.Whisper?
    ensures requestedLoads ==> p.value.model == requested
    ensures !requestedLoads && baseLoads ==> p.value.model == "base"
  {
    if requestedLoads then Returned(Whisper(requested))
    else if baseLoads then Returned(Whisper("base"))
    else Raised
  }

  /** The device WhisperX asks for when none is given. */
  function DefaultDevice(cudaAvailable: bool): string {
    if cudaAvailable then "cuda" else "cpu"
  }

  /** Constructing a WhisperX provider: a failed load falls back to `base` on
      the CPU; when that fails too the constructor raises. */
  function LoadWhisperX(requested: string, device: string, requestedLoads: bool, baseLoads: bool): (p: Attempt<Provider>)
    ensures p.Returned? <==> requestedLoads || baseLoads
    ensures p.Returned? ==> p.value.WhisperX?
    ensures requestedLoads ==> p.value.model == requested && p.value.device == device
    ensures !requestedLoads && baseLoads ==> p.value.model == "base" && p.value.device == "cpu"
  {
    if requestedLoads then Returned(WhisperX(requested, device))
    else if baseLoads then Returned(WhisperX("base", "cpu"))
    else Raised
  }

  /** Constructing a remote provider: trailing `/` characters are dropped from the URL. */
  function NewRemote(apiUrl: string, apiKey: Option<string>): (p: Provider)
    ensures p.Remote? && p.apiKey == apiKey
    ensures !EndsWith(p.apiUrl, "/")
    ensures StartsWith(apiUrl, p.apiUrl)
    ensures forall i :: |p.apiUrl| <= i < |apiUrl| ==> apiUrl[i] == '/'
  {
    var u := RStripChar(apiUrl, '/');
    assert apiUrl[..|u|] == u;
    Remote(u, apiKey)
  }

  /** The provider's `name()`. */
  function Name(p: Provider): string {
    match p
    case Whisper(m) => "whisper-" + m
    case WhisperX(m, d) => "whisperx-" + m + "-" + d
    case Remote(_, _) => "remote-api"
  }

  /** The name tells the kind of provider, and a Whisper name gives its model back. */
  lemma {:induction false} NameIdentifiesProvider(p: Provider)
    ensures p.Whisper? <==> StartsWith(Name(p), "whisper-")
    ensures p.WhisperX? <==> StartsWith(Name(p), "whisperx-")
    ensures p.Remote? <==> Name(p) == "remote-api"
    ensures p.Whisper? ==> Name(p)[8..] == p.model
  {
    var n := Name(p);
    match p
    case Whisper(m) =>
      assert n[..8] == "whisper-";
      assert n[7] == '-';
      assert n[8..] == m;
    case WhisperX(m, d) =>
      assert n[..9] == "whisperx-";
      assert n[7] == 'x';
    case Remote(_, _) =>
      assert n[0] == 'r';
  }

  /** Local Whisper: a raised exception gives `None`; a result without
      segments gives an empty transcript; otherwise one line per segment. */
  function WhisperTranscribe(result: Attempt<Option<seq<RawSegment>>>): (r: Option<seq<TranscriptSegment>>)
    ensures r.None? <==> result.Raised?
    ensures result == Returned(None) ==> r == Some([])
    ensures result.Returned? && result.value.Some? ==>
              r.Some? && r.value == MapSegments(result.value.value)
  {
    match result
    case Raised => None
    case Returned(None) => Some([])
    case Returned(Some(segs)) => Some(MapSegments(segs))
  }

  /** The language WhisperX aligns with: the given one, or `en` when none is given. */
  function AlignLanguage(language: Option<string>): (l: string)
    ensures TruthyString(language) ==> l == language.value
    ensures !TruthyString(language) ==> l == "en"
  {
    if TruthyString(language) then language.value else "en"
  }

  /** WhisperX: the aligned result must carry segments; a missing key raises
      inside the provider, which then returns `None` like any other failure. */
  function WhisperXTranscribe(aligned: Attempt<Option<seq<RawSegment>>>): (r: Option<seq<TranscriptSegment>>)
    ensures r.Some? <==> aligned.Returned? && aligned.value.Some?
    ensures r.Some? ==> r.value == MapSegments(aligned.value.value)
  {
    match aligned
    case Returned(Some(segs)) => Some(MapSegments(segs))
    case _ => None
  }

  /** The multipart request the remote provider sends. */
  datatype Request = Request(
    url: string,
    headers: map<string, string>,
    form: map<string, string>,
    filePath: string,
    timeoutSeconds: int)

  /** The request for one audio file: bearer authorisation only with a
      non-empty key, a `language` field only with a non-empty language. */
  function BuildRequest(apiUrl: string, apiKey: Option<string>, language: Option<string>, audioPath: string): (q: Request)
    ensures q.url == apiUrl + "/transcribe" && q.filePath == audioPath && q.timeoutSeconds == 300
    ensures "Authorization" in q.headers <==> TruthyString(apiKey)
    ensures "Authorization" in q.headers ==> q.headers["Authorization"] == "Bearer " + apiKey.value
    ensures q.headers.Keys <= {"Authorization"}
    ensures "language" in q.form <==> TruthyString(language)
    ensures "language" in q.form ==> q.form["language"] == language.value
    ensures q.form.Keys <= {"language"}
  {
    Request(
      apiUrl + "/transcribe",
      if TruthyString(apiKey) then map["Authorization" := "Bearer " + apiKey.value] else map[],
      if TruthyString(language) then map["language" := language.value] else map[],
      audioPath,
      300)
  }

  /** What came back from the service: the status and the decoded body. */
  datatype HttpResponse = HttpResponse(status: int, body: Attempt<Option<seq<RawSegment>>>)

  /** `raise_for_status` raises for client and server error codes. */
  predicate IsErrorStatus(status: int) {
    400 <= status < 600
  }

  /** The remote provider's result: `None` when the post raises, the status is
      an error or the body cannot be decoded; otherwise the segments mapped,
      an absent `segments` list counting as empty. */
  function RemoteTranscribe(response: Attempt<HttpResponse>): (r: Option<seq<TranscriptSegment>>)
    ensures r.Some? <==> response.Returned? && !IsErrorStatus(response.value.status) && response.value.body.Returned?
    ensures r.Some? && response.value.body.value.None? ==> r.value == []
    ensures r.Some? && response.value.body.value.Some? ==> r.value == MapSegments(response.value.body.value.value)
  {
    match response
    case Raised => None
    case Returned(resp) =>
      if IsErrorStatus(resp.status) then None
      else match resp.body
        case Raised => None
        case Returned(None) => Some([])
        case Returned(Some(segs)) => Some(MapSegments(segs))
  }

  /** The three providers turn the same segments into the same transcript,
      and every non-negative start time can be read back from its line. */
  lemma {:induction false} ProvidersShareMapping(segs: seq<RawSegment>, status: int)
    requires !IsErrorStatus(status)
    ensures WhisperTranscribe(Returned(Some(segs))) == WhisperXTranscribe(Returned(Some(segs)))
    ensures WhisperXTranscribe(Returned(Some(segs))) == RemoteTranscribe(Returned(HttpResponse(status, Returned(Some(segs)))))
    ensures var t := WhisperTranscribe(Returned(Some(segs))).value;
            forall i :: 0 <= i < |segs| && segs[i].start >= 0.0 ==>
              ParseTimestamp(t[i].timestamp) == Some(segs[i].start.Floor)
  {
  }
}

=== FILE: record_handler.dfy ===
/** The handler of a recorder's RECORD folder (src/record_folder_handler.py):
    which file events it acts on, how it reads the recording time from a file
    name, and the convert, transcribe, publish sequence it runs for each WAV
    file, with the set of files in flight and the deletions on success.  The
    audio processor, the note writer and file removal are collaborators whose
    outcomes are handed in.
 */
module RecordHandler {
  import opened Outcomes
  import opened Strings
  import opened Decimal
  import opened Paths
  import opened Clock
  import opened Segments

  /** A file-system event as the watcher delivers it. */
  datatype FsEvent = FsEvent(isDirectory: bool, srcPath: string)

  /** The collaborators of one processing run.  `convert` and `transcribe`
      stand for the audio processor, `createNote` for the note writer and
      `remove` for deleting a file (true when the file was removed). */
  datatype Collaborators = Collaborators(
    convert: (string, Option<DateTime>) -> Attempt<Option<string>>,
    transcribe: string -> Attempt<Option<seq<TranscriptSegment>>>,
    createNote: (string, seq<TranscriptSegment>, string) -> Attempt<()>,
    remove: string -> bool)

  /** A call a run makes on a collaborator. */
  datatype Call =
    | Convert(wavPath: string, created: Option<DateTime>)
    | Transcribe(mp3Path: string)
    | CreateNote(title: string, transcript: seq<TranscriptSegment>, mp3Path: string)
    | Remove(path: string)

  /** The MP3 path a conversion gave, when the handler goes on with it:
      `if not mp3_path` stops on a raised call, on `None` and on the empty
      string. */
  function UsableMp3(a: Attempt<Option<string>>): (r: Option<string>)
    ensures r.Some? <==> a.Returned? && a.value.Some? && a.value.value != ""
    ensures r.Some? ==> r.value == a.value.value
  {
    if a.Returned? && TruthyString(a.value) then Some(a.value.value) else None
  }

  /** The transcript, when the handler goes on with it: `if not
      transcription` stops on a raised call, on `None` and on an empty list. */
  function UsableTranscript(a: Attempt<Option<seq<TranscriptSegment>>>): (r: Option<seq<TranscriptSegment>>)
    ensures r.Some? <==> a.Returned? && a.value.Some? && a.value.value != []
    ensures r.Some? ==> r.value == a.value.value
  {
    if a.Returned? && a.value.Some? && a.value.value != [] then Some(a.value.value) else None
  }

  /** The stage at which a run gave up. */
  datatype Stage = ParseName | Conversion | Transcription | Publication

  datatype Outcome = Done | Failed(stage: Stage)

  /** What one run of `process_wav_file` did: the collaborator calls in order,
      how it ended, the files it deleted, and the in-flight set afterwards. */
  datatype Run = Run(calls: seq<Call>, outcome: Outcome, deleted: seq<string>, inFlightAfter: set<string>)

  /** The calls follow the pipeline: conversion, transcription, note, then
      removals only. */
  predicate InPipelineOrder(calls: seq<Call>) {
    && (|calls| > 0 ==> calls[0].Convert?)
    && (|calls| > 1 ==> calls[1].Transcribe?)
    && (|calls| > 2 ==> calls[2].CreateNote?)
    && (forall i :: 3 <= i < |calls| ==> calls[i].Remove?)
  }

  /** `on_created`'s filter: a file, not a directory, whose name ends in
      `.wav` in any case, and which is not being processed already. */
  predicate ShouldProcess(inFlight: set<string>, e: FsEvent) {
    !e.isDirectory && HasWavSuffix(e.srcPath) && e.srcPath !in inFlight
  }

  /** `filename[3:]`: the first three characters dropped, whatever they are. */
  function DropPrefix(name: string): (r: string)
    ensures |name| >= 3 ==> r == name[3..]
    ensures |name| < 3 ==> r == []
  {
    if |name| >= 3 then name[3..] else []
  }

  /** `s.split('.')[0]`: the text before the first dot. */
  function BeforeFirstDot(s: string): (r: string)
    ensures '.' !in r
    ensures StartsWith(s, r)
    ensures |r| < |s| ==> s[|r|] == '.'
  {
    var i := IndexOf(s, '.');
    assert s[..i][..i] == s[..i];
    s[..i]
  }

  /** `parse_datetime_from_filename`: the text between the first three
      characters and the first dot, read strictly as `YYYYMMDDhhmmss`. */
  function ParseDateTimeFromFilename(name: string): (r: Option<DateTime>)
    ensures r.Some? <==> ParseCompact(BeforeFirstDot(DropPrefix(name))).Some?
    ensures r.Some? ==> Valid(r.value) && FormatCompact(r.value) == BeforeFirstDot(DropPrefix(name))
  {
    ParseCompact(BeforeFirstDot(DropPrefix(name)))
  }

  /** Dropping three characters from a three-character prefix and a rest. */
  lemma {:induction false} DropPrefixOf(prefix: string, rest: string)
    requires |prefix| == 3
    ensures DropPrefix(prefix + rest) == rest
  {
    assert (prefix + rest)[3..] == rest;
  }

  /** Text without a dot, followed by nothing or by an extension, is cut
      back to that text. */
  lemma {:induction false} BeforeFirstDotOf(word: string, ext: string)
    requires '.' !in word
    requires ext == [] || ext[0] == '.'
    ensures BeforeFirstDot(word + ext) == word
  {
    if ext == [] {
      assert word + ext == word;
      IndexOfIs(word, '.', |word|);
    } else {
      assert word + ext == word + ['.'] + ext[1..];
      IndexOfFirst(word, '.', ext[1..]);
    }
  }

  /** A recorder file name, three characters, the compact time and an
      extension, gives that time back. */
  lemma {:induction false} FilenameRoundTrip(prefix: string, t: DateTime, ext: string)
    requires |prefix| == 3 && Valid(t)
    requires ext == [] || ext[0] == '.'
    ensures ParseDateTimeFromFilename(prefix + FormatCompact(t) + ext) == Some(t)
  {
    ParseFormatCompact(t);
    DigitsBetweenPrefixAndDot(prefix, FormatCompact(t), ext);
  }

  /** Digits after a three-character prefix and before an extension are the
      text the name parser reads. */
  lemma {:induction false} DigitsBetweenPrefixAndDot(prefix: string, digits: string, ext: string)
    requires |prefix| == 3 && IsDigits(digits)
    requires ext == [] || ext[0] == '.'
    ensures BeforeFirstDot(DropPrefix(prefix + digits + ext)) == digits
  {
    assert prefix + digits + ext == prefix + (digits + ext);
    DropPrefixOf(prefix, digits + ext);
    assert forall k :: 0 <= k < |digits| ==> IsDigit(digits[k]);
    BeforeFirstDotOf(digits, ext);
  }

  /** The recorder's example file name: prefix, compact time, extension. */
  lemma {:induction false} ExampleNameParts()
    ensures "REC20241025043932.wav" == "REC" + "20241025043932" + ".wav"
  {
    var parts := "REC" + "20241025043932" + ".wav";
    assert |parts| == 21;
    forall k | 0 <= k < 21
      ensures parts[k] == "REC20241025043932.wav"[k]
    {
    }
  }

  /** The file name of the recorder's format parses to its time. */
  lemma {:induction false} ExampleRecorderName()
    ensures ParseDateTimeFromFilename("REC20241025043932.wav") == Some(DateTime(2024, 10, 25, 4, 39, 32))
  {
    ExampleCompact();
    ExampleNameParts();
    FilenameRoundTrip("REC", DateTime(2024, 10, 25, 4, 39, 32), ".wav");
  }

  /** A name without the 14 digits does not parse. */
  lemma {:induction false} ExampleBogusName()
    ensures ParseDateTimeFromFilename("bogus.wav") == None
  {
    assert DropPrefix("bogus.wav") == "us.wav";
    assert BeforeFirstDot("us.wav") == "us" by {
      assert IndexOf("us.wav", '.') == 2;
    }
  }

  /** The note title for a recording time. */
  function TitleFor(t: DateTime): string
    requires Valid(t)
  {
    "Recording_" + FormatStamp(t)
  }

  /** The title of a parsed file name repeats its digits with an underscore
      between date and time. */
  lemma {:induction false} TitleOfFilename(name: string)
    ensures var s := BeforeFirstDot(DropPrefix(name));
            ParseDateTimeFromFilename(name).Some? ==>
              TitleFor(ParseDateTimeFromFilename(name).value) == "Recording_" + (s[..8] + "_" + s[8..])
  {
    var s := BeforeFirstDot(DropPrefix(name));
    if ParseDateTimeFromFilename(name).Some? {
      assert ParseDateTimeFromFilename(name) == ParseCompact(s);
      StampOfParsed(s);
    }
  }

  /** The end of a successful run: the WAV is deleted, and only when that
      worked is the MP3 deleted too; failures are logged, not raised. */
  function DeleteSources(wavPath: string, mp3Path: string, remove: string -> bool): (r: (seq<Call>, seq<string>))
    ensures |r.0| >= 1 && r.0[0] == Remove(wavPath)
    ensures |r.0| == 2 <==> remove(wavPath)
    ensures |r.0| <= 2 && (|r.0| == 2 ==> r.0[1] == Remove(mp3Path))
    ensures r.1 == (if !remove(wavPath) then [] else if remove(mp3Path) then [wavPath, mp3Path] else [wavPath])
  {
    if !remove(wavPath) then ([Remove(wavPath)], [])
    else ([Remove(wavPath), Remove(mp3Path)], if remove(mp3Path) then [wavPath, mp3Path] else [wavPath])
  }

  lemma {:induction false} Prepend(call: Call, rest: seq<Call>)
    ensures |[call] + rest| == |rest| + 1 && ([call] + rest)[0] == call
    ensures forall i :: 1 <= i <= |rest| ==> ([call] + rest)[i] == rest[i - 1]
  {
  }

  /** The calls, outcome and deletions of a run from some stage onwards. */
  datatype Tail = Tail(calls: seq<Call>, outcome: Outcome, deleted: seq<string>)

  /** Creating the note and, when that returns, deleting the sources. */
  function PublishStage(wavPath: string, mp3Path: string, title: string, transcript: seq<TranscriptSegment>, c: Collaborators): (t: Tail)
    ensures |t.calls| >= 1 && t.calls[0] == CreateNote(title, transcript, mp3Path)
    ensures forall i :: 1 <= i < |t.calls| ==> t.calls[i].Remove?
    ensures t.outcome == Failed(Publication) || t.outcome == Done
    ensures t.outcome.Done? <==> c.createNote(title, transcript, mp3Path).Returned?
    ensures t.outcome == Failed(Publication) <==> |t.calls| == 1
    ensures t.outcome.Done? ==> t.calls[1] == Remove(wavPath) && (|t.calls| == 3 <==> c.remove(wavPath))
    ensures t.outcome.Done? ==> t.calls[1..] == DeleteSources(wavPath, mp3Path, c.remove).0
                                && t.deleted == DeleteSources(wavPath, mp3Path, c.remove).1
    ensures !t.outcome.Done? ==> t.deleted == []
  {
    var note := CreateNote(title, transcript, mp3Path);
    match c.createNote(title, transcript, mp3Path)
    case Raised => Tail([note], Failed(Publication), [])
    case Returned(_) =>
      var (removals, deleted) := DeleteSources(wavPath, mp3Path, c.remove);
      assert ([note] + removals)[1..] == removals;
      Tail([note] + removals, Done, deleted)
  }

  /** A successful publication removes the WAV, then the MP3 only when
      removing the WAV worked. */
  lemma {:induction false} PublishRemovals(wavPath: string, mp3Path: string, title: string,
                                           transcript: seq<TranscriptSegment>, c: Collaborators)
    ensures var p := PublishStage(wavPath, mp3Path, title, transcript, c);
            p.outcome.Done? ==>
              && |p.calls| > 1 && p.calls[1] == Remove(wavPath)
              && (|p.calls| == 3 <==> c.remove(wavPath))
              && (|p.calls| == 3 ==> p.calls[2] == Remove(mp3Path))
              && p.deleted == (if !c.remove(wavPath) then [] else if c.remove(mp3Path) then [wavPath, mp3Path] else [wavPath])
  {
  }

  /** Transcribing the MP3; `None` and an empty transcript both end the run,
      and otherwise the note is created from the transcript returned. */
  function TranscribeStage(wavPath: string, dt: DateTime, mp3Path: string, c: Collaborators): (t: Tail)
    requires Valid(dt)
    ensures |t.calls| >= 1 && t.calls[0] == Transcribe(mp3Path)
    ensures |t.calls| > 1 ==> t.calls[1].CreateNote? && t.calls[1].title == TitleFor(dt) && t.calls[1].transcript != []
    ensures forall i :: 2 <= i < |t.calls| ==> t.calls[i].Remove?
    ensures t.outcome == Failed(Transcription) || t.outcome == Failed(Publication) || t.outcome == Done
    ensures t.outcome == Failed(Transcription) <==> UsableTranscript(c.transcribe(mp3Path)).None?
    ensures t.outcome == Failed(Transcription) <==> |t.calls| == 1
    ensures t.outcome == Failed(Publication) <==> |t.calls| == 2
    ensures var tr := UsableTranscript(c.transcribe(mp3Path));
            tr.Some? ==>
              var p := PublishStage(wavPath, mp3Path, TitleFor(dt), tr.value, c);
              && t.calls[1] == CreateNote(TitleFor(dt), tr.value, mp3Path)
              && t.calls[1..] == p.calls && t.outcome == p.outcome && t.deleted == p.deleted
    ensures t.outcome.Done? ==> |t.calls| > 2 && t.calls[2] == Remove(wavPath) && (|t.calls| == 4 <==> c.remove(wavPath))
    ensures t.deleted != [] ==> t.outcome.Done?
  {
    var call := Transcribe(mp3Path);
    match c.transcribe(mp3Path)
    case Raised => Tail([call], Failed(Transcription), [])
    case Returned(tr) =>
      if tr.None? || tr.value == [] then Tail([call], Failed(Transcription), [])
      else
        var rest := PublishStage(wavPath, mp3Path, TitleFor(dt), tr.value, c);
        Prepend(call, rest.calls);
        assert ([call] + rest.calls)[1..] == rest.calls;
        Tail([call] + rest.calls, rest.outcome, rest.deleted)
  }

  /** Converting the WAV; a raised conversion and one that gives no path both
      end the run, and otherwise the path returned is transcribed. */
  function ConvertStage(wavPath: string, dt: DateTime, c: Collaborators): (t: Tail)
    requires Valid(dt)
    ensures InPipelineOrder(t.calls)
    ensures |t.calls| >= 1 && t.calls[0] == Convert(wavPath, Some(dt))
    ensures |t.calls| > 2 ==> t.calls[2].title == TitleFor(dt) && t.calls[2].transcript != []
    ensures t.outcome != Failed(ParseName)
    ensures t.outcome == Failed(Conversion) <==> UsableMp3(c.convert(wavPath, Some(dt))).None?
    ensures t.outcome == Failed(Conversion) <==> |t.calls| == 1
    ensures t.outcome == Failed(Transcription) <==> |t.calls| == 2
    ensures t.outcome == Failed(Publication) <==> |t.calls| == 3
    ensures var mp3 := UsableMp3(c.convert(wavPath, Some(dt)));
            mp3.Some? ==>
              var rest := TranscribeStage(wavPath, dt, mp3.value, c);
              && t.calls[1] == Transcribe(mp3.value)
              && t.calls[1..] == rest.calls && t.outcome == rest.outcome && t.deleted == rest.deleted
    ensures t.outcome.Done? ==> |t.calls| > 3 && t.calls[3] == Remove(wavPath) && (|t.calls| == 5 <==> c.remove(wavPath))
    ensures t.deleted != [] ==> t.outcome.Done?
  {
    var call := Convert(wavPath, Some(dt));
    match c.convert(wavPath, Some(dt))
    case Raised => Tail([call], Failed(Conversion), [])
    case Returned(mp3) =>
      if !TruthyString(mp3) then Tail([call], Failed(Conversion), [])
      else
        var rest := TranscribeStage(wavPath, dt, mp3.value, c);
        Prepend(call, rest.calls);
        assert ([call] + rest.calls)[1..] == rest.calls;
        Tail([call] + rest.calls, rest.outcome, rest.deleted)
  }

  /** `process_wav_file`.  The path is in flight while the run lasts and is
      released on every exit; each stage runs only when the one before it
      succeeded; a conversion that gives no path and a transcription that is
      `None` or empty count as failures; the sources are deleted only after
      the note was created. */
  function ProcessWavFile(inFlight: set<string>, wavPath: string, c: Collaborators): Run {
    var after := inFlight - {wavPath};
    var parsed := ParseDateTimeFromFilename(Basename(wavPath));
    if parsed.None? then Run([], Failed(ParseName), [], after)
    else
      var t := ConvertStage(wavPath, parsed.value, c);
      Run(t.calls, t.outcome, t.deleted, after)
  }

  /** The MP3 path a run goes on with: present only when the name parsed
      and the conversion gave a usable path. */
  function RunMp3(wavPath: string, c: Collaborators): (r: Option<string>)
    ensures r.Some? ==> ParseDateTimeFromFilename(Basename(wavPath)).Some?
  {
    var parsed := ParseDateTimeFromFilename(Basename(wavPath));
    if parsed.None? then None else UsableMp3(c.convert(wavPath, parsed))
  }

  /** The transcript a run goes on with: present only when there is an MP3
      path and its transcription is usable. */
  function RunTranscript(wavPath: string, c: Collaborators): (r: Option<seq<TranscriptSegment>>)
    ensures r.Some? ==> RunMp3(wavPath, c).Some?
  {
    var mp3 := RunMp3(wavPath, c);
    if mp3.None? then None else UsableTranscript(c.transcribe(mp3.value))
  }

  /** The title a run gives its note: `Recording_` and the file name's time. */
  function RunTitle(wavPath: string): string
    requires ParseDateTimeFromFilename(Basename(wavPath)).Some?
  {
    TitleFor(ParseDateTimeFromFilename(Basename(wavPath)).value)
  }

  /** The answer of the note writer, once there is a transcript. */
  function RunNote(wavPath: string, c: Collaborators): Attempt<()>
    requires RunTranscript(wavPath, c).Some?
  {
    c.createNote(RunTitle(wavPath), RunTranscript(wavPath, c).value, RunMp3(wavPath, c).value)
  }

  /** Every run releases its path and keeps the pipeline order; a name that
      does not parse fails before any collaborator is called, and otherwise
      the first call converts the WAV with the parsed time; the run succeeds
      exactly when every collaborator answered so that the handler went on
      and the note writer returned. */
  lemma {:induction false} ProcessWavFileShape(inFlight: set<string>, wavPath: string, c: Collaborators)
    ensures var r := ProcessWavFile(inFlight, wavPath, c);
            && r.inFlightAfter == inFlight - {wavPath}
            && InPipelineOrder(r.calls)
            && (r.outcome == Failed(ParseName) <==> ParseDateTimeFromFilename(Basename(wavPath)).None?)
            && (r.outcome == Failed(ParseName) ==> r.calls == [])
            && (|r.calls| > 0 ==> r.calls[0] == Convert(wavPath, ParseDateTimeFromFilename(Basename(wavPath))))
            && (r.outcome.Done? <==> RunTranscript(wavPath, c).Some? && RunNote(wavPath, c).Returned?)
  {
    if ParseDateTimeFromFilename(Basename(wavPath)).Some? {
      RunOfStage(inFlight, wavPath, c);
    } else {
      RunOfBadName(inFlight, wavPath, c);
    }
  }

  /** Once the name parses, the run is the conversion stage's run with the
      path released. */
  lemma {:induction false} RunOfStage(inFlight: set<string>, wavPath: string, c: Collaborators)
    ensures var parsed := ParseDateTimeFromFilename(Basename(wavPath));
            parsed.Some? ==>
              var t := ConvertStage(wavPath, parsed.value, c);
              ProcessWavFile(inFlight, wavPath, c) == Run(t.calls, t.outcome, t.deleted, inFlight - {wavPath})
  {
  }

  /** A name that does not parse gives a run without calls that only
      releases the path. */
  lemma {:induction false} RunOfBadName(inFlight: set<string>, wavPath: string, c: Collaborators)
    requires ParseDateTimeFromFilename(Basename(wavPath)).None?
    ensures ProcessWavFile(inFlight, wavPath, c) == Run([], Failed(ParseName), [], inFlight - {wavPath})
  {
  }

  /** A run stops at the first collaborator whose answer the handler does
      not go on with, and the number of calls tells which one that was; the
      sources are deleted only when the run got through. */
  lemma {:induction false} StagesStopAtFirstFailure(inFlight: set<string>, wavPath: string, c: Collaborators)
    ensures var r := ProcessWavFile(inFlight, wavPath, c);
            var mp3, tr := RunMp3(wavPath, c), RunTranscript(wavPath, c);
            && (r.outcome == Failed(Conversion) <==> ParseDateTimeFromFilename(Basename(wavPath)).Some? && mp3.None?)
            && (r.outcome == Failed(Transcription) <==> mp3.Some? && tr.None?)
            && (r.outcome == Failed(Publication) <==> tr.Some? && RunNote(wavPath, c).Raised?)
            && (r.outcome == Failed(Conversion) ==> |r.calls| == 1)
            && (r.outcome == Failed(Transcription) ==> |r.calls| == 2)
            && (r.outcome == Failed(Publication) ==> |r.calls| == 3)
            && (r.outcome.Done? <==> |r.calls| > 3)
            && (r.deleted != [] ==> r.outcome.Done?)
  {
    if ParseDateTimeFromFilename(Basename(wavPath)).Some? {
      RunOfStage(inFlight, wavPath, c);
    } else {
      RunOfBadName(inFlight, wavPath, c);
    }
  }

  /** The MP3 path the conversion returned is the one transcribed, and a
      note is created only for a non-empty transcript: the one the
      transcription returned, under the title taken from the file name's
      time, for that same MP3. */
  lemma {:induction false} NoteTitleFromFilename(inFlight: set<string>, wavPath: string, c: Collaborators)
    ensures var r := ProcessWavFile(inFlight, wavPath, c);
            var mp3, tr := RunMp3(wavPath, c), RunTranscript(wavPath, c);
            && (|r.calls| > 1 <==> mp3.Some?)
            && (mp3.Some? ==> r.calls[1] == Transcribe(mp3.value))
            && (|r.calls| > 2 <==> tr.Some?)
            && (tr.Some? ==> r.calls[2] == CreateNote(RunTitle(wavPath), tr.value, mp3.value) && tr.value != [])
  {
    if ParseDateTimeFromFilename(Basename(wavPath)).Some? {
      RunOfStage(inFlight, wavPath, c);
    } else {
      RunOfBadName(inFlight, wavPath, c);
    }
  }

  /** A run succeeds exactly when the note writer returned; then the WAV is
      removed first, the converted MP3 only when removing the WAV worked, and
      the deleted files are the removals that worked. */
  lemma {:induction false} WavRemovedBeforeMp3(inFlight: set<string>, wavPath: string, c: Collaborators)
    ensures var r := ProcessWavFile(inFlight, wavPath, c);
            r.outcome.Done? ==>
              && RunTranscript(wavPath, c).Some? && RunNote(wavPath, c).Returned?
              && var mp3 := RunMp3(wavPath, c).value;
              && |r.calls| > 3 && r.calls[3] == Remove(wavPath)
              && (|r.calls| == 5 <==> c.remove(wavPath))
              && (|r.calls| == 5 ==> r.calls[4] == Remove(mp3))
              && r.deleted == (if !c.remove(wavPath) then [] else if c.remove(mp3) then [wavPath, mp3] else [wavPath])
  {
    var parsed := ParseDateTimeFromFilename(Basename(wavPath));
    if parsed.Some? {
      RunOfStage(inFlight, wavPath, c);
      var r := ProcessWavFile(inFlight, wavPath, c);
      if r.outcome.Done? {
        var dt := parsed.value;
        var mp3 := UsableMp3(c.convert(wavPath, Some(dt)));
        assert mp3.Some? && RunMp3(wavPath, c) == mp3;
        var t := TranscribeStage(wavPath, dt, mp3.value, c);
        var tr := UsableTranscript(c.transcribe(mp3.value));
        assert tr.Some? && RunTranscript(wavPath, c) == tr;
        var p := PublishStage(wavPath, mp3.value, TitleFor(dt), tr.value, c);
        assert r.calls[1..] == t.calls && t.calls[1..] == p.calls && r.deleted == p.deleted;
        assert |r.calls| == |p.calls| + 2 && r.calls[3] == t.calls[2] == p.calls[1];
        assert |r.calls| == 5 ==> r.calls[4] == t.calls[3] == p.calls[2];
        PublishRemovals(wavPath, mp3.value, TitleFor(dt), tr.value, c);
      }
    } else {
      RunOfBadName(inFlight, wavPath, c);
    }
  }


  /** `on_created`: the run for an event that passes the filter, nothing otherwise. */
  function OnCreated(inFlight: set<string>, e: FsEvent, c: Collaborators): (r: Option<Run>)
    ensures r.Some? <==> ShouldProcess(inFlight, e)
    ensures r.Some? ==> r.value.inFlightAfter == inFlight - {e.srcPath}
  {
    if ShouldProcess(inFlight, e) then Some(ProcessWavFile(inFlight, e.srcPath, c)) else None
  }

  /** A second create event for a path that is being processed is dropped. */
  lemma {:induction false} DuplicateEventDropped(inFlight: set<string>, path: string, c: Collaborators)
    requires path in inFlight
    ensures OnCreated(inFlight, FsEvent(false, path), c) == None
  {
  }

  /** The paths of the `.wav` names (in any case) of a listing, in order. */
  function WavEntries(folder: string, listing: seq<string>): (r: seq<string>)
    ensures |r| <= |listing|
  {
    if listing == [] then []
    else
      var f := listing[|listing| - 1];
      WavEntries(folder, listing[..|listing| - 1]) + (if HasWavSuffix(f) then [Join(folder, f)] else [])
  }

  /** The in-flight set after each path of `paths` was processed in turn:
      each run releases its own path. */
  function Released(inFlight: set<string>, paths: seq<string>): set<string> {
    if paths == [] then inFlight
    else Released(inFlight, paths[..|paths| - 1]) - {paths[|paths| - 1]}
  }

  /** After the runs the set holds exactly the members that are not among
      the paths. */
  lemma {:induction false} ReleasedExactly(inFlight: set<string>, paths: seq<string>)
    ensures forall x :: x in Released(inFlight, paths) <==> x in inFlight && x !in paths
    decreases |paths|
  {
    if paths != [] {
      var init := paths[..|paths| - 1];
      ReleasedExactly(inFlight, init);
      assert paths == init + [paths[|paths| - 1]];
    }
  }

  /** The runs of processing `paths` in turn, starting from `inFlight`. */
  function ScanRuns(inFlight: set<string>, paths: seq<string>, c: Collaborators): (runs: seq<Run>)
    ensures |runs| == |paths|
  {
    if paths == [] then []
    else
      var init := paths[..|paths| - 1];
      ScanRuns(inFlight, init, c) + [ProcessWavFile(Released(inFlight, init), paths[|paths| - 1], c)]
  }

  /** `scan_existing_files`: every `.wav` entry of the listing (in any case)
      is processed in listing order, without consulting the in-flight set;
      each run releases its path, so the set ends without any of them. */
  method ScanExistingFiles(inFlight: set<string>, folder: string, listing: seq<string>, c: Collaborators)
    returns (runs: seq<Run>, inFlightAfter: set<string>)
    ensures runs == ScanRuns(inFlight, WavEntries(folder, listing), c)
    ensures forall x :: x in inFlightAfter <==> x in inFlight && x !in WavEntries(folder, listing)
  {
    var paths := WavEntries(folder, listing);
    runs := [];
    inFlightAfter := inFlight;
    var i := 0;
    while i < |paths|
      invariant 0 <= i <= |paths|
      invariant inFlightAfter == Released(inFlight, paths[..i])
      invariant runs == ScanRuns(inFlight, paths[..i], c)
    {
      var r := ProcessWavFile(inFlightAfter, paths[i], c);
      ScanRunsSnoc(inFlight, paths, i, c);
      runs := runs + [r];
      inFlightAfter := r.inFlightAfter;
      i := i + 1;
    }
    assert paths[..i] == paths;
    ReleasedExactly(inFlight, paths);
  }

  /** Scanning one more path adds its run after the others and releases it. */
  lemma {:induction false} ScanRunsSnoc(inFlight: set<string>, paths: seq<string>, i: nat, c: Collaborators)
    requires i < |paths|
    ensures ScanRuns(inFlight, paths[..i + 1], c) == ScanRuns(inFlight, paths[..i], c) + [ProcessWavFile(Released(inFlight, paths[..i]), paths[i], c)]
    ensures Released(inFlight, paths[..i + 1]) == Released(inFlight, paths[..i]) - {paths[i]}
  {
    var p := paths[..i + 1];
    assert p[..|p| - 1] == paths[..i];
    assert p[|p| - 1] == paths[i];
  }

  /** Each scanned file gets exactly one run, in listing order, and the run
      for a file is the one `process_wav_file` makes for its path. */
  lemma {:induction false} ScanRunsPerFile(inFlight: set<string>, paths: seq<string>, c: Collaborators, i: nat)
    requires i < |paths|
    ensures ScanRuns(inFlight, paths, c)[i] == ProcessWavFile(Released(inFlight, paths[..i]), paths[i], c)
    decreases |paths|
  {
    var init := paths[..|paths| - 1];
    var last := ProcessWavFile(Released(inFlight, init), paths[|paths| - 1], c);
    LastAppended(ScanRuns(inFlight, init, c), last, i);
    if i < |paths| - 1 {
      ScanRunsPerFile(inFlight, init, c, i);
      PrefixOfInit(paths, i);
    } else {
      assert init == paths[..i];
    }
  }

  /** Indexing a sequence with one element appended. */
  lemma {:induction false} LastAppended<T>(a: seq<T>, x: T, i: nat)
    requires i <= |a|
    ensures (a + [x])[i] == if i < |a| then a[i] else x
  {
  }

  /** A prefix of all but the last path is that prefix of the paths. */
  lemma {:induction false} PrefixOfInit(paths: seq<string>, i: nat)
    requires i < |paths| - 1
    ensures paths[..|paths| - 1][..i] == paths[..i] && paths[..|paths| - 1][i] == paths[i]
  {
  }
}

=== FILE: segments.dfy ===
/** Transcript segments: the `(MM:SS, text)` pairs every transcription
    provider produces from the raw `{start, text}` segments of its model or
    service (src/transcription/whisper_provider.py, whisperx_provider.py and
    remote_provider.py share the mapping).
 */
module Segments {
  import opened Outcomes
  import opened Decimal
  import opened Strings

  /** A raw segment as the model or service returns it: start in seconds. */
  datatype RawSegment = RawSegment(start: real, text: string)

  /** One line of a transcript: the `MM:SS` timestamp and the text. */
  datatype TranscriptSegment = TranscriptSegment(timestamp: string, text: string)

  /** `int(x)` of a float: truncation toward zero. */
  function Truncate(x: real): (n: int)
    ensures x >= 0.0 ==> n == x.Floor
    ensures x < 0.0 ==> n == -((-x).Floor)
  {
    if x >= 0.0 then x.Floor else -((-x).Floor)
  }

  /** `divmod(n, 60)` followed by `f"{minutes:02d}:{seconds:02d}"`.  The
      program's `divmod` rounds toward negative infinity, which for the
      positive divisor 60 is Dafny's `/` and `%`. */
  function Timestamp(n: int): string {
    TwoDigits(n / 60) + ":" + TwoDigits(n % 60)
  }

  /** Reads `MM:SS` back into a number of seconds. */
  function ParseTimestamp(ts: string): Option<int> {
    var i := IndexOf(ts, ':');
    if i < |ts| && 0 < i && i + 1 < |ts| && IsDigits(ts[..i]) && IsDigits(ts[i + 1..]) then
      Some(60 * DecodeDigits(ts[..i]) + DecodeDigits(ts[i + 1..]))
    else None
  }

  lemma {:induction false} ParseDigitsColonDigits(mm: string, ss: string)
    requires IsDigits(mm) && IsDigits(ss) && |mm| >= 1 && |ss| >= 1
    ensures ParseTimestamp(mm + ":" + ss) == Some(60 * DecodeDigits(mm) + DecodeDigits(ss))
  {
    var ts := mm + ":" + ss;
    assert forall k :: 0 <= k < |mm| ==> mm[k] != ':';
    IndexOfFirst(mm, ':', ss);
    assert mm + ":" + ss == mm + [':'] + ss;
    assert ts[..|mm|] == mm;
    assert ts[|mm| + 1..] == ss;
    var i := IndexOf(ts, ':');
    assert i == |mm| && i < |ts| && 0 < i && i + 1 < |ts|;
    assert IsDigits(ts[..i]) && IsDigits(ts[i + 1..]);
    assert DecodeDigits(ts[..i]) == DecodeDigits(mm);
    assert DecodeDigits(ts[i + 1..]) == DecodeDigits(ss);
    assert ParseTimestamp(ts) == Some(60 * DecodeDigits(ts[..i]) + DecodeDigits(ts[i + 1..]));
  }

  /** A non-negative number of seconds survives rendering as `MM:SS`. */
  lemma {:induction false} TimestampRoundTrip(n: nat)
    ensures ParseTimestamp(Timestamp(n)) == Some(n)
  {
    var q, r := n / 60, n % 60;
    var mm, ss := ZeroPad(q, 2), ZeroPad(r, 2);
    assert Timestamp(n) == mm + ":" + ss;
    ParseDigitsColonDigits(mm, ss);
    DecodeZeroPad(q, 2);
    DecodeZeroPad(r, 2);
    MinutesAndSeconds(n, q, r);
  }

  lemma {:induction false} MinutesAndSeconds(n: nat, q: int, r: int)
    requires q == n / 60 && r == n % 60
    ensures 60 * q + r == n
  {
  }

  /** The seconds field always has exactly two digits. */
  lemma {:induction false} SecondsFieldWidth(n: int)
    ensures |TwoDigits(n % 60)| == 2
  {
    assert Pow10(2) == 100;
    ZeroPadWidth(n % 60, 2);
  }

  /** One raw segment mapped to its transcript line. */
  function SegmentOf(raw: RawSegment): (s: TranscriptSegment)
    ensures raw.start >= 0.0 ==> ParseTimestamp(s.timestamp) == Some(raw.start.Floor)
    ensures Contains(raw.text, s.text)
    ensures s.text == [] || (!IsSpace(s.text[0]) && !IsSpace(s.text[|s.text| - 1]))
  {
    SegmentParts(raw.start, raw.text);
    TranscriptSegment(Timestamp(Truncate(raw.start)), Strip(raw.text))
  }

  lemma {:induction false} SegmentParts(start: real, text: string)
    ensures start >= 0.0 ==> ParseTimestamp(Timestamp(Truncate(start))) == Some(start.Floor)
    ensures Contains(text, Strip(text))
  {
    StripContained(text);
    if start >= 0.0 {
      TimestampRoundTrip(Truncate(start));
    }
  }

  /** The provider mapping: one transcript line per raw segment, in order. */
  function MapSegments(raws: seq<RawSegment>): (r: seq<TranscriptSegment>)
    ensures |r| == |raws|
    ensures forall i :: 0 <= i < |raws| && raws[i].start >= 0.0 ==>
              ParseTimestamp(r[i].timestamp) == Some(raws[i].start.Floor)
    ensures forall i :: 0 <= i < |raws| ==> r[i].text == Strip(raws[i].text)
  {
    if raws == [] then [] else [SegmentOf(raws[0])] + MapSegments(raws[1..])
  }
}

=== FILE: strings.dfy ===
/** Text helpers with the meaning the program's string methods have:
    whitespace as `str.isspace` defines it, `strip`, `split()` without an
    argument, `endswith`, `replace` of one character, `rstrip` of one character
    and substring containment.
 */
module Strings {

  /** The characters `str.isspace` accepts (and `strip`/`split` remove). */
  predicate IsSpace(c: char) {
    || c == ' '
    || ('\t' <= c <= '\r')
    || ('\U{1C}' <= c <= '\U{1F}')
    || c == '\U{85}' || c == '\U{A0}' || c == '\U{1680}'
    || ('\U{2000}' <= c <= '\U{200A}')
    || c == '\U{2028}' || c == '\U{2029}' || c == '\U{202F}'
    || c == '\U{205F}' || c == '\U{3000}'
  }

  predicate NoSpace(s: string) {
    forall i :: 0 <= i < |s| ==> !IsSpace(s[i])
  }

  /** `a` is a prefix of `b`. */
  predicate IsPrefix<T(==)>(a: seq<T>, b: seq<T>) {
    |a| <= |b| && b[..|a|] == a
  }

  predicate StartsWith(s: string, prefix: string) {
    |prefix| <= |s| && s[..|prefix|] == prefix
  }

  predicate EndsWith(s: string, suffix: string) {
    |suffix| <= |s| && s[|s| - |suffix|..] == suffix
  }

  /** Putting text in front keeps a suffix. */
  lemma {:induction false} EndsWithAppend(a: string, s: string, suffix: string)
    requires EndsWith(s, suffix)
    ensures EndsWith(a + s, suffix)
  {
    var k := |s| - |suffix|;
    forall j | 0 <= j < |suffix|
      ensures (a + s)[|a| + k..][j] == suffix[j]
    {
      assert (a + s)[|a| + k + j] == s[k + j] == s[k..][j];
    }
  }

  /** `sub` occurs in `s` starting at index `i`. */
  predicate OccursAt(s: string, sub: string, i: int) {
    0 <= i <= |s| - |sub| && s[i..i + |sub|] == sub
  }

  /** `sub in s` */
  predicate Contains(s: string, sub: string) {
    exists i :: 0 <= i <= |s| - |sub| && OccursAt(s, sub, i)
  }

  /** The end of the run of whitespace that starts at index `i`
      (`SkipSpaceSpec` states what the run is). */
  function SkipSpace(s: string, i: nat): (j: nat)
    requires i <= |s|
    ensures i <= j <= |s|
    decreases |s| - i
  {
    if i < |s| && IsSpace(s[i]) then SkipSpace(s, i + 1) else i
  }

  /** The end of the run of non-whitespace that starts at index `i`
      (`SkipWordSpec` states what the run is). */
  function SkipWord(s: string, i: nat): (j: nat)
    requires i <= |s|
    ensures i <= j <= |s|
    decreases |s| - i
  {
    if i < |s| && !IsSpace(s[i]) then SkipWord(s, i + 1) else i
  }

  /** The start of the run of whitespace that ends at index `j`, going no
      lower than `lo` (`BackSpaceSpec` states what the run is). */
  function BackSpace(s: string, lo: nat, j: nat): (i: nat)
    requires lo <= j <= |s|
    ensures lo <= i <= j
    decreases j
  {
    if j > lo && IsSpace(s[j - 1]) then BackSpace(s, lo, j - 1) else j
  }

  /** `SkipSpace` stops at the first character that is not whitespace. */
  lemma {:induction false} SkipSpaceSpec(s: string, i: nat)
    requires i <= |s|
    ensures forall k :: i <= k < SkipSpace(s, i) ==> IsSpace(s[k])
    ensures SkipSpace(s, i) < |s| ==> !IsSpace(s[SkipSpace(s, i)])
    decreases |s| - i
  {
    if i < |s| && IsSpace(s[i]) {
      SkipSpaceSpec(s, i + 1);
    }
  }

  /** `SkipWord` stops at the first whitespace character. */
  lemma {:induction false} SkipWordSpec(s: string, i: nat)
    requires i <= |s|
    ensures forall k :: i <= k < SkipWord(s, i) ==> !IsSpace(s[k])
    ensures SkipWord(s, i) < |s| ==> IsSpace(s[SkipWord(s, i)])
    decreases |s| - i
  {
    if i < |s| && !IsSpace(s[i]) {
      SkipWordSpec(s, i + 1);
    }
  }

  /** `BackSpace` stops after the last character, going down, that is not
      whitespace. */
  lemma {:induction false} BackSpaceSpec(s: string, lo: nat, j: nat)
    requires lo <= j <= |s|
    ensures forall k :: BackSpace(s, lo, j) <= k < j ==> IsSpace(s[k])
    ensures BackSpace(s, lo, j) > lo ==> !IsSpace(s[BackSpace(s, lo, j) - 1])
    decreases j
  {
    if j > lo && IsSpace(s[j - 1]) {
      BackSpaceSpec(s, lo, j - 1);
    }
  }

  /** The number of leading whitespace characters of `s`. */
  function LeadingSpace(s: string): nat
  {
    SkipSpace(s, 0)
  }

  /** `str.strip()`: whitespace removed from both ends; what is left is the
      text between the leading and the trailing whitespace. */
  function Strip(s: string): (r: string)
    ensures OccursAt(s, r, LeadingSpace(s))
    ensures forall k :: 0 <= k < LeadingSpace(s) ==> IsSpace(s[k])
    ensures forall k :: LeadingSpace(s) + |r| <= k < |s| ==> IsSpace(s[k])
    ensures r == [] || (!IsSpace(r[0]) && !IsSpace(r[|r| - 1]))
  {
    var i := SkipSpace(s, 0);
    var j := BackSpace(s, i, |s|);
    SkipSpaceSpec(s, 0);
    BackSpaceSpec(s, i, |s|);
    var r := s[i..j];
    assert r != [] ==> r[0] == s[i] && r[|r| - 1] == s[j - 1];
    r
  }

  /** The stripped text occurs in the text. */
  lemma {:induction false} StripContained(s: string)
    ensures Contains(s, Strip(s))
  {
    assert OccursAt(s, Strip(s), LeadingSpace(s));
  }

  /** Stripping twice is stripping once. */
  lemma {:induction false} StripIdempotent(s: string)
    ensures Strip(Strip(s)) == Strip(s)
  {
    var r := Strip(s);
    assert SkipSpace(r, 0) == 0;
    assert BackSpace(r, 0, |r|) == |r|;
    assert r[0..|r|] == r;
  }

  /** A non-empty run of non-whitespace characters. */
  predicate IsWord(w: string) {
    w != [] && NoSpace(w)
  }

  /** `str.split()` with no separator, from index `i` on: the maximal runs of
      non-whitespace. */
  function FieldsFrom(s: string, i: nat): seq<string>
    requires i <= |s|
    decreases |s| - i
  {
    var a := SkipSpace(s, i);
    if a == |s| then [] else [s[a..SkipWord(s, a)]] + FieldsFrom(s, SkipWord(s, a))
  }

  /** The text split at runs of whitespace (`str.split()` without arguments). */
  function Fields(s: string): seq<string> {
    FieldsFrom(s, 0)
  }

  /** Every field is a word: non-empty, without whitespace. */
  lemma {:induction false} FieldsFromAreWords(s: string, i: nat)
    requires i <= |s|
    ensures forall k :: 0 <= k < |FieldsFrom(s, i)| ==> IsWord(FieldsFrom(s, i)[k])
    decreases |s| - i
  {
    var x := SkipSpace(s, i);
    if x == |s| {
      FieldsFromEnd(s, i);
    } else {
      var y := SkipWord(s, x);
      var w := s[x..y];
      SkipSpaceSpec(s, i);
      SkipWordSpec(s, x);
      assert IsWord(w) by {
        assert forall k :: 0 <= k < |w| ==> w[k] == s[x + k];
      }
      FieldsFromWord(s, i, x, y, w);
      FieldsFromAreWords(s, y);
      ConsWords(w, FieldsFrom(s, y));
    }
  }

  /** A word in front of words is a sequence of words. */
  lemma {:induction false} ConsWords(w: string, ws: seq<string>)
    requires IsWord(w)
    requires forall k :: 0 <= k < |ws| ==> IsWord(ws[k])
    ensures forall k :: 0 <= k < |[w] + ws| ==> IsWord(([w] + ws)[k])
  {
  }

  /** The words separated by one space each (the inverse of `Fields`). */
  function JoinWords(ws: seq<string>): string {
    if ws == [] then []
    else if |ws| == 1 then ws[0]
    else ws[0] + " " + JoinWords(ws[1..])
  }

  /** The whitespace run from `i` ends at `r` when everything in between is
      whitespace and `r` is the end of the text or not whitespace. */
  lemma {:induction false} SkipSpaceIs(s: string, i: nat, r: nat)
    requires i <= r <= |s|
    requires forall k :: i <= k < r ==> IsSpace(s[k])
    requires r < |s| ==> !IsSpace(s[r])
    ensures SkipSpace(s, i) == r
  {
    SkipSpaceSpec(s, i);
  }

  /** The word run from `i` ends at `r` when nothing in between is whitespace
      and `r` is the end of the text or whitespace. */
  lemma {:induction false} SkipWordIs(s: string, i: nat, r: nat)
    requires i <= r <= |s|
    requires forall k :: i <= k < r ==> !IsSpace(s[k])
    requires r < |s| ==> IsSpace(s[r])
    ensures SkipWord(s, i) == r
  {
    SkipWordSpec(s, i);
  }

  /** A word at index `i` that ends the text or is followed by whitespace is
      exactly what the scanners find there. */
  lemma {:induction false} WordAt(s: string, i: nat, w: string)
    requires IsWord(w) && i + |w| <= |s| && s[i..i + |w|] == w
    requires i + |w| == |s| || IsSpace(s[i + |w|])
    ensures SkipSpace(s, i) == i && SkipWord(s, i) == i + |w|
  {
    assert s[i] == w[0];
    forall k | i <= k < i + |w|
      ensures !IsSpace(s[k])
    {
      assert s[k] == w[k - i];
    }
    SkipWordIs(s, i, i + |w|);
  }

  /** Skipping whitespace in a text whose tail from `off` is `b` is skipping
      it in `b`. */
  lemma {:induction false} SkipSpaceShift(s: string, off: nat, b: string, j: nat)
    requires off <= |s| && s[off..] == b && j <= |b|
    ensures SkipSpace(s, off + j) == off + SkipSpace(b, j)
  {
    var r := off + SkipSpace(b, j);
    SkipSpaceSpec(b, j);
    forall k | off + j <= k < r
      ensures IsSpace(s[k])
    {
      assert s[k] == b[k - off];
    }
    if r < |s| {
      assert s[r] == b[r - off];
    }
    SkipSpaceIs(s, off + j, r);
  }

  /** Skipping a word in a text whose tail from `off` is `b` is skipping it
      in `b`. */
  lemma {:induction false} SkipWordShift(s: string, off: nat, b: string, j: nat)
    requires off <= |s| && s[off..] == b && j <= |b|
    ensures SkipWord(s, off + j) == off + SkipWord(b, j)
  {
    var r := off + SkipWord(b, j);
    SkipWordSpec(b, j);
    forall k | off + j <= k < r
      ensures !IsSpace(s[k])
    {
      assert s[k] == b[k - off];
    }
    if r < |s| {
      assert s[r] == b[r - off];
    }
    SkipWordIs(s, off + j, r);
  }

  /** The split from `i` is empty when only whitespace follows. */
  lemma {:induction false} FieldsFromEnd(s: string, i: nat)
    requires i <= |s| && SkipSpace(s, i) == |s|
    ensures FieldsFrom(s, i) == []
  {
  }

  /** One step of the split: the word found between `x` and `y`, then the split
      from `y`. */
  lemma {:induction false} FieldsFromWord(s: string, i: nat, x: nat, y: nat, w: string)
    requires i <= |s| && x == SkipSpace(s, i) && x < |s| && y == SkipWord(s, x)
    requires s[x..y] == w
    ensures FieldsFrom(s, i) == [w] + FieldsFrom(s, y)
  {
  }

  /** In a text whose tail from `off` is `b`, the whitespace and the word
      after position `off + j` are those after `j` in `b`, shifted by `off`. */
  lemma {:induction false} ShiftedPositions(s: string, off: nat, b: string, j: nat, x: nat, y: nat)
    requires off <= |s| && s[off..] == b && j <= |b|
    requires x == SkipSpace(b, j) && x < |b| && y == SkipWord(b, x)
    ensures SkipSpace(s, off + j) == off + x && off + x < |s|
    ensures SkipWord(s, off + x) == off + y
    ensures s[off + x..off + y] == b[x..y]
  {
    SkipSpaceShift(s, off, b, j);
    SkipWordShift(s, off, b, x);
    SliceOfTail(s, off, b, x, y);
  }

  /** A slice of the tail from `off` is the slice of the text shifted by `off`. */
  lemma {:induction false} SliceOfTail(s: string, off: nat, b: string, x: nat, y: nat)
    requires off <= |s| && s[off..] == b && x <= y <= |b|
    ensures s[off + x..off + y] == b[x..y]
  {
    forall k | 0 <= k < y - x
      ensures s[off + x..off + y][k] == b[x..y][k]
    {
      assert s[off + x + k] == s[off..][x + k];
    }
  }

  /** The same word comes first in the text from `off + j` and in its tail
      `b` from `j`. */
  lemma {:induction false} ShiftedWord(s: string, off: nat, b: string, j: nat, x: nat, y: nat)
    requires off <= |s| && s[off..] == b && j <= |b|
    requires x == SkipSpace(b, j) && x < |b| && y == SkipWord(b, x)
    ensures y <= |b|
    ensures FieldsFrom(s, off + j) == [b[x..y]] + FieldsFrom(s, off + y)
    ensures FieldsFrom(b, j) == [b[x..y]] + FieldsFrom(b, y)
  {
    ShiftedPositions(s, off, b, j, x, y);
    FieldsFromWord(s, off + j, off + x, off + y, b[x..y]);
    FieldsFromWord(b, j, x, y, b[x..y]);
  }

  /** Splitting a text from a position past `off` is splitting its tail
      `b` from `off` on. */
  lemma {:induction false} FieldsFromShift(s: string, off: nat, b: string, j: nat)
    requires off <= |s| && s[off..] == b && j <= |b|
    ensures FieldsFrom(s, off + j) == FieldsFrom(b, j)
    decreases |b| - j
  {
    var x := SkipSpace(b, j);
    if x == |b| {
      SkipSpaceShift(s, off, b, j);
      FieldsFromEnd(s, off + j);
      FieldsFromEnd(b, j);
    } else {
      var y := SkipWord(b, x);
      ShiftedWord(s, off, b, j, x, y);
      FieldsFromShift(s, off, b, y);
    }
  }

  /** A word followed by a space and more text splits into that word and the
      split of the text. */
  lemma {:induction false} FieldsOfWordSpace(w: string, t: string)
    requires IsWord(w) && t != [] && !IsSpace(t[0])
    ensures Fields(w + " " + t) == [w] + Fields(t)
  {
    var s := w + " " + t;
    var e := |w|;
    assert s[..e] == w && s[0..e] == w && s[e] == ' ' && s[e + 1] == t[0];
    WordAt(s, 0, w);
    assert SkipSpace(s, e) == e + 1;
    assert FieldsFrom(s, 0) == [w] + FieldsFrom(s, e);
    assert FieldsFrom(s, e) == FieldsFrom(s, e + 1);
    assert s[e + 1..] == t;
    FieldsFromShift(s, e + 1, t, 0);
  }

  /** A single word splits into itself. */
  lemma {:induction false} FieldsOfWord(w: string)
    requires IsWord(w)
    ensures Fields(w) == [w]
  {
    assert w[0..|w|] == w;
    WordAt(w, 0, w);
    assert SkipSpace(w, |w|) == |w|;
    assert FieldsFrom(w, 0) == [w] + FieldsFrom(w, |w|);
  }

  /** Joined words start with a character that is not whitespace. */
  lemma {:induction false} JoinWordsStart(ws: seq<string>)
    requires ws != [] && IsWord(ws[0])
    ensures JoinWords(ws) != [] && JoinWords(ws)[0] == ws[0][0]
  {
  }

  /** Splitting words joined by single spaces gives the words back. */
  lemma {:induction false} FieldsOfJoinWords(ws: seq<string>)
    requires forall k :: 0 <= k < |ws| ==> IsWord(ws[k])
    ensures Fields(JoinWords(ws)) == ws
    decreases |ws|
  {
    if |ws| == 1 {
      FieldsOfWord(ws[0]);
    } else if |ws| > 1 {
      var rest := ws[1..];
      assert forall k :: 0 <= k < |rest| ==> rest[k] == ws[k + 1];
      FieldsOfJoinWords(rest);
      JoinWordsStart(rest);
      FieldsOfWordSpace(ws[0], JoinWords(rest));
      assert ws == [ws[0]] + rest;
    }
  }

  /** An ASCII capital folded to lower case; every other character kept. */
  function LowerChar(c: char): char {
    if 'A' <= c <= 'Z' then (c as int + 32) as char else c
  }

  /** ASCII letters folded to lower case; other characters kept. */
  function LowerAscii(s: string): (r: string)
    ensures |r| == |s|
    ensures forall i :: 0 <= i < |s| ==> r[i] == LowerChar(s[i])
  {
    if s == [] then [] else [LowerChar(s[0])] + LowerAscii(s[1..])
  }

  /** Folding twice is folding once. */
  lemma {:induction false} LowerAsciiIdempotent(s: string)
    ensures LowerAscii(LowerAscii(s)) == LowerAscii(s)
  {
    var l := LowerAscii(s);
    var ll := LowerAscii(l);
    forall i | 0 <= i < |s| ensures ll[i] == l[i] {
      assert !('A' <= l[i] <= 'Z');
    }
  }

  /** `s.lower().endswith('.wav')`, character by character. */
  predicate HasWavSuffix(s: string) {
    |s| >= 4
    && s[|s| - 4] == '.'
    && (s[|s| - 3] == 'w' || s[|s| - 3] == 'W')
    && (s[|s| - 2] == 'a' || s[|s| - 2] == 'A')
    && (s[|s| - 1] == 'v' || s[|s| - 1] == 'V')
  }

  /** A character folds to the lower-case letter `lower` exactly when it is
      that letter or its capital. */
  lemma {:induction false} LowerCharIs(c: char, lower: char)
    requires 'a' <= lower <= 'z'
    ensures LowerChar(c) == lower <==> c == lower || c as int == lower as int - 32
  {
  }

  /** The case-insensitive test agrees with lower-casing first. */
  lemma {:induction false} HasWavSuffixIsLowerEndsWith(s: string)
    ensures HasWavSuffix(s) <==> EndsWith(LowerAscii(s), ".wav")
  {
    if |s| >= 4 {
      var n := |s|;
      LowerSuffix(s);
      WavSuffixLetters(s);
      WavLetters(LowerChar(s[n - 4]), LowerChar(s[n - 3]), LowerChar(s[n - 2]), LowerChar(s[n - 1]));
    }
  }

  /** The last four characters of a folded string are the folded last four. */
  lemma {:induction false} LowerSuffix(s: string)
    requires |s| >= 4
    ensures var n := |s|;
            var last := [LowerChar(s[n - 4]), LowerChar(s[n - 3]), LowerChar(s[n - 2]), LowerChar(s[n - 1])];
            EndsWith(LowerAscii(s), ".wav") <==> last == ".wav"
  {
    var n := |s|;
    assert LowerAscii(s)[n - 4..] == [LowerChar(s[n - 4]), LowerChar(s[n - 3]), LowerChar(s[n - 2]), LowerChar(s[n - 1])];
  }

  /** The case-insensitive test, letter by folded letter. */
  lemma {:induction false} WavSuffixLetters(s: string)
    requires |s| >= 4
    ensures var n := |s|;
            HasWavSuffix(s) <==> LowerChar(s[n - 4]) == '.' && LowerChar(s[n - 3]) == 'w'
                                 && LowerChar(s[n - 2]) == 'a' && LowerChar(s[n - 1]) == 'v'
  {
    var n := |s|;
    LowerCharIs(s[n - 3], 'w');
    LowerCharIs(s[n - 2], 'a');
    LowerCharIs(s[n - 1], 'v');
  }

  lemma {:induction false} WavLetters(a: char, b: char, c: char, d: char)
    ensures [a, b, c, d] == ".wav" <==> a == '.' && b == 'w' && c == 'a' && d == 'v'
  {
    if [a, b, c, d] == ".wav" {
      assert [a, b, c, d][0] == '.' && [a, b, c, d][1] == 'w';
      assert [a, b, c, d][2] == 'a' && [a, b, c, d][3] == 'v';
    }
  }

  /** `s.replace(a, b)` for single characters `a` and `b`. */
  function ReplaceChar(s: string, a: char, b: char): (r: string)
    ensures |r| == |s|
    ensures forall i :: 0 <= i < |s| ==> r[i] == (if s[i] == a then b else s[i])
  {
    if s == [] then [] else [if s[0] == a then b else s[0]] + ReplaceChar(s[1..], a, b)
  }

  /** `s.rstrip(c)`: every trailing `c` removed. */
  function RStripChar(s: string, c: char): (r: string)
    ensures |r| <= |s| && r == s[..|r|]
    ensures forall i :: |r| <= i < |s| ==> s[i] == c
    ensures r == [] || r[|r| - 1] != c
  {
    if s != [] && s[|s| - 1] == c then RStripChar(s[..|s| - 1], c) else s
  }

  /** Each line followed by a newline. */
  function JoinLines(ls: seq<string>): string {
    if ls == [] then [] else ls[0] + "\n" + JoinLines(ls[1..])
  }

  /** Joining a line in front of others puts it and its line end first. */
  lemma {:induction false} JoinLinesCons(l: string, ls: seq<string>)
    ensures JoinLines([l] + ls) == l + "\n" + JoinLines(ls)
  {
    assert ([l] + ls)[1..] == ls;
  }

  /** The index of the first `c` at or after `i`, or `|s|` when there is none. */
  function IndexFrom(s: string, c: char, i: nat): (j: nat)
    requires i <= |s|
    ensures i <= j <= |s|
    ensures forall k :: i <= k < j ==> s[k] != c
    ensures j < |s| ==> s[j] == c
    decreases |s| - i
  {
    if i < |s| && s[i] != c then IndexFrom(s, c, i + 1) else i
  }

  /** The index of the first occurrence of `c`, or `|s|` when there is none. */
  function IndexOf(s: string, c: char): (i: nat)
    ensures i <= |s|
    ensures forall k :: 0 <= k < i ==> s[k] != c
    ensures i < |s| ==> s[i] == c
  {
    IndexFrom(s, c, 0)
  }

  /** The first `c` is at `i` when nothing before `i` is `c` and `i` is the end
      of the text or holds `c`. */
  lemma {:induction false} IndexOfIs(s: string, c: char, i: nat)
    requires i <= |s|
    requires forall k :: 0 <= k < i ==> s[k] != c
    requires i < |s| ==> s[i] == c
    ensures IndexOf(s, c) == i
  {
  }

  /** The lines of newline-terminated text (a final unterminated piece counts as a line). */
  function SplitLines(s: string): seq<string>
    decreases |s|
  {
    if s == [] then []
    else
      var i := IndexOf(s, '\n');
      if i == |s| then [s] else [s[..i]] + SplitLines(s[i + 1..])
  }

  /** Splitting newline-terminated lines gives the lines back. */
  lemma {:induction false} SplitJoinLines(ls: seq<string>)
    requires forall k :: 0 <= k < |ls| ==> '\n' !in ls[k]
    ensures SplitLines(JoinLines(ls)) == ls
    decreases |ls|
  {
    if ls != [] {
      var s := JoinLines(ls);
      var l := ls[0];
      assert s == l + "\n" + JoinLines(ls[1..]);
      assert IndexOf(s, '\n') == |l| by {
        assert forall k :: 0 <= k < |l| ==> s[k] == l[k];
        IndexOfPrefix(s, l);
      }
      assert s[..|l|] == l;
      assert s[|l| + 1..] == JoinLines(ls[1..]);
      SplitJoinLines(ls[1..]);
    }
  }

  /** Sequence concatenation is associative. */
  lemma {:induction false} SeqAppendAssoc<T>(a: seq<T>, b: seq<T>, c: seq<T>)
    ensures a + (b + c) == (a + b) + c
  {
  }

  /** A line without a newline, then a newline, splits off as the first line. */
  lemma {:induction false} SplitLinesCons(l: string, rest: string)
    requires '\n' !in l
    ensures SplitLines(l + "\n" + rest) == [l] + SplitLines(rest)
  {
    var s := l + "\n" + rest;
    assert IndexOf(s, '\n') == |l| by {
      assert forall k :: 0 <= k < |l| ==> s[k] == l[k];
      IndexOfPrefix(s, l);
    }
    assert s[..|l|] == l;
    assert s[|l| + 1..] == rest;
  }

  /** Two joined runs of single lines split back into all of them. */
  lemma {:induction false} SplitJoinAppend(a: seq<string>, b: seq<string>)
    requires forall k :: 0 <= k < |a| ==> '\n' !in a[k]
    requires forall k :: 0 <= k < |b| ==> '\n' !in b[k]
    ensures SplitLines(JoinLines(a) + JoinLines(b)) == a + b
  {
    SplitLinesAfterJoin(a, JoinLines(b));
    SplitJoinLines(b);
  }

  lemma {:induction false} SplitLinesAfterJoin(ls: seq<string>, tail: string)
    requires forall k :: 0 <= k < |ls| ==> '\n' !in ls[k]
    ensures SplitLines(JoinLines(ls) + tail) == ls + SplitLines(tail)
    decreases |ls|
  {
    if ls == [] {
      assert JoinLines(ls) + tail == tail;
    } else {
      var rest := JoinLines(ls[1..]) + tail;
      assert JoinLines(ls) + tail == ls[0] + "\n" + rest;
      SplitLinesCons(ls[0], rest);
      SplitLinesAfterJoin(ls[1..], tail);
      var after := SplitLines(tail);
      assert SplitLines(rest) == ls[1..] + after;
      assert [ls[0]] + (ls[1..] + after) == ls + after by {
        assert ls == [ls[0]] + ls[1..];
        SeqAppendAssoc([ls[0]], ls[1..], after);
      }
    }
  }

  lemma {:induction false} IndexOfPrefix(s: string, l: string)
    requires '\n' !in l
    requires |l| < |s| && s[..|l|] == l && s[|l|] == '\n'
    ensures IndexOf(s, '\n') == |l|
  {
    forall k | 0 <= k < |l|
      ensures s[k] != '\n'
    {
      assert s[k] == l[k];
    }
    IndexOfIs(s, '\n', |l|);
  }

  /** The first `c` in `l + [c] + rest` is the one after `l`, when `l` has none. */
  lemma {:induction false} IndexOfFirst(l: string, c: char, rest: string)
    requires c !in l
    ensures IndexOf(l + [c] + rest, c) == |l|
  {
    var s := l + [c] + rest;
    forall k | 0 <= k < |l|
      ensures s[k] != c
    {
      assert s[k] == l[k];
    }
    assert s[|l|] == c;
    IndexOfIs(s, c, |l|);
  }

  /** Text without any newline is a single line. */
  lemma {:induction false} SplitLinesNoNewline(s: string)
    requires s != [] && '\n' !in s
    ensures SplitLines(s) == [s]
  {
  }
}

=== FILE: transcriber.dfy ===
/** The transcriber of src/audio/transcriber.py: which provider the
    `transcription` section of the configuration selects, and which language
    a transcription call hands that provider.  Each configuration key is
    `None` when it is absent from the section.
 */
module Transcriber {
  import opened Outcomes
  import opened Strings
  import opened Providers

  datatype TranscriptionConfig = TranscriptionConfig(
    provider: Option<string>,
    language: Option<string>,
    model: Option<string>,
    apiUrl: Option<string>,
    apiKey: Option<string>)

  /** How constructing the selected provider goes: whether the requested
      model loads, whether the fallback `base` model loads, and whether a
      CUDA device is present for WhisperX's default device. */
  datatype LoadIo = LoadIo(requestedLoads: bool, baseLoads: bool, cudaAvailable: bool)

  /** Why `_setup_provider` raised. */
  datatype SetupError = MissingApiUrl | ModelLoadFailed

  /** A set-up transcriber: its default language and its provider. */
  datatype AudioTranscriber = AudioTranscriber(defaultLanguage: string, provider: Provider)

  /** `_setup_provider`: `whisperx` selects WhisperX, `remote` the remote
      service (which needs a non-empty `api_url`), and every other value,
      or none, selects Whisper; the model defaults to `base` and the
      language to `en`. */
  function SetupProvider(cfg: TranscriptionConfig, io: LoadIo): (r: Result<AudioTranscriber, SetupError>)
    ensures r.Success? ==> r.value.defaultLanguage == cfg.language.GetOr("en")
    ensures cfg.provider == Some("remote") ==>
              (r.Failure? <==> !TruthyString(cfg.apiUrl)) &&
              (r.Failure? ==> r.error == MissingApiUrl) &&
              (r.Success? ==> r.value.provider == NewRemote(cfg.apiUrl.value, cfg.apiKey))
    ensures cfg.provider == Some("whisperx") ==>
              (r.Failure? <==> !io.requestedLoads && !io.baseLoads) &&
              (r.Success? ==> r.value.provider.WhisperX?) &&
              (io.requestedLoads ==> r.value.provider == WhisperX(cfg.model.GetOr("base"), DefaultDevice(io.cudaAvailable)))
    ensures cfg.provider != Some("remote") && cfg.provider != Some("whisperx") ==>
              (r.Failure? <==> !io.requestedLoads && !io.baseLoads) &&
              (r.Success? ==> r.value.provider.Whisper?) &&
              (io.requestedLoads ==> r.value.provider == Whisper(cfg.model.GetOr("base")))
    ensures r.Failure? && r.error == ModelLoadFailed ==> !io.requestedLoads && !io.baseLoads
  {
    var language := cfg.language.GetOr("en");
    var model := cfg.model.GetOr("base");
    if cfg.provider == Some("whisperx") then
      match LoadWhisperX(model, DefaultDevice(io.cudaAvailable), io.requestedLoads, io.baseLoads)
      case Returned(p) => Success(AudioTranscriber(language, p))
      case Raised => Failure(ModelLoadFailed)
    else if cfg.provider == Some("remote") then
      if !TruthyString(cfg.apiUrl) then Failure(MissingApiUrl)
      else Success(AudioTranscriber(language, NewRemote(cfg.apiUrl.value, cfg.apiKey)))
    else
      match LoadWhisper(model, io.requestedLoads, io.baseLoads)
      case Returned(p) => Success(AudioTranscriber(language, p))
      case Raised => Failure(ModelLoadFailed)
  }

  /** `language or self.default_language`. */
  function EffectiveLanguage(language: Option<string>, defaultLanguage: string): (l: string)
    ensures TruthyString(language) ==> l == language.value
    ensures !TruthyString(language) ==> l == defaultLanguage
  {
    if TruthyString(language) then language.value else defaultLanguage
  }

  /** An empty section configures local Whisper with the `base` model and
      English as the default language. */
  lemma {:induction false} EmptyConfigDefaults(io: LoadIo)
    requires io.requestedLoads
    ensures SetupProvider(TranscriptionConfig(None, None, None, None, None), io)
              == Success(AudioTranscriber("en", Whisper("base")))
  {
  }

  /** With a non-empty default language, the request a remote provider sends
      always carries a `language` field: the caller's language when it gave
      one, the default otherwise. */
  lemma {:induction false} RemoteRequestAlwaysHasLanguage(t: AudioTranscriber, language: Option<string>, audioPath: string)
    requires t.provider.Remote? && t.defaultLanguage != ""
    ensures var q := BuildRequest(t.provider.apiUrl, t.provider.apiKey, Some(EffectiveLanguage(language, t.defaultLanguage)), audioPath);
            "language" in q.form &&
            q.form["language"] == (if TruthyString(language) then language.value else t.defaultLanguage)
  {
  }
}

=== FILE: unix_monitor.dfy ===
/** The Linux drive monitor (src/unix_drive_monitor.py): drives are the
    mount points of USB block partitions, looked up in the mount table; a
    listed drive always counts as removable; folders are observed without
    scanning what they already hold; and as soon as one monitored drive is
    missing from the listing, every observer is stopped and the monitored
    set is cleared.
 */
module UnixMonitor {
  import opened Outcomes
  import opened Strings
  import opened Paths
  import opened DriveMonitoring

  /** The loop of `get_mount_point` over the mount table, each line already
      split into its whitespace-separated fields: the second field of the
      first row whose first field is the device node.  A row with no field
      before the match, or a matching row with a single field, raises an
      index error inside the `try`, which ends the search with `None`, as
      does reaching the end of the table. */
  function MountPoint(node: string, rows: seq<seq<string>>): (r: Option<string>)
    ensures r.Some? ==> exists i :: 0 <= i < |rows| && MatchesAt(rows, i, node, r.value)
  {
    if rows == [] then None
    else if rows[0] == [] then None
    else if rows[0][0] == node then
      if |rows[0]| >= 2 then
        assert MatchesAt(rows, 0, node, rows[0][1]);
        Some(rows[0][1])
      else None
    else
      var r := MountPoint(node, rows[1..]);
      assert r.Some? ==> exists i :: 0 <= i < |rows| && MatchesAt(rows, i, node, r.value) by {
        if r.Some? {
          var i :| 0 <= i < |rows[1..]| && MatchesAt(rows[1..], i, node, r.value);
          assert MatchesAt(rows, i + 1, node, r.value);
        }
      }
      r
  }

  /** Row `i` names `node` in its first field and `mount` in its second. */
  predicate MatchesAt(rows: seq<seq<string>>, i: int, node: string, mount: string)
    requires 0 <= i < |rows|
  {
    |rows[i]| >= 2 && rows[i][0] == node && rows[i][1] == mount
  }

  /** The lines of a table split into fields. */
  function Rows(lines: seq<string>): (rows: seq<seq<string>>)
    ensures |rows| == |lines| && forall k :: 0 <= k < |lines| ==> rows[k] == Fields(lines[k])
  {
    seq(|lines|, k requires 0 <= k < |lines| => Fields(lines[k]))
  }

  /** `get_mount_point(node)`: `mounts` is the mount table read as lines,
      or `Raised` when it cannot be read. */
  function GetMountPoint(node: string, mounts: Attempt<seq<string>>): (r: Option<string>)
    ensures mounts.Raised? ==> r == None
    ensures r.Some? ==> exists i :: 0 <= i < |mounts.value| && MatchesAt(Rows(mounts.value), i, node, r.value)
  {
    match mounts
    case Raised => None
    case Returned(lines) => MountPoint(node, Rows(lines))
  }

  /** A line of the mount table as the kernel writes it: device, mount point
      and further fields, separated by single spaces. */
  datatype MountEntry = MountEntry(device: string, mountPoint: string, options: seq<string>)

  function MountLine(e: MountEntry): string {
    JoinWords([e.device, e.mountPoint] + e.options)
  }

  predicate WellFormedEntry(e: MountEntry) {
    IsWord(e.device) && IsWord(e.mountPoint) && forall k :: 0 <= k < |e.options| ==> IsWord(e.options[k])
  }

  function MountLines(entries: seq<MountEntry>): (ls: seq<string>)
    ensures |ls| == |entries| && forall k :: 0 <= k < |entries| ==> ls[k] == MountLine(entries[k])
  {
    seq(|entries|, k requires 0 <= k < |entries| => MountLine(entries[k]))
  }

  lemma {:induction false} FieldsOfMountLine(e: MountEntry)
    requires WellFormedEntry(e)
    ensures Fields(MountLine(e)) == [e.device, e.mountPoint] + e.options
  {
    var ws := [e.device, e.mountPoint] + e.options;
    forall k | 0 <= k < |ws| ensures IsWord(ws[k]) {
      if k >= 2 {
        assert ws[k] == e.options[k - 2];
      }
    }
    FieldsOfJoinWords(ws);
  }

  /** The lookup returns the second field of row `i` when every earlier
      row has a first field other than the node and row `i` starts with the
      node and a second field. */
  lemma {:induction false} MountPointFirstMatch(node: string, rows: seq<seq<string>>, i: nat)
    requires i < |rows| && |rows[i]| >= 2 && rows[i][0] == node
    requires forall k :: 0 <= k < i ==> rows[k] != [] && rows[k][0] != node
    ensures MountPoint(node, rows) == Some(rows[i][1])
    decreases i
  {
    if i > 0 {
      assert rows[0] != [] && rows[0][0] != node;
      forall k | 0 <= k < i - 1 ensures rows[1..][k] != [] && rows[1..][k][0] != node {
        assert rows[1..][k] == rows[k + 1];
      }
      MountPointFirstMatch(node, rows[1..], i - 1);
      assert rows[1..][i - 1] == rows[i];
    }
  }

  /** The lookup finds nothing when every row has a first field other than
      the node. */
  lemma {:induction false} MountPointNoMatch(node: string, rows: seq<seq<string>>)
    requires forall k :: 0 <= k < |rows| ==> rows[k] != [] && rows[k][0] != node
    ensures MountPoint(node, rows) == None
    decreases |rows|
  {
    if rows != [] {
      forall k | 0 <= k < |rows| - 1 ensures rows[1..][k] != [] && rows[1..][k][0] != node {
        assert rows[1..][k] == rows[k + 1];
      }
      MountPointNoMatch(node, rows[1..]);
    }
  }

  /** Over a well-formed mount table, the lookup finds the mount point of
      the first entry for the node. */
  lemma {:induction false} MountPointOfTable(node: string, entries: seq<MountEntry>, i: nat)
    requires forall k :: 0 <= k < |entries| ==> WellFormedEntry(entries[k])
    requires i < |entries| && entries[i].device == node
    requires forall k :: 0 <= k < i ==> entries[k].device != node
    ensures GetMountPoint(node, Returned(MountLines(entries))) == Some(entries[i].mountPoint)
  {
    var rows := Rows(MountLines(entries));
    forall k | 0 <= k < |entries| ensures rows[k] == [entries[k].device, entries[k].mountPoint] + entries[k].options {
      FieldsOfMountLine(entries[k]);
    }
    MountPointFirstMatch(node, rows, i);
  }

  /** Over a well-formed mount table, the lookup finds nothing for a node
      no entry names. */
  lemma {:induction false} MountPointNotInTable(node: string, entries: seq<MountEntry>)
    requires forall k :: 0 <= k < |entries| ==> WellFormedEntry(entries[k])
    requires forall k :: 0 <= k < |entries| ==> entries[k].device != node
    ensures GetMountPoint(node, Returned(MountLines(entries))) == None
  {
    var rows := Rows(MountLines(entries));
    forall k | 0 <= k < |entries| ensures rows[k] == [entries[k].device, entries[k].mountPoint] + entries[k].options {
      FieldsOfMountLine(entries[k]);
    }
    MountPointNoMatch(node, rows);
  }

  /** A blank line ends the search before a later matching line. */
  lemma {:induction false} BlankLineEndsSearch(node: string, mount: string)
    ensures GetMountPoint(node, Returned(["", node + " " + mount])) == None
  {
    assert Fields("") == [];
  }

  /** A block device as the device database reports it: its node and the
      `ID_BUS` and `SUBSYSTEM` properties, `None` when absent. */
  datatype Device = Device(node: string, idBus: Option<string>, subsystem: Option<string>)

  /** The device sits on the USB bus and is a block device. */
  predicate IsUsbBlock(d: Device) {
    d.idBus == Some("usb") && d.subsystem == Some("block")
  }

  /** `mount` is what `get_available_drives` lists for the device. */
  predicate Lists(d: Device, lookup: string -> Option<string>, mount: string) {
    IsUsbBlock(d) && lookup(d.node) == Some(mount) && mount != ""
  }

  /** `get_available_drives`: for each partition in turn, its mount point
      when it is a USB block device whose mount point is found and not
      empty; `lookup` is `get_mount_point`. */
  function AvailableDrives(partitions: seq<Device>, lookup: string -> Option<string>): (ds: seq<string>)
    ensures |ds| <= |partitions|
    ensures forall x :: x in ds <==> exists k :: 0 <= k < |partitions| && Lists(partitions[k], lookup, x)
  {
    if partitions == [] then []
    else
      var d := partitions[0];
      var rest := AvailableDrives(partitions[1..], lookup);
      var mp := if IsUsbBlock(d) then lookup(d.node) else None;
      var ds := if TruthyString(mp) then [mp.value] + rest else rest;
      assert forall x :: x in ds <==> exists k :: 0 <= k < |partitions| && Lists(partitions[k], lookup, x) by {
        forall x ensures x in ds <==> exists k :: 0 <= k < |partitions| && Lists(partitions[k], lookup, x) {
          if x in rest {
            var k :| 0 <= k < |partitions[1..]| && Lists(partitions[1..][k], lookup, x);
            assert Lists(partitions[k + 1], lookup, x);
          }
          if exists k :: 0 <= k < |partitions| && Lists(partitions[k], lookup, x) {
            var k :| 0 <= k < |partitions| && Lists(partitions[k], lookup, x);
            if k > 0 {
              assert Lists(partitions[1..][k - 1], lookup, x);
            }
          }
        }
      }
      ds
  }

  /** One iteration of `monitor_drives`: every listed drive is checked
      (no scan first), then a missing monitored drive stops everything. */
  function UnixCycle(m: Monitor, partitions: seq<Device>, mounts: Attempt<seq<string>>,
                     folderName: Option<string>, probe: FolderProbe): (c: Cycle)
    ensures var drives := AvailableDrives(partitions, node => GetMountPoint(node, mounts));
            && (c.stoppedAll <==> exists d :: d in m.monitored && d !in drives)
            && (c.stoppedAll ==> c.monitor == Idle)
            && (!c.stoppedAll ==>
                  forall d :: d in c.monitor.monitored <==>
                    d in m.monitored || (d in drives && HasRecordFolder(JoinedRecordPath(d, folderName), probe)))
            && ObservesOnly(c.actions)
  {
    var drives := AvailableDrives(partitions, node => GetMountPoint(node, mounts));
    var recordPath := d => JoinedRecordPath(d, folderName);
    var always := d => true;
    var c := PollCycle(m, drives, always, recordPath, probe);
    assert !c.stoppedAll ==>
             forall d :: d in c.monitor.monitored <==>
               d in m.monitored || (d in drives && HasRecordFolder(JoinedRecordPath(d, folderName), probe)) by {
      if !c.stoppedAll {
        PollCycleKeeps(m, drives, always, recordPath, probe);
      }
    }
    c
  }

  /** A drive still present loses its monitoring when another monitored
      drive is unplugged. */
  lemma {:induction false} StillPresentDriveIsDropped(probe: FolderProbe, folderName: Option<string>)
    ensures var c := PollCycle(Monitor({"/media/a", "/media/b"}, ["/media/a/RECORD", "/media/b/RECORD"]),
                               ["/media/a"], d => true, d => JoinedRecordPath(d, folderName), probe);
            c.stoppedAll && c.monitor == Idle && "/media/a" !in c.monitor.monitored
  {
    assert "/media/b" !in ["/media/a"];
  }
}

=== FILE: vad.dfy ===
/** The voice-activity recorder of src/audio/vad_recorder.py: the flags that
    start and stop it, the audio callback that queues chunks while recording,
    the consumer that cuts the stream of chunks into recordings, and the file
    a recording is saved to.

    The speech model is an input: each chunk carries the probability the
    model gave it, or `Raised` when the model call failed.  Silence is
    counted in samples and compared exactly, where the program adds
    milliseconds as floating-point numbers.
 */
module VadRecording {
  import opened Outcomes
  import opened Decimal
  import opened Paths
  import opened Clock
  import opened Strings

  /** Samples per second of the input stream. */
  const SampleRate: nat := 16000

  /** The defaults of the `vad` configuration section. */
  const DefaultThreshold: real := 0.5
  const DefaultMinSpeechMs: int := 250
  const DefaultMinSilenceMs: int := 1000

  /** A block of audio as the input stream delivers it: its length in
      samples, and the speech probability the model gives it. */
  datatype Chunk = Chunk(samples: nat, prob: Attempt<real>)

  /** The thresholds the consumer works with.  The minimum speech duration
      is read from the configuration but never consulted. */
  datatype Settings = Settings(threshold: real, minSpeechMs: int, minSilenceMs: int)

  /** The constructor's reading of the `vad` section: every missing key
      takes its default. */
  function SettingsOf(threshold: Option<real>, minSpeechMs: Option<int>, minSilenceMs: Option<int>): (s: Settings)
    ensures threshold.None? ==> s.threshold == DefaultThreshold
    ensures minSpeechMs.None? ==> s.minSpeechMs == DefaultMinSpeechMs
    ensures minSilenceMs.None? ==> s.minSilenceMs == DefaultMinSilenceMs
    ensures threshold.Some? ==> s.threshold == threshold.value
    ensures minSpeechMs.Some? ==> s.minSpeechMs == minSpeechMs.value
    ensures minSilenceMs.Some? ==> s.minSilenceMs == minSilenceMs.value
  {
    Settings(threshold.GetOr(DefaultThreshold), minSpeechMs.GetOr(DefaultMinSpeechMs),
             minSilenceMs.GetOr(DefaultMinSilenceMs))
  }

  /** A chunk the model classified as speech: strictly above the threshold. */
  predicate IsSpeech(c: Chunk, threshold: real) {
    c.prob.Returned? && c.prob.value > threshold
  }

  /** A chunk the model classified as not speech. */
  predicate IsQuiet(c: Chunk, threshold: real) {
    c.prob.Returned? && !(c.prob.value > threshold)
  }

  /** `samples` of silence last longer than `minSilenceMs` milliseconds. */
  predicate SilenceExceeds(samples: nat, minSilenceMs: int) {
    samples * 1000 > minSilenceMs * SampleRate
  }

  /** What the consumer carries from chunk to chunk: the chunks gathered so
      far, whether speech has begun, and the silence since it began. */
  datatype VadState = VadState(buffer: seq<Chunk>, speech: bool, silence: nat)

  /** The consumer's state before the first chunk and after every flush. */
  const Initial: VadState := VadState([], false, 0)

  /** The state after one chunk, and the recording flushed by it, if any. */
  datatype StepResult = StepResult(next: VadState, flushed: Option<seq<Chunk>>)

  /** One pass of the consumer loop.  The chunk always joins the buffer
      first.  A failing model call leaves everything else as it was.  Speech
      while none has begun starts a recording and zeroes the silence; later
      speech leaves the silence alone.  Quiet after speech adds to the
      silence, and once the silence exceeds the minimum the buffer is flushed
      and the state starts over, whether saving succeeds or not. */
  function Step(s: VadState, c: Chunk, cfg: Settings): (r: StepResult)
    ensures r.flushed.Some? <==>
              s.speech && IsQuiet(c, cfg.threshold) && SilenceExceeds(s.silence + c.samples, cfg.minSilenceMs)
    ensures r.flushed.Some? ==> r.flushed.value == s.buffer + [c] && r.next == Initial
    ensures r.flushed.None? ==> r.next.buffer == s.buffer + [c]
    ensures c.prob.Raised? ==> r.next.speech == s.speech && r.next.silence == s.silence
    ensures IsSpeech(c, cfg.threshold) ==> r.next.speech && r.next.silence == (if s.speech then s.silence else 0)
    ensures IsQuiet(c, cfg.threshold) && r.flushed.None? ==>
              r.next.speech == s.speech && r.next.silence == (if s.speech then s.silence + c.samples else s.silence)
  {
    var buffer := s.buffer + [c];
    match c.prob
    case Raised => StepResult(s.(buffer := buffer), None)
    case Returned(p) =>
      if p > cfg.threshold then
        if !s.speech then StepResult(VadState(buffer, true, 0), None)
        else StepResult(s.(buffer := buffer), None)
      else if s.speech then
        var silence := s.silence + c.samples;
        if SilenceExceeds(silence, cfg.minSilenceMs) then StepResult(Initial, Some(buffer))
        else StepResult(VadState(buffer, true, silence), None)
      else StepResult(s.(buffer := buffer), None)
  }

  /** Some chunk of `buffer` is speech. */
  predicate HasSpeech(buffer: seq<Chunk>, threshold: real) {
    exists i :: 0 <= i < |buffer| && IsSpeech(buffer[i], threshold)
  }

  /** The consumer's invariant: without speech there is no silence count,
      and once speech has begun the buffer holds the chunk that began it. */
  predicate Consistent(s: VadState, threshold: real) {
    && (!s.speech ==> s.silence == 0)
    && (s.speech ==> HasSpeech(s.buffer, threshold))
  }

  /** Every step keeps the invariant, and what it flushes holds speech and
      ends with the quiet chunk that closed it. */
  lemma {:induction false} StepKeepsConsistent(s: VadState, c: Chunk, cfg: Settings)
    requires Consistent(s, cfg.threshold)
    ensures var r := Step(s, c, cfg);
            && Consistent(r.next, cfg.threshold)
            && (r.flushed.Some? ==>
                  HasSpeech(r.flushed.value, cfg.threshold) && IsQuiet(r.flushed.value[|r.flushed.value| - 1], cfg.threshold))
  {
    var r := Step(s, c, cfg);
    var buffer := s.buffer + [c];
    if s.speech {
      var i :| 0 <= i < |s.buffer| && IsSpeech(s.buffer[i], cfg.threshold);
      assert buffer[i] == s.buffer[i];
    }
    if IsSpeech(c, cfg.threshold) {
      assert buffer[|s.buffer|] == c;
    }
  }

  /** The result of feeding a run of chunks to the consumer: the state it
      is left in and the recordings it flushed, in order. */
  datatype Run = Run(final: VadState, flushes: seq<seq<Chunk>>)

  /** The consumer loop over `chunks`, from state `s`. */
  function Consume(s: VadState, chunks: seq<Chunk>, cfg: Settings): (r: Run)
    ensures |r.flushes| <= |chunks|
    decreases |chunks|
  {
    if chunks == [] then Run(s, [])
    else
      var step := Step(s, chunks[0], cfg);
      var rest := Consume(step.next, chunks[1..], cfg);
      if step.flushed.Some? then Run(rest.final, [step.flushed.value] + rest.flushes) else rest
  }

  /** The chunks of several recordings, one after another. */
  function Flatten(xs: seq<seq<Chunk>>): seq<Chunk> {
    if xs == [] then [] else xs[0] + Flatten(xs[1..])
  }

  /** Flattening a recording followed by others. */
  lemma {:induction false} FlattenCons(f: seq<Chunk>, xs: seq<seq<Chunk>>)
    ensures Flatten([f] + xs) == f + Flatten(xs)
  {
    assert ([f] + xs)[1..] == xs;
  }

  /** Regrouping a buffer, one chunk and the chunks after it. */
  lemma {:induction false} Regroup(buffer: seq<Chunk>, c: Chunk, tail: seq<Chunk>, front: seq<Chunk>, back: seq<Chunk>)
    requires front + back == tail
    ensures (buffer + [c]) + front + back == buffer + ([c] + tail)
  {
    assert (buffer + [c]) + front + back == (buffer + [c]) + (front + back);
  }

  /** A chunk appended to the buffer, then the chunks after it. */
  lemma {:induction false} SnocRegroup(buffer: seq<Chunk>, c: Chunk, tail: seq<Chunk>)
    ensures (buffer + [c]) + tail == buffer + ([c] + tail)
  {
  }

  /** No chunk is lost, duplicated or reordered: the flushed recordings
      followed by what is still buffered are the starting buffer followed by
      the chunks consumed. */
  lemma {:induction false} ConsumeConserves(s: VadState, chunks: seq<Chunk>, cfg: Settings)
    ensures var r := Consume(s, chunks, cfg);
            Flatten(r.flushes) + r.final.buffer == s.buffer + chunks
    decreases |chunks|
  {
    if chunks != [] {
      var c := chunks[0];
      var step := Step(s, c, cfg);
      var rest := Consume(step.next, chunks[1..], cfg);
      ConsumeConserves(step.next, chunks[1..], cfg);
      assert chunks == [c] + chunks[1..];
      if step.flushed.Some? {
        var f := step.flushed.value;
        assert Consume(s, chunks, cfg) == Run(rest.final, [f] + rest.flushes);
        FlattenCons(f, rest.flushes);
        assert step.next.buffer == [] && f == s.buffer + [c];
        assert Flatten(rest.flushes) + rest.final.buffer == chunks[1..];
        Regroup(s.buffer, c, chunks[1..], Flatten(rest.flushes), rest.final.buffer);
      } else {
        assert Consume(s, chunks, cfg) == rest;
        assert step.next.buffer == s.buffer + [c];
        SnocRegroup(s.buffer, c, chunks[1..]);
      }
    } else {
      assert s.buffer + chunks == s.buffer;
    }
  }

  /** Every flushed recording holds speech and ends with a quiet chunk, and
      the consumer is left in a consistent state. */
  lemma {:induction false} ConsumeFlushesSpeech(s: VadState, chunks: seq<Chunk>, cfg: Settings)
    requires Consistent(s, cfg.threshold)
    ensures var r := Consume(s, chunks, cfg);
            && Consistent(r.final, cfg.threshold)
            && forall k :: 0 <= k < |r.flushes| ==>
                 r.flushes[k] != [] && HasSpeech(r.flushes[k], cfg.threshold) &&
                 IsQuiet(r.flushes[k][|r.flushes[k]| - 1], cfg.threshold)
    decreases |chunks|
  {
    if chunks != [] {
      var step := Step(s, chunks[0], cfg);
      StepKeepsConsistent(s, chunks[0], cfg);
      ConsumeFlushesSpeech(step.next, chunks[1..], cfg);
      var rest := Consume(step.next, chunks[1..], cfg);
      if step.flushed.Some? {
        var fs := [step.flushed.value] + rest.flushes;
        forall k | 0 <= k < |fs|
          ensures fs[k] != [] && HasSpeech(fs[k], cfg.threshold) && IsQuiet(fs[k][|fs[k]| - 1], cfg.threshold)
        {
          if k > 0 { assert fs[k] == rest.flushes[k - 1]; }
        }
      }
    }
  }

  /** Without speech nothing is ever flushed: a run of chunks none of which
      is speech, from a state with no speech, only fills the buffer. */
  lemma {:induction false} NoSpeechNoFlush(s: VadState, chunks: seq<Chunk>, cfg: Settings)
    requires !s.speech
    requires forall k :: 0 <= k < |chunks| ==> !IsSpeech(chunks[k], cfg.threshold)
    ensures var r := Consume(s, chunks, cfg);
            r.flushes == [] && r.final.buffer == s.buffer + chunks && !r.final.speech
    decreases |chunks|
  {
    if chunks != [] {
      var step := Step(s, chunks[0], cfg);
      assert !step.next.speech && step.flushed.None?;
      NoSpeechNoFlush(step.next, chunks[1..], cfg);
      assert s.buffer + [chunks[0]] + chunks[1..] == s.buffer + chunks;
    } else {
      assert s.buffer + chunks == s.buffer;
    }
  }

  /** The samples of a run of chunks, together. */
  function Samples(cs: seq<Chunk>): nat {
    if cs == [] then 0 else cs[0].samples + Samples(cs[1..])
  }

  /** Quiet chunks after speech flush exactly when their silence first
      exceeds the minimum: if all but the last stay within it and the last
      takes it over, the whole buffer and those chunks are flushed as one
      recording and the consumer starts over. */
  lemma {:induction false} QuietRunFlushes(s: VadState, quiets: seq<Chunk>, cfg: Settings)
    requires s.speech && quiets != []
    requires forall k :: 0 <= k < |quiets| ==> IsQuiet(quiets[k], cfg.threshold)
    requires !SilenceExceeds(s.silence + Samples(quiets[..|quiets| - 1]), cfg.minSilenceMs)
    requires SilenceExceeds(s.silence + Samples(quiets), cfg.minSilenceMs)
    ensures Consume(s, quiets, cfg) == Run(Initial, [s.buffer + quiets])
    decreases |quiets|
  {
    var q := quiets[0];
    var step := Step(s, q, cfg);
    assert IsQuiet(q, cfg.threshold);
    if |quiets| == 1 {
      assert quiets == [q];
      assert step.flushed == Some(s.buffer + [q]) && step.next == Initial;
      assert quiets[1..] == [];
    } else {
      var front := quiets[..|quiets| - 1];
      assert front[0] == q && front[1..] == quiets[1..][..|quiets| - 2];
      assert Samples(front) == q.samples + Samples(quiets[1..][..|quiets| - 2]);
      assert step.flushed.None?;
      assert step.next == VadState(s.buffer + [q], true, s.silence + q.samples);
      forall k | 0 <= k < |quiets[1..]|
        ensures IsQuiet(quiets[1..][k], cfg.threshold)
      {
        assert quiets[1..][k] == quiets[k + 1];
      }
      QuietRunFlushes(step.next, quiets[1..], cfg);
      assert (s.buffer + [q]) + quiets[1..] == s.buffer + quiets by {
        assert quiets == [q] + quiets[1..];
      }
    }
  }

  /** A speech chunk followed by quiet chunks whose silence first exceeds
      the minimum with the last of them flushes exactly the buffer, the
      speech chunk and the quiet chunks.  The silence counts from zero when
      the speech chunk begins the speech, and goes on from the state's count
      when speech had begun already. */
  lemma {:induction false} SpeechThenSilenceFlushes(s: VadState, loud: Chunk, quiets: seq<Chunk>, cfg: Settings)
    requires IsSpeech(loud, cfg.threshold) && quiets != []
    requires forall k :: 0 <= k < |quiets| ==> IsQuiet(quiets[k], cfg.threshold)
    requires var base := if s.speech then s.silence else 0;
             && !SilenceExceeds(base + Samples(quiets[..|quiets| - 1]), cfg.minSilenceMs)
             && SilenceExceeds(base + Samples(quiets), cfg.minSilenceMs)
    ensures Consume(s, [loud] + quiets, cfg) == Run(Initial, [s.buffer + [loud] + quiets])
  {
    var step := Step(s, loud, cfg);
    assert step.flushed.None? && step.next.speech;
    assert ([loud] + quiets)[0] == loud && ([loud] + quiets)[1..] == quiets;
    QuietRunFlushes(step.next, quiets, cfg);
  }

  /** `process_audio` from its start until the stop flag ends the loop: the
      recordings it saves, in order; whatever is still buffered when it stops
      is dropped. */
  function ProcessAudio(chunks: seq<Chunk>, cfg: Settings): (r: Run)
    ensures Flatten(r.flushes) + r.final.buffer == chunks
    ensures forall k :: 0 <= k < |r.flushes| ==>
              r.flushes[k] != [] && HasSpeech(r.flushes[k], cfg.threshold)
  {
    ConsumeConserves(Initial, chunks, cfg);
    ConsumeFlushesSpeech(Initial, chunks, cfg);
    Consume(Initial, chunks, cfg)
  }

  /** With the default settings, one second of quiet after speech is not
      enough (the comparison is strict); the next quiet chunk flushes all
      three chunks. */
  lemma {:induction false} SilenceMustExceedMinimum()
    ensures var cfg := SettingsOf(None, None, None);
            var speech := Chunk(1600, Returned(0.9));
            var quiet := Chunk(16000, Returned(0.1));
            && Consume(Initial, [speech, quiet], cfg).flushes == []
            && Consume(Initial, [speech, quiet, quiet], cfg).flushes == [[speech, quiet, quiet]]
  {
    var cfg := SettingsOf(None, None, None);
    var speech := Chunk(1600, Returned(0.9));
    var quiet := Chunk(16000, Returned(0.1));
    var s1 := Step(Initial, speech, cfg).next;
    assert s1 == VadState([speech], true, 0);
    var s2 := Step(s1, quiet, cfg);
    assert s2.flushed.None? && s2.next == VadState([speech, quiet], true, 16000);
    var s3 := Step(s2.next, quiet, cfg);
    assert SilenceExceeds(32000, cfg.minSilenceMs);
    assert [speech, quiet] + [quiet] == [speech, quiet, quiet];
    assert s3.flushed == Some([speech, quiet, quiet]) && s3.next == Initial;
    assert [speech, quiet, quiet][1..] == [quiet, quiet];
    assert [quiet, quiet][1..] == [quiet];
    assert Consume(s2.next, [quiet], cfg).flushes == [[speech, quiet, quiet]];
    assert Consume(s1, [quiet, quiet], cfg).flushes == [[speech, quiet, quiet]];
  }

  /** The recorder's flags and the queue between the callback and the
      consumer. */
  datatype Recorder = Recorder(recording: bool, stopRequested: bool, queue: seq<Chunk>)

  /** A new recorder is not recording. */
  const NewRecorder: Recorder := Recorder(false, false, [])

  /** `audio_callback`: a copy of the chunk is queued only while
      recording. */
  function AudioCallback(r: Recorder, c: Chunk): (r': Recorder)
    ensures r'.recording == r.recording && r'.stopRequested == r.stopRequested
    ensures r.recording ==> r'.queue == r.queue + [c]
    ensures !r.recording ==> r'.queue == r.queue
  {
    if r.recording then r.(queue := r.queue + [c]) else r
  }

  /** `start`: nothing happens unless `enabled` is set; otherwise recording
      begins and the stop flag is cleared. */
  function Start(r: Recorder, enabled: Option<bool>): (r': Recorder)
    ensures !enabled.GetOr(false) ==> r' == r
    ensures enabled.GetOr(false) ==> r'.recording && !r'.stopRequested && r'.queue == r.queue
  {
    if !enabled.GetOr(false) then r else r.(recording := true, stopRequested := false)
  }

  /** `stop`: acts only while recording; afterwards recording is off and
      the stop flag is set. */
  function Stop(r: Recorder): (r': Recorder)
    ensures r.recording ==> !r'.recording && r'.stopRequested && r'.queue == r.queue
    ensures !r.recording ==> r' == r
  {
    if r.recording then r.(recording := false, stopRequested := true) else r
  }

  /** Stopping twice is stopping once, and once stopped the callback queues
      nothing more. */
  lemma {:induction false} StopSettles(r: Recorder, c: Chunk)
    ensures Stop(Stop(r)) == Stop(r)
    ensures AudioCallback(Stop(r), c).queue == Stop(r).queue
  {
  }

  /** With VAD disabled or unset, a new recorder never records: starting it
      changes nothing and the callback queues nothing. */
  lemma {:induction false} DisabledNeverRecords(enabled: Option<bool>, c: Chunk)
    requires !enabled.GetOr(false)
    ensures Start(NewRecorder, enabled) == NewRecorder
    ensures AudioCallback(Start(NewRecorder, enabled), c).queue == []
  {
  }

  /** `vad_recording_<YYYYMMDD_HHMMSS>.mp3` */
  function VadFileName(now: DateTime): string
    requires Valid(now)
  {
    "vad_recording_" + FormatStamp(now) + ".mp3"
  }

  /** Where `save_recording` writes: the output folder inside the vault. */
  function VadRecordingPath(vaultPath: string, outputFolder: string, now: DateTime): (p: string)
    requires Valid(now)
    ensures Basename(p) == VadFileName(now)
    ensures StartsWith(p, Join(vaultPath, outputFolder))
    ensures !(|outputFolder| > 0 && outputFolder[0] == '/') ==> StartsWith(p, vaultPath)
  {
    StampHasNoSeparator(now);
    var dir := Join(vaultPath, outputFolder);
    BasenameOfJoin(dir, VadFileName(now));
    JoinStartsWithDirectory(dir, VadFileName(now));
    JoinKeepsDirectory(vaultPath, outputFolder);
    assert !(|outputFolder| > 0 && outputFolder[0] == '/') ==> StartsWith(Join(dir, VadFileName(now)), vaultPath) by {
      if !(|outputFolder| > 0 && outputFolder[0] == '/') {
        PrefixOfPrefix(Join(dir, VadFileName(now)), dir, vaultPath);
      }
    }
    Join(Join(vaultPath, outputFolder), VadFileName(now))
  }

  lemma {:induction false} NoSeparatorInDigits(s: string)
    requires IsDigits(s)
    ensures '/' !in s
  {
    assert forall c :: c in s ==> IsDigit(c);
  }

  /** The fixed parts of the file name hold no separator. */
  lemma {:induction false} FixedPartsHaveNoSeparator()
    ensures '/' !in "vad_recording_" && '/' !in ".mp3" && '/' !in "_"
  {
  }

  lemma {:induction false} StampHasNoSeparator(t: DateTime)
    requires Valid(t)
    ensures '/' !in VadFileName(t)
  {
    StampSlices(t);
    NoSeparatorInDigits(DatePart(t));
    NoSeparatorInDigits(TimePart(t));
    NotInAppend('/', DatePart(t), "_");
    NotInAppend('/', DatePart(t) + "_", TimePart(t));
    FixedPartsHaveNoSeparator();
    NotInAppend('/', "vad_recording_", FormatStamp(t));
    NotInAppend('/', "vad_recording_" + FormatStamp(t), ".mp3");
  }

  /** The file name gives back the time it was saved at: its fourteen
      digits, without the underscore, parse to that time. */
  lemma {:induction false} VadFileNameRoundTrip(now: DateTime)
    requires Valid(now)
    ensures var n := VadFileName(now);
            |n| == 33 && ParseCompact(n[14..22] + n[23..29]) == Some(now)
  {
    StampSlices(now);
    StampInName(FormatStamp(now));
    ParseFormatCompact(now);
  }

  /** Where the two halves of a fifteen-character stamp sit in the file name. */
  lemma {:induction false} StampInName(stamp: string)
    requires |stamp| == 15
    ensures var n := "vad_recording_" + stamp + ".mp3";
            |n| == 33 && n[14..22] == stamp[0..8] && n[23..29] == stamp[9..15]
  {
    SliceOfMiddle("vad_recording_", stamp, ".mp3", 0, 8);
    SliceOfMiddle("vad_recording_", stamp, ".mp3", 9, 15);
  }

  /** What `save_recording` leaves behind: the MP3 file it wrote, if any,
      and whether the vault manager was handed that file. */
  datatype Saving = Saving(written: Option<string>, handedOn: bool)

  /** `save_recording`.  `exports` says whether every step up to and
      including the MP3 export works; `notifies` whether the manager's
      `process_vad_recording` then returns (the `ObsidianManager` of
      src/obsidian_manager.py has no such method, so there it raises).  An
      error at either point is swallowed; a file exported before the
      notification fails stays written. */
  function SaveRecording(vaultPath: string, outputFolder: string, now: DateTime, exports: bool, notifies: bool): (r: Saving)
    requires Valid(now)
    ensures r.written.Some? <==> exports
    ensures r.written.Some? ==> Basename(r.written.value) == VadFileName(now)
                                && StartsWith(r.written.value, Join(vaultPath, outputFolder))
    ensures r.handedOn <==> exports && notifies
  {
    if !exports then Saving(None, false)
    else Saving(Some(VadRecordingPath(vaultPath, outputFolder, now)), notifies)
  }

  /** The file a save writes records the moment it was saved: the time
      read back from its name is the clock reading the save used. */
  lemma {:induction false} SavedFileRecordsItsTime(vaultPath: string, outputFolder: string, now: DateTime,
                                                   exports: bool, notifies: bool)
    requires Valid(now)
    ensures var r := SaveRecording(vaultPath, outputFolder, now, exports, notifies);
            r.written.Some? ==>
              var n := Basename(r.written.value);
              |n| == 33 && ParseCompact(n[14..22] + n[23..29]) == Some(now)
  {
    VadFileNameRoundTrip(now);
  }
}

=== FILE: windows_monitor.dfy ===
/** The Windows drive monitor (src/windows_drive_monitor.py): drive letters
    come from the logical-drives bitmask, a drive counts when its drive type
    is "removable", existing recordings are scanned before a folder is
    observed, and drives that disappear are dropped from the monitored set
    one by one while their observers keep running.
 */
module WindowsMonitor {
  import opened Outcomes
  import opened Strings
  import opened DriveMonitoring

  /** The number of drive letters, `A` to `Z`. */
  const LetterCount: nat := 26

  /** The drive type the Windows API reports for removable media. */
  const DriveRemovable: int := 2

  /** `2^n`. */
  function Pow2(n: nat): (p: nat)
    ensures p >= 1
  {
    if n == 0 then 1 else 2 * Pow2(n - 1)
  }

  /** `k * 2^n`: a multiple of bit `n`'s weight. */
  function Scaled(k: nat, n: nat): nat {
    k * Pow2(n)
  }

  /** One more bit position doubles the weight. */
  lemma {:induction false} ScaledDouble(k: nat, n: nat)
    ensures Scaled(k, n + 1) == 2 * Scaled(k, n)
  {
    assert Pow2(n + 1) == 2 * Pow2(n);
    assert k * (2 * Pow2(n)) == 2 * (k * Pow2(n));
  }

  /** Bit `i` of `mask`, the reference reading of a bitmask. */
  predicate Bit(mask: nat, i: nat)
    decreases i
  {
    if i == 0 then mask % 2 == 1 else Bit(mask / 2, i - 1)
  }

  /** The drive name of letter number `i`: `A:` for 0, `B:` for 1, ... */
  function DriveName(i: nat): (d: string)
    requires i < LetterCount
    ensures |d| == 2 && d[0] as int == 'A' as int + i && d[1] == ':'
  {
    [('A' as int + i) as char, ':']
  }

  /** The loop of `get_available_drives` from letter `i` on, with `rest`
      the bitmask already shifted right `i` times. */
  function DrivesFrom(i: nat, rest: nat): seq<string>
    requires i <= LetterCount
    decreases LetterCount - i
  {
    if i == LetterCount then []
    else if rest % 2 == 1 then [DriveName(i)] + DrivesFrom(i + 1, rest / 2)
    else DrivesFrom(i + 1, rest / 2)
  }

  /** `ds` lists letters from number `lo` on, each followed by a colon, in
      ascending order. */
  predicate LettersFrom(ds: seq<string>, lo: nat) {
    && (forall k :: 0 <= k < |ds| ==>
          |ds[k]| == 2 && ds[k][1] == ':' && 'A' as int + lo <= ds[k][0] as int < 'A' as int + LetterCount)
    && (forall a, b :: 0 <= a < b < |ds| ==> ds[a][0] < ds[b][0])
  }

  /** What the loop lists from letter `i` on are such letters. */
  lemma {:induction false} DrivesFromShape(i: nat, rest: nat)
    requires i <= LetterCount
    ensures LettersFrom(DrivesFrom(i, rest), i)
    decreases LetterCount - i
  {
    if i < LetterCount {
      DrivesFromShape(i + 1, rest / 2);
      var tail := DrivesFrom(i + 1, rest / 2);
      if rest % 2 == 1 {
        var ds := [DriveName(i)] + tail;
        assert DrivesFrom(i, rest) == ds;
        forall k | 0 <= k < |ds|
          ensures |ds[k]| == 2 && ds[k][1] == ':' && 'A' as int + i <= ds[k][0] as int < 'A' as int + LetterCount
        {
          if k > 0 {
            assert ds[k] == tail[k - 1];
          }
        }
        forall a, b | 0 <= a < b < |ds| ensures ds[a][0] < ds[b][0] {
          assert ds[b] == tail[b - 1];
          if a > 0 {
            assert ds[a] == tail[a - 1];
          }
        }
      } else {
        assert DrivesFrom(i, rest) == tail;
      }
    }
  }

  /** `get_available_drives`: the names of the letters whose bit is set. */
  function AvailableDrives(mask: nat): seq<string> {
    DrivesFrom(0, mask)
  }

  /** The names listed are letters `A:` to `Z:`, in strictly ascending order. */
  lemma {:induction false} AvailableDrivesShape(mask: nat)
    ensures var ds := AvailableDrives(mask);
            && (forall k :: 0 <= k < |ds| ==>
                  |ds[k]| == 2 && ds[k][1] == ':' && 'A' as int <= ds[k][0] as int < 'A' as int + LetterCount)
            && (forall a, b :: 0 <= a < b < |ds| ==> ds[a][0] < ds[b][0])
  {
    DrivesFromShape(0, mask);
  }

  lemma {:induction false} DrivesFromMembers(i: nat, rest: nat)
    requires i <= LetterCount
    ensures forall j :: i <= j < LetterCount ==> (DriveName(j) in DrivesFrom(i, rest) <==> Bit(rest, j - i))
    decreases LetterCount - i
  {
    if i < LetterCount {
      DrivesFromMembers(i + 1, rest / 2);
      DrivesFromShape(i + 1, rest / 2);
      var tail := DrivesFrom(i + 1, rest / 2);
      assert DriveName(i) !in tail by {
        assert LettersFrom(tail, i + 1);
      }
      forall j | i <= j < LetterCount
        ensures DriveName(j) in DrivesFrom(i, rest) <==> Bit(rest, j - i)
      {
        if j != i {
          assert DriveName(j) != DriveName(i) by {
            assert DriveName(j)[0] != DriveName(i)[0];
          }
          assert Bit(rest, j - i) == Bit(rest / 2, j - (i + 1));
        }
      }
    }
  }

  /** A drive letter is listed exactly when its bit is set. */
  lemma {:induction false} AvailableDrivesMembers(mask: nat)
    ensures var ds := AvailableDrives(mask);
            forall i :: 0 <= i < LetterCount ==> (DriveName(i) in ds <==> Bit(mask, i))
  {
    DrivesFromMembers(0, mask);
    var ds := AvailableDrives(mask);
    assert ds == DrivesFrom(0, mask);
    forall i | 0 <= i < LetterCount ensures DriveName(i) in ds <==> Bit(mask, i) {
      assert DriveName(i) in DrivesFrom(0, mask) <==> Bit(mask, i - 0);
    }
  }

  /** Adding a multiple of `2^(n+1)` does not change bit 0, and halving
      leaves a multiple of `2^n`. */
  lemma {:induction false} ShiftStep(mask: nat, k: nat, n: nat)
    ensures (mask + Scaled(k, n + 1)) % 2 == mask % 2
    ensures (mask + Scaled(k, n + 1)) / 2 == mask / 2 + Scaled(k, n)
  {
    ScaledDouble(k, n);
  }

  lemma {:induction false} DrivesFromHighBits(i: nat, rest: nat, k: nat)
    requires i <= LetterCount
    ensures DrivesFrom(i, rest + Scaled(k, LetterCount - i)) == DrivesFrom(i, rest)
    decreases LetterCount - i
  {
    if i < LetterCount {
      var n := LetterCount - i - 1;
      var x := rest + Scaled(k, n + 1);
      ShiftStep(rest, k, n);
      DrivesFromHighBits(i + 1, rest / 2, k);
      assert DrivesFrom(i, x) == (if x % 2 == 1 then [DriveName(i)] else []) + DrivesFrom(i + 1, x / 2);
    }
  }

  /** An empty mask lists no drive. */
  lemma {:induction false} NoBitsNoDrives(i: nat)
    requires i <= LetterCount
    ensures DrivesFrom(i, 0) == []
    decreases LetterCount - i
  {
    if i < LetterCount {
      NoBitsNoDrives(i + 1);
    }
  }

  /** Bits from 26 on name no drive letter and are ignored: adding any
      multiple of `2^26` to the mask lists the same drives. */
  lemma {:induction false} HighBitsIgnored(mask: nat, k: nat)
    ensures AvailableDrives(mask + Scaled(k, LetterCount)) == AvailableDrives(mask)
  {
    DrivesFromHighBits(0, mask, k);
  }

  /** `is_removable_drive`: the drive type query succeeds and reports
      removable media; a failing query counts as "not removable". */
  predicate IsRemovableDrive(driveType: Attempt<int>) {
    driveType == Returned(DriveRemovable)
  }

  /** The record folder of a drive: the drive's root directory joined with
      the configured folder name; `None` when the name is not configured. */
  function WindowsRecordPath(drive: string, folderName: Option<string>): (p: Option<string>)
    ensures p.Some? <==> folderName.Some?
    ensures p.Some? ==> StartsWith(p.value, drive + "\\") && EndsWith(p.value, folderName.value)
    ensures p.Some? ==> |p.value| == |drive| + 1 + |folderName.value|
  {
    match folderName
    case None => None
    case Some(name) =>
      var root := drive + "\\";
      var path := root + name;
      assert path[..|root|] == root;
      assert path[|path| - |name|..] == name;
      Some(path)
  }

  /** The drives of the iteration: the listed letters whose drive type is
      "removable". */
  function CurrentDrives(mask: nat, driveType: string -> Attempt<int>): set<string> {
    set d | d in AvailableDrives(mask) && IsRemovableDrive(driveType(d))
  }

  /** One iteration of `monitor_drives`.  `bitmask` is what the
      logical-drives query returned (a raise aborts the iteration, which is
      logged), `driveType` the drive-type query per drive.  After the pass
      over the current drives, the monitored drives that are not current
      are dropped; no observer is stopped. */
  function WindowsCycle(m: Monitor, bitmask: Attempt<nat>, driveType: string -> Attempt<int>,
                        folderName: Option<string>, probe: FolderProbe): (r: Checked)
    ensures bitmask.Raised? ==> r == Checked(m, [])
    ensures bitmask.Returned? ==>
              forall d :: d in r.monitor.monitored <==>
                d in CurrentDrives(bitmask.value, driveType)
                && (d in m.monitored || HasRecordFolder(WindowsRecordPath(d, folderName), probe))
    ensures IsPrefix(m.observers, r.monitor.observers)
    ensures ScanBeforeObserve(r.actions)
  {
    match bitmask
    case Raised => Checked(m, [])
    case Returned(mask) =>
      var drives := AvailableDrives(mask);
      var removable := d => IsRemovableDrive(driveType(d));
      var recordPath := d => WindowsRecordPath(d, folderName);
      var current := CurrentDrives(mask, driveType);
      var pass := CheckAll(m, drives, removable, recordPath, true, probe);
      CheckAllMonitors(m, drives, removable, recordPath, true, probe);
      ScansComeFirst(m, drives, removable, recordPath, probe);
      var removed := pass.monitor.monitored - current;
      var kept := pass.monitor.monitored - removed;
      assert forall d :: d in kept <==> d in current && (d in m.monitored || HasRecordFolder(recordPath(d), probe)) by {
        forall d ensures d in kept <==> d in current && (d in m.monitored || HasRecordFolder(recordPath(d), probe)) {
          assert d in pass.monitor.monitored <==> d in m.monitored || Eligible(d, drives, removable, recordPath, probe);
        }
      }
      Checked(Monitor(kept, pass.monitor.observers), pass.actions)
  }

  /** After an iteration every monitored drive is current, and the
      monitored drives that are still current stay monitored. */
  lemma {:induction false} WindowsCycleDropsOnlyVanished(m: Monitor, mask: nat, driveType: string -> Attempt<int>,
                                      folderName: Option<string>, probe: FolderProbe)
    ensures var r := WindowsCycle(m, Returned(mask), driveType, folderName, probe);
            && r.monitor.monitored <= CurrentDrives(mask, driveType)
            && m.monitored * CurrentDrives(mask, driveType) <= r.monitor.monitored
  {
  }

  lemma {:induction false} SkipClearBit(i: nat, rest: nat)
    requires i < LetterCount && rest % 2 == 0
    ensures DrivesFrom(i, rest) == DrivesFrom(i + 1, rest / 2)
  {
  }

  /** Bit 4 alone lists drive `E:` alone. */
  lemma {:induction false} SixteenIsDriveE()
    ensures AvailableDrives(16) == ["E:"]
  {
    NoBitsNoDrives(5);
    assert DrivesFrom(4, 1) == ["E:"] + DrivesFrom(5, 0);
    var mask := 16;
    SkipClearBit(0, mask);
    SkipClearBit(1, mask / 2);
    SkipClearBit(2, mask / 4);
    SkipClearBit(3, mask / 8);
  }

  /** A drive that disappears is no longer monitored, yet the observer
      started for it keeps running and stays in the observer list. */
  lemma {:induction false} RemovedDriveKeepsObserver(probe: FolderProbe)
    requires probe.present("E:\\RECORD") && probe.scans("E:\\RECORD") && probe.observes("E:\\RECORD")
    ensures var types := d => if d == "E:" then Returned(DriveRemovable) else Returned(3);
            var first := WindowsCycle(Idle, Returned(16), types, Some("RECORD"), probe);
            var second := WindowsCycle(first.monitor, Returned(0), types, Some("RECORD"), probe);
            && first.monitor == Monitor({"E:"}, ["E:\\RECORD"])
            && first.actions == [Scan("E:\\RECORD"), Observe("E:\\RECORD")]
            && second.monitor == Monitor({}, ["E:\\RECORD"])
  {
    var types := d => if d == "E:" then Returned(DriveRemovable) else Returned(3);
    var folder := "E:\\RECORD";
    var removable := d => IsRemovableDrive(types(d));
    var recordPath := d => WindowsRecordPath(d, Some("RECORD"));
    assert recordPath("E:") == Some(folder) by {
      assert "E:" + "\\" + "RECORD" == folder;
    }
    SixteenIsDriveE();
    var checked := CheckDrive(Idle, "E:", Some(folder), true, probe);
    assert checked == Checked(Monitor({"E:"}, [folder]), [Scan(folder), Observe(folder)]);
    assert CheckAll(Idle, ["E:"], removable, recordPath, true, probe) == checked by {
      assert types("E:") == Returned(DriveRemovable);
      assert removable("E:");
      assert ["E:"][1..] == [];
      assert CheckAll(checked.monitor, [], removable, recordPath, true, probe) == Checked(checked.monitor, []);
      assert checked.actions + [] == checked.actions;
    }
    var first := WindowsCycle(Idle, Returned(16), types, Some("RECORD"), probe);
    assert first.monitor == Monitor({"E:"}, [folder]);
    NoBitsNoDrives(0);
    assert CurrentDrives(0, types) == {};
    assert CheckAll(first.monitor, [], removable, recordPath, true, probe) == Checked(first.monitor, []);
  }
}
